=== FILE: README.md ===
# RxAI function calling and realtime client, in Dafny

This project models the core of RxAI, a reactive (Rx.NET) wrapper around the
OpenAI realtime conversation SDK. It has two parts.

- **Function calling** (`FunctionCallingHelper`, `FunctionDefinition`):
  - Methods marked `[FunctionDescription]` are turned into function
    definitions with a JSON parameter schema.
  - Those definitions are exported as conversation tools.
  - When the remote model asks for a call, the argument text is parsed and
    coerced to the parameter types. The target method is then found and
    invoked, and its result is awaited.
- **The realtime client** (`RealtimeConversationClientRX`):
  - A session state machine: no session, then initialized once.
  - The tool registry that `SetFunctionDefinitions` fills.
  - The update subject and its 24 typed streams (`OfType<K>`).
  - The handler that runs a function call that the model announces in a
    finished item.
  - The usage cell that `Usage.ParseFromBinaryData` fills from each finished
    response, and the total-cost cell computed from the four per-token prices.

Everything is a pure function over immutable data. Null and exceptions
become `Option`, `Result` and `Outcome` values. The exception type is kept
exactly, and so is its message wherever the source fixes the message, because
callers and tests match on them. Framework exceptions whose text the source
does not write (null reference, invalid cast, JSON errors) carry no message,
and an ambiguous match or a duplicate key carries only the name involved. The client
is a state record. What it asks of the session (configure, add item, start a
turn) and what it publishes (`FunctionCallStarted`, `FunctionCallEnded`,
`Usages`, `TotalCost`) are events appended to one trace, in order.

Reflection is replaced by explicit tables: a type is its list of methods, and
a method is its list of parameters and its attribute. Four things the model
cannot see become parameters, in `Dispatch.Env` and `Orchestrator.Host`:

- the invocation of the target method;
- JSON text parsing;
- `JsonElement.Deserialize` for types other than integers, numbers, `bool` and
  `string`;
- `ToString()` of a result that is not a null, a bool, an integer, a string,
  an enum or an opaque value.

## Where the code and its documentation differ, the model follows the code

- **A function call that throws.** `HandleFunctionCall` emits
  `FunctionCallStarted` and nothing else. The exception ends the handler's task
  (`src/RxAI.Realtime/RealtimeConversationClientRX.cs:324`), and `FireAndForget`
  discards it (`src/RxAI.Realtime/Helpers/Helpers.cs:9`). No error output is
  sent and no new turn is started.
- **Usage publication uses reference inequality.** `Usages.Value != usage`
  compares a freshly deserialized object with the one in the cell. So every
  snapshot that parses is published again, even one equal to the current value.
  The model gives each `Usage` object an identity to show this
  (`Orchestrator.IdenticalSnapshotRepublished`).
- **A payload with no `usage` key is an error, not a no-op.** `GetProperty`
  throws `KeyNotFoundException`, which is rethrown as "Required key not found in
  JSON.". That exception reaches the update pump and ends it.
- **A null definition name during initialization.** The session is already set
  when the name is checked. The definitions before the null one stay registered.
  The session is never configured, and the pump never starts.
- **Exported property schemas use capitalised keys.** `GetArgumentForJson`
  builds a dictionary, so its keys are "Type", "Description" and "Enum"
  (`src/RxAI.Realtime/FunctionCalling/FunctionCallingHelper.cs:364-380`).
- **Definitions bound to an owner are searched on the wrong type.**
  `PrepareMethodInvocation` passes the `WeakReference` handle to `FindMethod`,
  which searches the handle's own runtime type. The model makes that type a
  parameter (`Env.handleType`).
- **The end token is ignored.** `TryParseArguments` never reads it, so partial
  arguments parse exactly as complete ones.
- **Only a null name is rejected.** An empty function name passes both
  `ThrowIfNameIsNull` checks. An empty name in a finished item is filtered out
  earlier, by `string.IsNullOrEmpty`.
- **The not-found message names the wrong type.** It uses `type.GetType()`, so
  it always reads `System.RuntimeType`.
- **Private tool methods register but are never found.**
  `GetFunctionDefinitions` also reads non-public methods. `FindMethod` sees only
  public ones.
- **The two files of the client overlap.** `RealtimeConversationClientRX.cs`
  declares the class without `partial`, while
  `RealtimeConversationClientRX.Observables.cs` declares it `partial`. Both
  declare `Updates`, `Usages`, `TotalCost`, the function-call streams and the
  24 typed streams. The end-of-call stream is `FunctionCallEnded` in one file
  and `FunctionCallFinished` in the other. The model takes one view of all of
  these: one delivered sequence, one typed stream per kind, one usage cell, one
  cost cell, and one end-of-call event, `CallEnded`.

## Model

| member | source | states |
|---|---|---|
| Definitions.ThrowIfNameIsNull | src/CSharp/RxAI.Realtime/FunctionCalling/FunctionDefinition.cs:35-40 | fails exactly when the definition's name is null, with `InvalidFunctionCallException("Function name is null")` |
| Definitions.ThrowIfCallNameIsNull | src/RxAI.Realtime/FunctionCalling/FunctionCallingHelper.cs:474-478 | fails exactly when the call's name is null, with the message "Function Name is null." |
| Definitions.EmptyNamePasses | src/CSharp/RxAI.Realtime/FunctionCalling/FunctionDefinition.cs:38-39 | an empty name is not null, so both name checks let it through |
| Definitions.Get | src/CSharp/RxAI.Realtime/FunctionCalling/FunctionDefinition.cs:51 | the property dictionary's indexer: nothing when no entry has the key, otherwise the entry stored under that key |
| ClrTypes.DefaultValue | src/RxAI.Realtime/FunctionCalling/FunctionCallingHelper.cs:271 | the value supplied for a missing argument is null exactly for reference types; integer, number, bool and enum types get their zero |
| Schema.EnumValues | src/RxAI.Realtime/FunctionCalling/FunctionCallingHelper.cs:173-175 | with no or an empty override, the allowed values are the enum's member names; otherwise there is one value per comma-separated piece of the override, in order, each piece trimmed, so no value contains a comma or has white space at either end |
| Schema.EnumOverrideRoundTrip | src/RxAI.Realtime/FunctionCalling/FunctionCallingHelper.cs:175 | an override written as comma-free names, each padded with white space or not (`"A, B ,C"`), yields exactly the names without their padding |
| Text.Trim | src/RxAI.Realtime/FunctionCalling/FunctionCallingHelper.cs:175 | `Trim()` removes only white space: the result is the input with a blank prefix and a blank suffix cut off, and has no white space at either end |
| Text.TrimPadded | src/RxAI.Realtime/FunctionCalling/FunctionCallingHelper.cs:175 | trimming a blank-padded text without outer white space gives exactly that text |
| Schema.CreateFunctionProperty | src/RxAI.Realtime/FunctionCalling/FunctionCallingHelper.cs:162-182 | succeeds exactly for the supported types; the JSON type is the one `JsonTypeName` gives; only enums carry allowed values; the description is the attribute's; any other type throws "Parameter type '…' not supported" |
| Schema.JsonTypeName | src/RxAI.Realtime/FunctionCalling/FunctionCallingHelper.cs:164-179 | a type has a JSON type exactly when it is supported: "integer" only for integer types, "number" only for floating and decimal types, "boolean" only for `bool`, "string" only for strings and enums |
| Schema.RequiredKeys | src/RxAI.Realtime/FunctionCalling/FunctionCallingHelper.cs:53-54 | a key is in the required list exactly when some parameter is required and has that key |
| Schema.RequiredKeysSnoc | src/RxAI.Realtime/FunctionCalling/FunctionCallingHelper.cs:53-54 | adding a parameter extends the required list by its key exactly when it is required |
| Schema.BuildParameters | src/RxAI.Realtime/FunctionCalling/FunctionCallingHelper.cs:40-55 | succeeds exactly when every parameter passes its step (a supported type and a key no earlier parameter has); otherwise fails with the first failing parameter's exception; on success there is one property per parameter, in order, under its key, each the property that parameter creates, and the required keys are listed in order |
| Schema.ExtendParameters | src/RxAI.Realtime/FunctionCalling/FunctionCallingHelper.cs:42-54 | adding one parameter fails exactly when its step fails, with that step's exception; otherwise the dictionary and required list grow by that parameter alone |
| Schema.FirstFailureExtends | src/RxAI.Realtime/FunctionCalling/FunctionCallingHelper.cs:40-55 | a first failure among the earlier parameters stays the first failure when a parameter is added |
| Schema.GetFunctionDefinition | src/RxAI.Realtime/FunctionCalling/FunctionCallingHelper.cs:23-58 | the name is the attribute's `Name`, otherwise the method's name; the description is the attribute's; the owner is the given instance and the owner type is the declaring type; the properties and the required list are those of `BuildParameters`; it fails exactly when `BuildParameters` does, with that first failing parameter's exception |
| Schema.RequiredArePropertyKeys | src/RxAI.Realtime/FunctionCalling/FunctionCallingHelper.cs:49-54 | a key is in `Required` exactly when it is the property key of a required parameter |
| Schema.ToolMethods | src/RxAI.Realtime/FunctionCalling/FunctionCallingHelper.cs:89-92 | the methods registered are exactly the attributed ones that are static, or any attributed one when an instance is given; `ToolMethodsAppend` states that their reflection order is kept |
| Schema.ToolMethodsAppend | src/RxAI.Realtime/FunctionCalling/FunctionCallingHelper.cs:89-92 | filtering keeps reflection order: the tool methods of two runs of methods are those of the first followed by those of the second |
| Schema.DefinitionsOf | src/RxAI.Realtime/FunctionCalling/FunctionCallingHelper.cs:93 | definition i is the definition built from method i; a failure is the exception of the first method that fails to build, every earlier one building |
| Schema.GetFunctionDefinitions | src/RxAI.Realtime/FunctionCalling/FunctionCallingHelper.cs:87-96 | definition i is the one built from the i-th tool method in reflection order, so each is named, declared by the type and owned by the given instance (static methods included); it fails exactly when some tool method has a bad parameter, with the exception of the first such method |
| Schema.TypeOnlyRegistersStatic | src/RxAI.Realtime/FunctionCalling/FunctionCallingHelper.cs:89 | registering by type alone never registers an instance method |
| ToolExport.PropertyJson | src/RxAI.Realtime/FunctionCalling/FunctionCallingHelper.cs:364-380 | the property object always has "Type", has "Description" and "Enum" exactly when they are set, and has no other key |
| ToolExport.PropertyDescriptionLookup | src/RxAI.Realtime/FunctionCalling/FunctionCallingHelper.cs:370-371 | the exported property has a "Description" member exactly when the parameter has a description, holding its text |
| ToolExport.PropertyEnumLookup | src/RxAI.Realtime/FunctionCalling/FunctionCallingHelper.cs:373-374 | the exported property has an "Enum" member exactly when it has allowed values, holding them as a JSON array |
| ToolExport.ToConversationTool | src/RxAI.Realtime/FunctionCalling/FunctionCallingHelper.cs:338-357 | the tool keeps the definition's name and description; its schema is an object with "type" "object" and "additionalProperties" false |
| ToolExport.ReadStringsRoundTrip | src/RxAI.Realtime/FunctionCalling/FunctionCallingHelper.cs:346 | a list of strings written as a JSON array reads back unchanged |
| ToolExport.ReadPropertyRoundTrip | src/RxAI.Realtime/FunctionCalling/FunctionCallingHelper.cs:364-380 | each exported property reads back as the property it came from |
| ToolExport.ExportRoundTrip | src/RxAI.Realtime/FunctionCalling/FunctionCallingHelper.cs:338-357 | reading the exported schema gives back the definition's properties, in order, and its required names; a missing parameter block exports as empty |
| Coercion.ArgumentsOf | src/RxAI.Realtime/FunctionCalling/FunctionCallingHelper.cs:324 | the argument dictionary has exactly the object's keys, and a repeated key keeps its last value |
| Coercion.TryParseArguments | src/RxAI.Realtime/FunctionCalling/FunctionCallingHelper.cs:319-331 | null or blank text gives an empty dictionary; text that does not parse as an object or null is a failure; an object gives its members |
| Coercion.EndTokenIgnored | src/RxAI.Realtime/FunctionCalling/FunctionCallingHelper.cs:213 | the partial-arguments end token changes nothing |
| Coercion.FirstMatchIgnoreCase | src/RxAI.Realtime/FunctionCalling/FunctionCallingHelper.cs:277 | finds the first enum member equal to the text ignoring case, or reports that none is |
| Coercion.ParseEnum | src/RxAI.Realtime/FunctionCalling/FunctionCallingHelper.cs:277 | `Enum.TryParse` with ignore-case: no text is no value; a result needs non-blank trimmed text; a name result is a member that equals the trimmed text ignoring case |
| Coercion.ParseTrimmedEnum | src/RxAI.Realtime/FunctionCalling/FunctionCallingHelper.cs:277 | numeric text within 32 bits gives that number whether or not a member has it; a comma-free name matches a member exactly when one equals it ignoring case |
| Coercion.Deserialize | src/RxAI.Realtime/FunctionCalling/FunctionCallingHelper.cs:289 | integer types accept exactly integer literals within their range; `float` and `double` accept exactly the numeric literals that do not round to infinity, `decimal` those within its range; `bool` accepts booleans; `string` accepts strings and null |
| Coercion.NumberRangesNested | src/RxAI.Realtime/FunctionCalling/FunctionCallingHelper.cs:289 | a number `decimal` accepts, `float` accepts, and one `float` accepts, `double` accepts; 1e39 is accepted by `double` and rejected by `float` |
| Coercion.CoerceArgument | src/RxAI.Realtime/FunctionCalling/FunctionCallingHelper.cs:261-292 | a missing key gives the type's default; a JSON null is a null-reference failure; an enum argument is its `Enum.TryParse` value, or "Invalid enum value for parameter …"; any other argument succeeds exactly when it deserializes, with the deserialized value, and otherwise fails with a JSON error |
| Coercion.ElementText | src/RxAI.Realtime/FunctionCalling/FunctionCallingHelper.cs:277 | `JsonElement.ToString()` has a text exactly for strings, integers, booleans and null: a string's contents, an integer's decimal text, "True" for true and "False" for false, and "" for null |
| Coercion.EnumErrorMessage | src/RxAI.Realtime/FunctionCalling/FunctionCallingHelper.cs:283-284 | the invalid-enum message starts by naming the parameter and then lists the options |
| Coercion.PrepareArguments | src/RxAI.Realtime/FunctionCalling/FunctionCallingHelper.cs:257-296 | succeeds exactly when every parameter coerces; then it gives one value per parameter, in order, each that parameter's coercion; otherwise it gives a failing parameter's exception |
| Coercion.EnumArgument | src/RxAI.Realtime/FunctionCalling/FunctionCallingHelper.cs:275-285 | a non-null enum argument becomes the value `Enum.TryParse` gives its text, or the invalid-enum error when there is none |
| Coercion.EmptyArgumentsGiveDefaults | src/RxAI.Realtime/FunctionCalling/FunctionCallingHelper.cs:269-272 | coercing `{}` never fails, and every parameter gets its type's default |
| Coercion.EnumErrorListsEveryMember | src/RxAI.Realtime/FunctionCalling/FunctionCallingHelper.cs:283-284 | the invalid-enum message names the parameter and every member of the enum |
| Coercion.IdentifierIsName | src/RxAI.Realtime/FunctionCalling/FunctionCallingHelper.cs:277 | an identifier is its own trim, does not start like a number and holds no comma, so `Enum.TryParse` reads it as a name |
| Coercion.EnumMatchIgnoresCase | src/RxAI.Realtime/FunctionCalling/FunctionCallingHelper.cs:277 | a name equal to a member ignoring case selects that member or an earlier one equal to it ignoring case |
| Coercion.AdvertisedEnumValuesAccepted | src/RxAI.Realtime/FunctionCalling/FunctionCallingHelper.cs:173-174 | when there is no override, every advertised enum value is accepted as an argument |
| Coercion.OverrideValueRejected | src/RxAI.Realtime/FunctionCalling/FunctionCallingHelper.cs:175 | an advertised override value that is no member name is rejected with the invalid-enum error, because coercion never reads the override |
| Coercion.UnknownNameRejected | src/RxAI.Realtime/FunctionCalling/FunctionCallingHelper.cs:275-285 | an identifier that equals no member ignoring case is rejected with the invalid-enum error |
| Coercion.UnknownIdentifierUnparsed | src/RxAI.Realtime/FunctionCalling/FunctionCallingHelper.cs:277 | `Enum.TryParse` of an identifier that equals no member ignoring case gives no value |
| Coercion.IntToStringTrimmed | src/RxAI.Realtime/FunctionCalling/FunctionCallingHelper.cs:277 | the decimal text of an integer is its own trim and starts like a number |
| Coercion.ParseEnumOfTrimmed | src/RxAI.Realtime/FunctionCalling/FunctionCallingHelper.cs:277 | trimming leaves already-trimmed text unchanged before the parse |
| Coercion.NumericEnumText | src/RxAI.Realtime/FunctionCalling/FunctionCallingHelper.cs:277 | the text of any 32-bit number parses as that number, even one no member has |
| Coercion.NumericEnumArgumentAccepted | src/RxAI.Realtime/FunctionCalling/FunctionCallingHelper.cs:275-280 | any 32-bit number is accepted for an enum parameter, as a string or as a JSON number |
| Dispatch.PublicNamed | src/RxAI.Realtime/FunctionCalling/FunctionCallingHelper.cs:244 | the candidates of `GetMethod` are exactly the public methods with that CLR name |
| Dispatch.PublicNamedSingle | src/RxAI.Realtime/FunctionCalling/FunctionCallingHelper.cs:244 | when one public method has the name, it is the only candidate |
| Dispatch.PublicNamedNone | src/RxAI.Realtime/FunctionCalling/FunctionCallingHelper.cs:244 | when no public method has the name, there is no candidate |
| Dispatch.FirstAttributeNamed | src/RxAI.Realtime/FunctionCalling/FunctionCallingHelper.cs:245-247 | finds the first public method whose attribute gives it the name, or reports that there is none |
| Dispatch.FindMethod | src/RxAI.Realtime/FunctionCalling/FunctionCallingHelper.cs:242-249 | one public method with the CLR name is found; several are an ambiguous-match failure; with none, the first public method whose attribute has the name is found, as `Array.Find` returns; otherwise it fails with "Method '…' on type 'System.RuntimeType' not found." |
| Dispatch.RegisteredToolIsFound | src/RxAI.Realtime/FunctionCalling/FunctionCallingHelper.cs:242-249 | a public tool method is found under its registered name when no other public method takes that name |
| Dispatch.PrivateToolRegisteredButNotFound | src/RxAI.Realtime/FunctionCalling/FunctionCallingHelper.cs:89-93 | a private attributed method is registered but cannot be found by its registered name |
| Dispatch.CompatibleReturnTypes | src/RxAI.Realtime/FunctionCalling/FunctionCallingHelper.cs:304-310 | `object` accepts every return type; `T` accepts `T` and `Task<T>`; `void` is accepted only for `void` or `object` |
| Dispatch.IsCompatibleReturnType | src/RxAI.Realtime/FunctionCalling/FunctionCallingHelper.cs:304-310 | the expected type is assignable from the return type, or from `U` when the return type is `Task<U>`; its consequences are the ones `CompatibleReturnTypes` states |
| Dispatch.PrepareMethodInvocation | src/RxAI.Realtime/FunctionCalling/FunctionCallingHelper.cs:193-218 | a null call name fails first; with neither an owner nor an owner type the lookup throws a null reference; a failed lookup is the result; then an incompatible return type fails ("Method '…' … has return type …"), then unparseable arguments ("Failed to parse function arguments."), then the first argument that does not coerce, with its exception; when every step passes it succeeds, and then the method is the one `FindMethod` finds on the searched type, the target is the owner, and there is one coerced value per parameter |
| Dispatch.RegisteredToolDispatches | src/RxAI.Realtime/FunctionCalling/FunctionCallingHelper.cs:193-218 | a registered static tool called by its registered name with no arguments is prepared with every parameter at its default |
| Dispatch.CastResult | src/RxAI.Realtime/FunctionCalling/FunctionCallingHelper.cs:152 | the result cast passes a value through unchanged and fails exactly for null cast to a value type |
| Dispatch.Complete | src/RxAI.Realtime/FunctionCalling/FunctionCallingHelper.cs:134-152 | a faulted task rethrows; a null task of a task-returning method throws a null reference; a plain `Task` gives the expected type's default; any other result is returned, except that a null cast to a value type throws a null reference |
| Dispatch.CallFunctionAsync | src/RxAI.Realtime/FunctionCalling/FunctionCallingHelper.cs:128-153 | a failed preparation is the result, and only a successful one can succeed; the method is then invoked on the definition's owner: a faulted invocation rethrows its exception, a completed plain `Task` gives the expected type's default, a null task or a null result for a value type throws a null reference, and any other result is the value returned |
| Dispatch.RegisteredToolCallReturns | src/RxAI.Realtime/FunctionCalling/FunctionCallingHelper.cs:128-153 | calling a registered static tool by its registered name with no arguments returns what its invocation with default arguments completes with, or the expected type's default for a plain `Task` |
| UsageModel.LookupIgnoreCase | src/RxAI.Realtime/Usage.cs:55-60 | the case-insensitive deserializer keeps the last member whose name matches the field ignoring case |
| UsageModel.LookupIgnoreCaseLastWins | src/RxAI.Realtime/Usage.cs:55-60 | the members before the last matching one do not affect the field |
| UsageModel.KeysDistinct | src/RxAI.Realtime/Usage.cs:14-39 | no name matches both `total_tokens` and `input_tokens`, nor both `cached_tokens` and `text_tokens`, ignoring case |
| UsageModel.AllKeysDistinct | src/RxAI.Realtime/Usage.cs:14-39 | no member name matches two different fields of `Usage`, nor two of `TokenDetails`, ignoring case |
| UsageModel.ReadInt32 | src/RxAI.Realtime/Usage.cs:15 | an `int` field accepts exactly integer literals within 32 bits |
| UsageModel.SetDetailsMember | src/RxAI.Realtime/Usage.cs:86-99 | one member of a token-details object updates its field or fails as a JSON error |
| UsageModel.ReadDetailsMembers | src/RxAI.Realtime/Usage.cs:81-100 | a token-details object fails on any invalid member; otherwise each counter is its last member's value, or 0 |
| UsageModel.ReadDetails | src/RxAI.Realtime/Usage.cs:33 | a detail group is null for JSON null, a group for a valid object, and a JSON error otherwise |
| UsageModel.SetUsageMember | src/RxAI.Realtime/Usage.cs:14-39 | one member of a usage object succeeds exactly when it is valid for the field it names; unknown names are ignored |
| UsageModel.DescribesStep | src/RxAI.Realtime/Usage.cs:60 | reading one more valid member updates exactly the field it names |
| UsageModel.ReadUsageMembers | src/RxAI.Realtime/Usage.cs:60 | a usage object succeeds exactly when every member is valid; then every field holds its last matching member's value or its default |
| UsageModel.DeserializeUsage | src/RxAI.Realtime/Usage.cs:60 | `Deserialize<Usage>`: JSON null is no snapshot; a valid object is its snapshot; anything else is a JSON error |
| UsageModel.ParseFromBinaryData | src/RxAI.Realtime/Usage.cs:47-75 | unparseable text is "JSON Parsing Error."; a root that is not an object, or a `response` that is not one, is "An unexpected error occurred."; a missing `response` key, or a missing `usage` key, is "Required key not found in JSON."; a `usage` value the deserializer rejects is "JSON Parsing Error."; otherwise the result is what the deserializer makes of `response.usage`; these are the only failures |
| Json.Lookup | src/RxAI.Realtime/Usage.cs:53 | `GetProperty`: nothing when no member has the key, otherwise the value of the last member with it |
| UsageModel.OnlyUsagePathMatters | src/RxAI.Realtime/Usage.cs:53 | two payloads that agree at `response.usage` parse alike |
| UsageModel.DetailsRoundTrip | src/RxAI.Realtime/Usage.cs:81-100 | a token-details group written as the service writes it reads back unchanged |
| UsageModel.UsageLookups | src/RxAI.Realtime/Usage.cs:14-39 | in an encoded snapshot, each field's lookup finds its own member |
| UsageModel.EncodedFieldLookup | src/RxAI.Realtime/Usage.cs:14-39 | in an encoded snapshot, looking up any member's own name ignoring case finds that member's value |
| UsageModel.UsageMembersRoundTrip | src/RxAI.Realtime/Usage.cs:60 | deserializing the encoded members gives back the snapshot |
| UsageModel.ParseRoundTrip | src/RxAI.Realtime/Usage.cs:47-61 | parsing a payload that carries a snapshot at `response.usage` gives back that snapshot |
| UsageModel.NullUsageIsNoSnapshot | src/RxAI.Realtime/Usage.cs:60-61 | a JSON null at `response.usage` is no snapshot and no error |
| UsageModel.AbsentFieldsDefault | src/RxAI.Realtime/Usage.cs:60 | an empty `usage` object is the all-zero snapshot with no detail groups |
| Cost.CostIsSumOverKinds | src/RxAI.Realtime/RealtimeConversationClientRX.cs:134-151 | the total cost is, over the four priced kinds, tokens times price, with a missing detail group counting nothing |
| Cost.CalculateTotalCost | src/RxAI.Realtime/RealtimeConversationClientRX.cs:134-151 | a snapshot without detail groups costs nothing, and so does any snapshot before prices are set; the full sum is the one `CostIsSumOverKinds` states |
| Cost.CostNonNegative | src/RxAI.Realtime/RealtimeConversationClientRX.cs:134-151 | non-negative counts and prices give a non-negative cost |
| Cost.CostDependsOnPricedCountsOnly | src/RxAI.Realtime/RealtimeConversationClientRX.cs:134-151 | snapshots that agree on the four priced counts cost the same, whatever their totals and cached tokens |
| Cost.EmptyUsageCostsNothing | src/RxAI.Realtime/RealtimeConversationClientRX.cs:52 | the fresh `Usage` the cell starts with costs nothing |
| Cost.CostScalesWithPrices | src/RxAI.Realtime/RealtimeConversationClientRX.cs:134-151 | the cost is linear in the prices: multiplying every price by a factor multiplies the cost by it |
| Demux.KindOf | src/RxAI.Realtime/RealtimeConversationClientRX.Observables.cs:22-137 | an update is of the item-finished kind, or of the response-finished kind, exactly when it carries that kind's data |
| Demux.OfType | src/RxAI.Realtime/RealtimeConversationClientRX.Observables.cs:22-137 | a typed stream holds only updates of its kind, and every delivered update of its kind |
| Demux.OfTypeIsSubsequence | src/RxAI.Realtime/RealtimeConversationClientRX.Observables.cs:22-137 | a typed stream is the delivered sequence with some updates left out and the rest in delivery order |
| Demux.Positions | src/RxAI.Realtime/RealtimeConversationClientRX.Observables.cs:22-137 | the positions of a kind are in range, increasing, and complete |
| Demux.OfTypeIsPositions | src/RxAI.Realtime/RealtimeConversationClientRX.Observables.cs:22-137 | a typed stream is exactly the updates at the positions of its kind, in order |
| Demux.OfTypeAppend | src/RxAI.Realtime/RealtimeConversationClientRX.Observables.cs:22-137 | delivering more updates only appends to each typed stream |
| Demux.OfTypeMembership | src/RxAI.Realtime/RealtimeConversationClientRX.Observables.cs:22-137 | an update is in a typed stream exactly when it was delivered and has the stream's kind |
| Demux.OfTypeIdempotent | src/RxAI.Realtime/RealtimeConversationClientRX.Observables.cs:22-137 | filtering a typed stream by its own kind changes nothing |
| Demux.StreamsDisjoint | src/RxAI.Realtime/RealtimeConversationClientRX.Observables.cs:22-137 | no update reaches two typed streams |
| Demux.Demultiplex | src/RxAI.Realtime/RealtimeConversationClientRX.Observables.cs:17-137 | handing each arriving update to the stream of its kind builds every typed stream |
| Demux.AllStreamsListed | src/RxAI.Realtime/RealtimeConversationClientRX.cs:25-48 | every stream kind is one of the 24 typed streams |
| Orchestrator.NewClient | src/RxAI.Realtime/RealtimeConversationClientRX.Observables.cs:152-157 | a new client has no session, no definitions and nothing published; its usage cell holds a fresh all-zero `Usage` and its cost cell holds 0 |
| Orchestrator.VerifySession | src/RxAI.Realtime/RealtimeConversationClientRX.cs:337-341 | fails with "Session not initialized" exactly when there is no session |
| Orchestrator.Send | src/RxAI.Realtime/RealtimeConversationClientRX.cs:174-261 | every session operation fails, and changes nothing, exactly when there is no session; otherwise it makes exactly its request |
| Orchestrator.LastNamedIndex | src/RxAI.Realtime/RealtimeConversationClientRX.cs:359 | the position of the last definition bearing a name, or none when no definition bears it |
| Orchestrator.LastNamedMeaning | src/RxAI.Realtime/RealtimeConversationClientRX.cs:359 | no definition is left under a name none of the definitions bears; otherwise the one left is the last bearing it |
| Orchestrator.LastNamedStep | src/RxAI.Realtime/RealtimeConversationClientRX.cs:359 | one more definition replaces what is left under its own name and no other |
| Orchestrator.RegistryStep | src/RxAI.Realtime/RealtimeConversationClientRX.cs:359 | storing the next named definition under its name keeps every name finding the last definition bearing it |
| Orchestrator.RegisterPrefix | src/RxAI.Realtime/RealtimeConversationClientRX.cs:350-360 | the tools are the exports of the named definitions, in order; each name finds the last definition bearing it; it passes exactly when no name is null; the first null name throws "Function name is null" and keeps what came before |
| Orchestrator.Register | src/RxAI.Realtime/RealtimeConversationClientRX.cs:348-361 | `SetFunctionDefinitions`: after clearing, one tool per definition in order and "last one wins" per name, or the first null name throws and leaves the earlier entries |
| Orchestrator.SetFunctionDefinitions | src/RxAI.Realtime/RealtimeConversationClientRX.cs:348-361 | the options' tools become the exports of the definitions in order and the registry makes each name find the last definition bearing it; it passes exactly when every name is non-null, and otherwise stops at the first null name with "Function name is null"; nothing else in the client or the options changes |
| Orchestrator.InitializeSession | src/RxAI.Realtime/RealtimeConversationClientRX.cs:82-107 | a second call throws "Session already initialized" and changes nothing; otherwise the session opens first; success means every definition was named, and then the configured options are sent and usage tracking and the pump start; a failure leaves the session open but unconfigured and not pumping; the caller's own options are refilled in place as `CallerOptions` states |
| Orchestrator.OpenSession | src/RxAI.Realtime/RealtimeConversationClientRX.cs:92-106 | once the session is set, success means every definition was named, and then the options are sent and tracking and the pump start; a failure sends nothing and starts nothing |
| Orchestrator.CallerOptions | src/RxAI.Realtime/RealtimeConversationClientRX.cs:94-95 | the caller's own options object is refilled in place with the exported tools, or with those before a null name; a second call, a call without definitions, or no options leave the caller's options as they were |
| Orchestrator.CallerOptionsWereSent | src/RxAI.Realtime/RealtimeConversationClientRX.cs:94-97 | after a successful initialization the caller's options are exactly the ones sent to the session |
| Orchestrator.SetupCost | src/RxAI.Realtime/RealtimeConversationClientRX.cs:160-166 | the four prices are set and nothing else changes |
| Orchestrator.UpdateUsage | src/RxAI.Realtime/RealtimeConversationClientRX.cs:113-127 | a parse failure propagates and changes nothing; a null usage changes nothing; a parsed snapshot always succeeds; validity is kept |
| Orchestrator.ResultText | src/RxAI.Realtime/RealtimeConversationClientRX.cs:324 | a null result reads "null", a string reads as itself, a boolean as "True" or "False", a named enum value as its member name, and an integer's text parses back to the integer |
| Orchestrator.HandleFunctionCall | src/RxAI.Realtime/RealtimeConversationClientRX.cs:312-331 | an unregistered name changes nothing; otherwise a failed invocation leaves only the started event; a successful one adds started, ended with the result text, the output under the call id, and a new turn; nothing but the trace changes |
| Orchestrator.Deliver | src/RxAI.Realtime/RealtimeConversationClientRX.cs:69-71 | every update joins the delivered sequence; only a finished response, once tracking has started, can fail; validity is kept |
| Orchestrator.DeliverRoutes | src/RxAI.Realtime/RealtimeConversationClientRX.cs:69-71 | a call-naming finished item runs the handler, and its exceptions are discarded; a finished response runs `UpdateUsage` once tracking has started; any other update only joins the delivered sequence |
| Orchestrator.Pump | src/RxAI.Realtime/RealtimeConversationClientRX.cs:102-106 | the pump delivers a prefix of the session's updates in order, and nothing without a running pump; validity is kept; `PumpDeliversAll` and `PumpStopsOnFinishedResponse` state when the prefix is all of them |
| Orchestrator.PumpStep | src/RxAI.Realtime/RealtimeConversationClientRX.cs:104-105 | one turn of the running pump: the first update is delivered, then the pump stops on an exception or goes on with the rest |
| Orchestrator.DeliverKeepsFlags | src/RxAI.Realtime/RealtimeConversationClientRX.cs:104-105 | delivering an update leaves the pump running or stopped, and usage tracking on or off, as it was |
| Orchestrator.PumpDeliversAll | src/RxAI.Realtime/RealtimeConversationClientRX.cs:104-105 | while usage is not tracked, or no finished response arrives, the running pump delivers every update, in order, and keeps running |
| Orchestrator.PumpStopsOnFinishedResponse | src/RxAI.Realtime/RealtimeConversationClientRX.cs:104-105 | when the running pump delivers fewer updates than it was given, it has stopped, and the last update it delivered was a finished response whose usage handling threw |
| Orchestrator.SessionStateMachine | src/RxAI.Realtime/RealtimeConversationClientRX.cs:84-85 | before initialization every session operation fails; after one initialization a second one fails without changing anything, and session operations succeed |
| Orchestrator.OperationsPreserveValid | src/RxAI.Realtime/RealtimeConversationClientRX.cs:82-127 | every public operation and delivery keeps the client valid: nothing runs without a session, and the cell holds an object already created |
| Orchestrator.EverySnapshotPublished | src/RxAI.Realtime/RealtimeConversationClientRX.cs:120-126 | every parsed snapshot is published, then its cost, recomputed from it alone at the current prices |
| Orchestrator.IdenticalSnapshotRepublished | src/RxAI.Realtime/RealtimeConversationClientRX.cs:122 | the same response handled twice publishes the snapshot and its cost twice |
| Orchestrator.NoSnapshotNoPublication | src/RxAI.Realtime/RealtimeConversationClientRX.cs:115-118 | a null usage, or a failed parse, publishes nothing |
| Orchestrator.UnknownFunctionDropped | src/RxAI.Realtime/RealtimeConversationClientRX.cs:314-318 | a call naming an unregistered function only joins the delivered updates |
| Orchestrator.KnownFunctionProtocol | src/RxAI.Realtime/RealtimeConversationClientRX.cs:320-330 | a call to a registered function that succeeds gives, in order: started, ended with the result text, the output under the update's call id, and a new response turn; the registry, the usage and the cost are untouched |
| Orchestrator.FailedCallOnlyStarted | src/RxAI.Realtime/RealtimeConversationClientRX.cs:71 | an invocation that throws leaves only the started event, and the delivery still succeeds |
| Orchestrator.OtherUpdatesOnlyDelivered | src/RxAI.Realtime/RealtimeConversationClientRX.cs:69-71 | any update other than a call-naming finished item or a finished response only joins the delivered updates |
| Orchestrator.TriggersCall | src/RxAI.Realtime/RealtimeConversationClientRX.cs:69-70 | the constructor's filter: item-finished updates naming a function with a non-empty name |
| Orchestrator.HandledCallsAreItemFinished | src/RxAI.Realtime/RealtimeConversationClientRX.cs:69-70 | every update that triggers a call is in the `ItemFinishedUpdates` stream |
| Orchestrator.PumpFeedsStreams | src/RxAI.Realtime/RealtimeConversationClientRX.cs:104-105 | each typed stream grows by exactly the updates of its kind among a prefix of what was pumped, and among all of it while usage is not tracked or no finished response arrives |
| Orchestrator.InitializeRegisters | src/RxAI.Realtime/RealtimeConversationClientRX.cs:95-96 | initializing with named definitions succeeds; each name then finds the last definition bearing it, and one tool is advertised per definition |

## Left out

- `CallFunction<T>` (the synchronous variant): for a method that returns a
  task, it returns the un-awaited task object cast to `T`, which the value
  model cannot represent; for any other method it casts the result directly,
  as the tail of `CallFunctionAsync` does. The awaited path,
  `CallFunctionAsync`, is modelled.
- `GetFunctionDefinitions(object)` and `GetFunctionDefinitions<T>()`: both are
  one-line forwards to `GetFunctionDefinitions(type, obj)`, which is modelled.
- `FindMethod(object, string)`'s "Object is null." branch: it is unreachable,
  because its caller tests for null first.
- `ArgumentNullException.ThrowIfNull(functionCall)`: the client never passes a
  null call.
- `ErrorMessages`: nothing ever writes to its subject.
- The console line printed for an unknown function: it is output only.
- Concurrency: `FireAndForget`, `Task.Run` and Rx scheduling are not modelled.
  Updates are handled one at a time, and a handler's work is finished before
  the next update arrives.
- The cancellation token: it is not modelled.
- The audio stream content: `SendAudio` carries an opaque identifier.
- Transport and network failures of the SDK session: the session's own calls
  are assumed to succeed.
- `FromOpenAIKey`, `FromAzureCredential` and `FromOpenAIClient`: these are SDK
  factories with no logic of their own.
- The demo programs and the Python client: they are not part of the library
  core.
- `Cost.CalculateTotalCost`: prices and costs are exact reals. The source's
  32-bit `float` rounding is not modelled.
- `Coercion.ParseEnum`: a comma-separated list of names, which `Enum.TryParse`
  combines by OR for any enum, flagged or not, counts as a mismatch. On
  `enum { Red, Green, Blue }` the text "Green, Blue" is value 3 in the source
  and the invalid-enum error in the model. Combined enum values are not
  represented.
- `Coercion.ParseEnum`: case folding covers ASCII letters only. Ordinal
  ignore-case also folds other letters.
- `Coercion.Deserialize`: the deserialization of types other than integers,
  numbers, `bool` and `string` is a parameter of the model.
- `Orchestrator.ResultText`: `ToString()` of numbers beyond 32 bits,
  fractional numbers, structs and other objects is a parameter of the model.
- `Coercion.Deserialize`: accepted numbers are kept exact. `float`, `double`
  and `decimal` round them to their precision, and the model does not. The
  `decimal` limit for fractional literals within one unit of 2^96 is approximated.
- `ClrTypes.EnumType`: member `i` has the value `i`, and the underlying type
  is `int`. Explicit member values and byte- or long-backed enums are not
  represented.
- `UsageModel.LookupIgnoreCase`: case folding covers ASCII letters only. The
  case-insensitive deserializer also folds other letters.
- `Schema.GetFunctionDefinitions`: every definition's owner type is the type
  searched. The source stores each method's `DeclaringType`, which differs
  for a static method inherited from a base type. Inheritance is not modelled.
- `Dispatch.FindMethod`: overload resolution among methods that share a name is
  modelled only as the ambiguous-match failure. Inheritance is flattened into
  the type's method list.
- `Orchestrator.HandleFunctionCall`: its contract covers the success path only
  when a session exists. The pump runs only with a session, so this is always
  the case in practice.
- The `Updates` stream itself: it is the delivered sequence, and there is no
  separate member for it.

=== FILE: clr_types.dfy ===
/** The slice of the CLR type system and reflection metadata the function-calling
    core consults. Runtime reflection is replaced by explicit tables: a type is
    the list of its methods, a method the list of its parameters, and the two
    attributes (`FunctionDescription`, `ParameterDescription`) are optional
    fields. */
module ClrTypes {
  import opened Wrappers
  import opened Text

  /** An enum type with default numbering: member `i` has value `i`. */
  datatype EnumType = EnumType(name: string, members: seq<string>)

  datatype ClrType =
    | SByte | Byte | Int16 | UInt16 | Int32 | UInt32 | Int64 | UInt64
    | Single | Double | Decimal
    | Boolean
    | String | DateTime | DateTimeOffset | Guid | Uri | TimeSpan
    | EnumOf(enumType: EnumType)
    | ObjectType
    | VoidType
    | TaskType
    | TaskOf(result: ClrType)
    /** Any other type, by full name. */
    | Named(name: string, isValueType: bool)

  /** `int`, `short`, `long`, `byte`, `sbyte`, `ushort`, `uint`, `ulong`. */
  predicate IsIntegerType(t: ClrType) {
    t.SByte? || t.Byte? || t.Int16? || t.UInt16? || t.Int32? || t.UInt32? || t.Int64? || t.UInt64?
  }

  /** `float`, `double`, `decimal`. */
  predicate IsNumberType(t: ClrType) {
    t.Single? || t.Double? || t.Decimal?
  }

  /** `string`, `DateTime`, `DateTimeOffset`, `Guid`, `Uri`, `TimeSpan`. */
  predicate IsStringType(t: ClrType) {
    t.String? || t.DateTime? || t.DateTimeOffset? || t.Guid? || t.Uri? || t.TimeSpan?
  }

  /** The inclusive value range of an integer type, two's complement widths. */
  function IntegerRange(t: ClrType): (range: (int, int))
    requires IsIntegerType(t)
    ensures range.0 <= 0 < range.1
  {
    match t
    case SByte => (-0x80, 0x7F)
    case Byte => (0, 0xFF)
    case Int16 => (-0x8000, 0x7FFF)
    case UInt16 => (0, 0xFFFF)
    case Int32 => (Int32Min, Int32Max)
    case UInt32 => (0, 0xFFFF_FFFF)
    case Int64 => (-0x8000_0000_0000_0000, 0x7FFF_FFFF_FFFF_FFFF)
    case UInt64 => (0, 0xFFFF_FFFF_FFFF_FFFF)
  }

  /** The magnitude from which a JSON number rounds to infinity as a `float`
      (2^128 - 2^103) and as a `double` (2^1024 - 2^970), and the largest
      `decimal` (2^96 - 1). */
  const SingleOverflow: int := 0xFFFF_FF80_0000_0000_0000_0000_0000_0000
  const DoubleOverflow: int := 0xFFFF_FFFF_FFFF_FC00_0000_0000_0000_0000_0000_0000_0000_0000_0000_0000_0000_0000_0000_0000_0000_0000_0000_0000_0000_0000_0000_0000_0000_0000_0000_0000_0000_0000_0000_0000_0000_0000_0000_0000_0000_0000_0000_0000_0000_0000_0000_0000_0000_0000_0000_0000_0000_0000_0000_0000_0000_0000_0000_0000_0000_0000_0000_0000_0000_0000
  const DecimalMax: int := 0xFFFF_FFFF_FFFF_FFFF_FFFF_FFFF

  /** A JSON number the serializer reads as a finite value of a number type:
      `float` and `double` reject what would round to infinity, `decimal`
      rejects what exceeds its range. */
  predicate InNumberRange(t: ClrType, x: real)
    requires IsNumberType(t)
  {
    if t.Single? then -SingleOverflow as real < x < SingleOverflow as real
    else if t.Double? then -DoubleOverflow as real < x < DoubleOverflow as real
    else -DecimalMax as real <= x <= DecimalMax as real
  }

  /** `Type.IsValueType`. */
  predicate IsValueType(t: ClrType) {
    match t
    case String | Uri | ObjectType | TaskType | TaskOf(_) => false
    case Named(_, v) => v
    case _ => true
  }

  /** `Type.ToString()`: the full name, as it appears in exception messages. */
  function FullName(t: ClrType): string {
    match t
    case SByte => "System.SByte"
    case Byte => "System.Byte"
    case Int16 => "System.Int16"
    case UInt16 => "System.UInt16"
    case Int32 => "System.Int32"
    case UInt32 => "System.UInt32"
    case Int64 => "System.Int64"
    case UInt64 => "System.UInt64"
    case Single => "System.Single"
    case Double => "System.Double"
    case Decimal => "System.Decimal"
    case Boolean => "System.Boolean"
    case String => "System.String"
    case DateTime => "System.DateTime"
    case DateTimeOffset => "System.DateTimeOffset"
    case Guid => "System.Guid"
    case Uri => "System.Uri"
    case TimeSpan => "System.TimeSpan"
    case EnumOf(e) => e.name
    case ObjectType => "System.Object"
    case VoidType => "System.Void"
    case TaskType => "System.Threading.Tasks.Task"
    case TaskOf(r) => "System.Threading.Tasks.Task`1[" + FullName(r) + "]"
    case Named(n, _) => n
  }

  /** `target.IsAssignableFrom(source)`: identity, `object` above everything,
      and `Task<U>` below `Task`. No other inheritance is modelled. */
  predicate IsAssignableFrom(target: ClrType, source: ClrType) {
    target == source || target == ObjectType || (target == TaskType && source.TaskOf?)
  }

  /** A runtime value: an argument handed to a function, or a function's result. */
  datatype Value =
    | VNull
    | VBool(b: bool)
    | VInt(i: int)
    | VNumber(r: real)
    | VString(s: string)
    | VEnum(enumType: EnumType, ordinal: int)
    /** The all-zero instance of a struct such as `DateTime` or `Guid`. */
    | VZero(zeroOf: ClrType)
    /** A value produced outside the model, with its `ToString()` text. */
    | VOpaque(opaqueOf: ClrType, text: string)

  /** What `PrepareArguments` supplies for an absent argument:
      `Activator.CreateInstance(t)` for a value type, `null` otherwise. */
  function DefaultValue(t: ClrType): (v: Value)
    ensures v.VNull? <==> !IsValueType(t)
    ensures IsIntegerType(t) ==> v == VInt(0)
    ensures IsNumberType(t) ==> v == VNumber(0.0)
    ensures t.Boolean? ==> v == VBool(false)
    ensures t.EnumOf? ==> v == VEnum(t.enumType, 0)
  {
    if !IsValueType(t) then VNull
    else if IsIntegerType(t) then VInt(0)
    else if IsNumberType(t) then VNumber(0.0)
    else if t.Boolean? then VBool(false)
    else if t.EnumOf? then VEnum(t.enumType, 0)
    else VZero(t)
  }

  // ---- Reflection metadata ----

  /** `[FunctionDescription]` on a method. */
  datatype FunctionDescription = FunctionDescription(name: Option<string>, description: Option<string>)

  /** `[ParameterDescription]` on a parameter; `Required` defaults to true. */
  datatype ParameterDescription = ParameterDescription(
    name: Option<string>,
    description: Option<string>,
    required: bool,
    enumOverride: Option<string>)

  datatype ParameterInfo = ParameterInfo(name: string, parameterType: ClrType, attribute: Option<ParameterDescription>)

  datatype MethodInfo = MethodInfo(
    name: string,
    isPublic: bool,
    isStatic: bool,
    returnType: ClrType,
    parameters: seq<ParameterInfo>,
    attribute: Option<FunctionDescription>)

  /** A type, flattened: every method it declares or inherits, in reflection order. */
  datatype TypeInfo = TypeInfo(name: string, methods: seq<MethodInfo>)

  /** An object instance, by identity. */
  datatype ObjectRef = ObjectRef(id: nat)

  /** The JSON key of a parameter: the attribute's `Name`, else the parameter's own name. */
  function ParameterKey(p: ParameterInfo): string {
    if p.attribute.Some? && p.attribute.value.name.Some? then p.attribute.value.name.value else p.name
  }

  /** A parameter is required unless its attribute says `Required = false`. */
  predicate IsRequired(p: ParameterInfo) {
    p.attribute.None? || p.attribute.value.required
  }

  /** The attribute's `Description`, if there is an attribute. */
  function ParameterDescriptionText(p: ParameterInfo): Option<string> {
    if p.attribute.Some? then p.attribute.value.description else None
  }

  /** The attribute's `Enum` override, if there is an attribute. */
  function EnumOverride(p: ParameterInfo): Option<string> {
    if p.attribute.Some? then p.attribute.value.enumOverride else None
  }
}

=== FILE: coercion.dfy ===
/** Argument handling: `TryParseArguments` and `PrepareArguments`. Parsed
    arguments become one value per declared parameter, in order: an absent key
    gives the type's default, an enum is matched by name ignoring case, and
    anything else is deserialised into the parameter type. */
module Coercion {
  import opened Wrappers
  import opened Exceptions
  import opened Text
  import opened Json
  import opened ClrTypes
  import opened Definitions
  import Schema

  /** Parsed arguments: `Dictionary<string, object>` whose values are JSON elements. */
  type Arguments = map<string, Json>

  /** Deserialising a JSON object into a dictionary: a repeated key keeps its
      last value. */
  function ArgumentsOf(members: seq<(string, Json)>): (args: Arguments)
    ensures forall k :: k in args <==> Lookup(members, k).Some?
    ensures forall k :: k in args ==> args[k] == Lookup(members, k).value
  {
    if |members| == 0 then map[]
    else
      var last := members[|members| - 1];
      ArgumentsOf(members[..|members| - 1])[last.0 := last.1]
  }

  /** `TryParseArguments`: blank or missing text is an empty dictionary; text
      that parses to `null` is an empty dictionary too (`?? []`); an object
      becomes its dictionary; anything else fails. The end token is never
      consulted. */
  function TryParseArguments(parse: string -> Option<Json>, json: Option<string>, endToken: Option<string>): (r: Option<Arguments>)
    ensures IsNullOrWhiteSpace(json) ==> r == Some(map[])
    ensures !IsNullOrWhiteSpace(json) ==>
              (r.Some? <==> parse(json.value).Some? && (parse(json.value).value.JNull? || parse(json.value).value.JObject?))
    ensures !IsNullOrWhiteSpace(json) && parse(json.value) == Some(JNull) ==> r == Some(map[])
    ensures !IsNullOrWhiteSpace(json) && parse(json.value).Some? && parse(json.value).value.JObject? ==>
              r == Some(ArgumentsOf(parse(json.value).value.members))
  {
    if IsNullOrWhiteSpace(json) then Some(map[])
    else
      match parse(json.value)
      case Some(JNull) => Some(map[])
      case Some(JObject(ms)) => Some(ArgumentsOf(ms))
      case _ => None
  }

  /** Partial-argument mode changes nothing: the end token is ignored. */
  lemma EndTokenIgnored(parse: string -> Option<Json>, json: Option<string>, endToken: Option<string>)
    ensures TryParseArguments(parse, json, endToken) == TryParseArguments(parse, json, None)
  {
  }

  /** `JsonElement.ToString()`: a string's contents, an integer's digits,
      "True"/"False", "" for null. Arrays, objects and fractional numbers
      give their raw text, which is not modelled; that text starts with a
      digit, a sign, '[' or '{', so it can name no enum member. */
  function ElementText(j: Json): (r: Option<string>)
    ensures r.Some? <==> j.JString? || j.JInt? || j.JBool? || j.JNull?
    ensures j.JString? ==> r == Some(j.s)
    ensures j.JBool? ==> r.value in {"True", "False"}
    ensures j.JBool? ==> r == Some(if j.b then "True" else "False")
    ensures j.JInt? ==> r == Some(IntToString(j.i))
    ensures j.JNull? ==> r == Some("")
  {
    match j
    case JString(s) => Some(s)
    case JInt(i) => Some(IntToString(i))
    case JBool(b) => Some(if b then "True" else "False")
    case JNull => Some("")
    case _ => None
  }

  /** The first member whose name equals `name` ignoring case. */
  function FirstMatchIgnoreCase(members: seq<string>, name: string): (r: Option<nat>)
    ensures r.None? <==> forall i :: 0 <= i < |members| ==> !EqualsIgnoreCase(members[i], name)
    ensures r.Some? ==> r.value < |members| && EqualsIgnoreCase(members[r.value], name)
    ensures r.Some? ==> forall i :: 0 <= i < r.value ==> !EqualsIgnoreCase(members[i], name)
  {
    if |members| == 0 then None
    else if EqualsIgnoreCase(members[0], name) then Some(0)
    else
      var rest := FirstMatchIgnoreCase(members[1..], name);
      assert forall i :: 1 <= i < |members| ==> members[i] == members[1..][i - 1];
      if rest.Some? then Some(rest.value + 1) else None
  }

  /** `Enum.TryParse(type, text, ignoreCase: true)`: the text is trimmed; one
      starting with a digit or sign is read as a 32-bit number and any such
      number is accepted, named or not; otherwise the text must name a member,
      ignoring case, and the first such member's value is taken. A
      comma-separated list of names, which `Enum.TryParse` combines by OR for
      any enum, names no single member and so counts as a mismatch here. */
  function ParseEnum(e: EnumType, text: Option<string>): (r: Option<int>)
    ensures text.None? ==> r.None?
    ensures r.Some? ==> text.Some? && |Trim(text.value)| > 0
    ensures r.Some? && !StartsNumber(Trim(text.value)[0]) ==>
              0 <= r.value < |e.members| && EqualsIgnoreCase(e.members[r.value], Trim(text.value))
  {
    match text
    case None => None
    case Some(s) => ParseTrimmedEnum(e, Trim(s))
  }

  /** `Enum.TryParse` on text already trimmed. */
  function ParseTrimmedEnum(e: EnumType, t: string): (r: Option<int>)
    ensures r.Some? ==> |t| > 0
    ensures r.Some? && !StartsNumber(t[0]) ==> 0 <= r.value < |e.members| && EqualsIgnoreCase(e.members[r.value], t)
    ensures |t| > 0 && StartsNumber(t[0]) && ParseInt32(t).Parsed? ==> r == Some(ParseInt32(t).value)
    ensures |t| > 0 && !StartsNumber(t[0]) && ',' !in t ==>
              r == (var m := FirstMatchIgnoreCase(e.members, t); if m.Some? then Some(m.value as int) else None)
  {
    if |t| == 0 then None
    else if StartsNumber(t[0]) && !ParseInt32(t).Malformed? then
      if ParseInt32(t).Parsed? then Some(ParseInt32(t).value) else None
    else if ',' in t then None
    else
      var m := FirstMatchIgnoreCase(e.members, t);
      if m.Some? then Some(m.value as int) else None
  }

  /** The message of a rejected enum argument: the parameter's key and every
      member name of the enum type, joined by ", ". */
  function EnumErrorMessage(key: string, e: EnumType): (m: string)
    ensures "Invalid enum value for parameter '" + key + "'. Available options are: " <= m
  {
    "Invalid enum value for parameter '" + key + "'. Available options are: " + Join(", ", e.members)
  }

  /** `JsonElement.Deserialize(type)` for the types with a fixed meaning;
      `other` stands for the serializer on every remaining type. `None` is a
      `JsonException`. Integers must be integer literals within the type's
      range, numbers any numeric literal within the number type's range; a
      JSON null is accepted only by reference types. */
  function Deserialize(other: (ClrType, Json) -> Option<Value>, t: ClrType, j: Json): (r: Option<Value>)
    ensures IsIntegerType(t) ==> (r.Some? <==> j.JInt? && IntegerRange(t).0 <= j.i <= IntegerRange(t).1)
    ensures IsIntegerType(t) && r.Some? ==> r.value == VInt(j.i)
    ensures IsNumberType(t) ==>
              (r.Some? <==> (j.JInt? && InNumberRange(t, j.i as real)) || (j.JFrac? && InNumberRange(t, j.r)))
    ensures IsNumberType(t) && r.Some? ==> r.value == VNumber(if j.JInt? then j.i as real else j.r)
    ensures t.Boolean? ==> (r.Some? <==> j.JBool?)
    ensures t.String? ==> (r.Some? <==> j.JString? || j.JNull?)
    ensures t.String? && j.JString? ==> r == Some(VString(j.s))
  {
    if IsIntegerType(t) then
      if j.JInt? && IntegerRange(t).0 <= j.i <= IntegerRange(t).1 then Some(VInt(j.i)) else None
    else if IsNumberType(t) then
      if j.JInt? && InNumberRange(t, j.i as real) then Some(VNumber(j.i as real))
      else if j.JFrac? && InNumberRange(t, j.r) then Some(VNumber(j.r))
      else None
    else if t.Boolean? then
      if j.JBool? then Some(VBool(j.b)) else None
    else if t.String? then
      if j.JString? then Some(VString(j.s)) else if j.JNull? then Some(VNull) else None
    else other(t, j)
  }

  /** Every number a `decimal` parameter accepts, a `float` one accepts, and
      every number a `float` accepts, a `double` accepts; `1e39` is a number a
      `double` accepts and a `float` rejects. */
  lemma NumberRangesNested(other: (ClrType, Json) -> Option<Value>, j: Json)
    ensures Deserialize(other, Decimal, j).Some? ==> Deserialize(other, Single, j).Some?
    ensures Deserialize(other, Single, j).Some? ==> Deserialize(other, Double, j).Some?
    ensures Deserialize(other, Double, JFrac(1e39)).Some? && Deserialize(other, Single, JFrac(1e39)).None?
  {
  }

  /** One iteration of `PrepareArguments`. A JSON `null` argument arrives as a
      null object, which both the enum branch (`ToString()`) and the other
      branch (unboxing to `JsonElement`) dereference. */
  function CoerceArgument(other: (ClrType, Json) -> Option<Value>, p: ParameterInfo, args: Arguments): (r: Result<Value, Exception>)
    ensures ParameterKey(p) !in args ==> r == Success(DefaultValue(p.parameterType))
    ensures ParameterKey(p) in args && args[ParameterKey(p)] == JNull ==> r == Failure(NullReference)
    ensures ParameterKey(p) in args && args[ParameterKey(p)] != JNull && p.parameterType.EnumOf? ==>
              var parsed := ParseEnum(p.parameterType.enumType, ElementText(args[ParameterKey(p)]));
              && (r.Success? <==> parsed.Some?)
              && (r.Success? ==> r.value == VEnum(p.parameterType.enumType, parsed.value))
              && (r.Failure? ==> r.error == InvalidFunctionCall(EnumErrorMessage(ParameterKey(p), p.parameterType.enumType)))
    ensures ParameterKey(p) in args && args[ParameterKey(p)] != JNull && !p.parameterType.EnumOf? ==>
              (r.Failure? <==> Deserialize(other, p.parameterType, args[ParameterKey(p)]).None?)
    ensures ParameterKey(p) in args && args[ParameterKey(p)] != JNull && !p.parameterType.EnumOf? ==>
              r.Failure? ==> r.error == JsonError
    ensures ParameterKey(p) in args && args[ParameterKey(p)] != JNull && !p.parameterType.EnumOf? && r.Success? ==>
              Deserialize(other, p.parameterType, args[ParameterKey(p)]) == Some(r.value)
  {
    var key := ParameterKey(p);
    if key !in args then Success(DefaultValue(p.parameterType))
    else if args[key] == JNull then Failure(NullReference)
    else if p.parameterType.EnumOf? then
      var e := p.parameterType.enumType;
      match ParseEnum(e, ElementText(args[key]))
      case Some(v) => Success(VEnum(e, v))
      case None => Failure(InvalidFunctionCall(EnumErrorMessage(key, e)))
    else
      match Deserialize(other, p.parameterType, args[key])
      case Some(v) => Success(v)
      case None => Failure(JsonError)
  }

  /** All the values, or the first failure. */
  function Collect<T>(rs: seq<Result<T, Exception>>): (r: Result<seq<T>, Exception>)
    ensures r.Success? <==> forall i :: 0 <= i < |rs| ==> rs[i].Success?
    ensures r.Success? ==> |r.value| == |rs| && forall i :: 0 <= i < |rs| ==> rs[i] == Success(r.value[i])
    ensures r.Failure? ==> exists i :: 0 <= i < |rs| && rs[i] == Failure(r.error)
                                    && forall j :: 0 <= j < i ==> rs[j].Success?
  {
    if |rs| == 0 then Success([])
    else if rs[0].Failure? then Failure(rs[0].error)
    else
      var rest := Collect(rs[1..]);
      if rest.Failure? then
        var k :| 0 <= k < |rs[1..]| && rs[1..][k] == Failure(rest.error) && forall j :: 0 <= j < k ==> rs[1..][j].Success?;
        assert rs[k + 1] == Failure(rest.error);
        Failure(rest.error)
      else
        Success([rs[0].value] + rest.value)
  }

  /** `PrepareArguments`: exactly one value per parameter, in parameter order,
      or the first parameter's failure. */
  function PrepareArguments(other: (ClrType, Json) -> Option<Value>, ps: seq<ParameterInfo>, args: Arguments): (r: Result<seq<Value>, Exception>)
    ensures r.Success? <==> forall i :: 0 <= i < |ps| ==> CoerceArgument(other, ps[i], args).Success?
    ensures r.Success? ==> |r.value| == |ps|
    ensures r.Success? ==> forall i :: 0 <= i < |ps| ==> CoerceArgument(other, ps[i], args) == Success(r.value[i])
    ensures r.Failure? ==> exists i :: 0 <= i < |ps| && CoerceArgument(other, ps[i], args) == Failure(r.error)
                                    && forall j :: 0 <= j < i ==> CoerceArgument(other, ps[j], args).Success?
  {
    var rs := seq(|ps|, i requires 0 <= i < |ps| => CoerceArgument(other, ps[i], args));
    assert forall i :: 0 <= i < |ps| ==> rs[i] == CoerceArgument(other, ps[i], args);
    Collect(rs)
  }

  /** A non-null argument for an enum parameter is coerced to the value `ParseEnum` gives its text. */
  lemma EnumArgument(other: (ClrType, Json) -> Option<Value>, p: ParameterInfo, j: Json)
    requires p.parameterType.EnumOf? && j != JNull
    ensures var r := CoerceArgument(other, p, map[ParameterKey(p) := j]);
            var parsed := ParseEnum(p.parameterType.enumType, ElementText(j));
            && (parsed.Some? ==> r == Success(VEnum(p.parameterType.enumType, parsed.value)))
            && (parsed.None? ==> r == Failure(InvalidFunctionCall(EnumErrorMessage(ParameterKey(p), p.parameterType.enumType))))
  {
    var args := map[ParameterKey(p) := j];
    assert ParameterKey(p) in args && args[ParameterKey(p)] == j;
  }

  /** Coercing `{}` never fails: every parameter gets its type's default. */
  lemma EmptyArgumentsGiveDefaults(other: (ClrType, Json) -> Option<Value>, ps: seq<ParameterInfo>)
    ensures PrepareArguments(other, ps, map[]).Success?
    ensures forall i :: 0 <= i < |ps| ==> PrepareArguments(other, ps, map[]).value[i] == DefaultValue(ps[i].parameterType)
  {
  }

  /** A rejected enum argument names the parameter and lists every member of the enum type. */
  lemma EnumErrorListsEveryMember(key: string, e: EnumType, k: nat)
    requires k < |e.members|
    ensures Contains(EnumErrorMessage(key, e), key)
    ensures Contains(EnumErrorMessage(key, e), e.members[k])
  {
    var head := "Invalid enum value for parameter '";
    var tail := "'. Available options are: " + Join(", ", e.members);
    assert EnumErrorMessage(key, e) == head + key + tail;
    assert OccursAt(key, key, 0);
    ContainsExtended(head, key, tail, key);
    JoinContainsParts(", ", e.members, k);
    var pre := head + key + "'. Available options are: ";
    assert EnumErrorMessage(key, e) == pre + Join(", ", e.members) + "";
    ContainsExtended(pre, Join(", ", e.members), "", e.members[k]);
  }

  /** A C# identifier in its ASCII form: a letter or '_' then letters, digits or '_'. */
  predicate IsIdentifier(s: string) {
    && |s| > 0
    && ('a' <= s[0] <= 'z' || 'A' <= s[0] <= 'Z' || s[0] == '_')
    && forall i :: 0 <= i < |s| ==> 'a' <= s[i] <= 'z' || 'A' <= s[i] <= 'Z' || IsDigit(s[i]) || s[i] == '_'
  }

  /** An identifier is its own trim, does not look like a number and holds no comma. */
  lemma IdentifierIsName(s: string)
    requires IsIdentifier(s)
    ensures Trim(s) == s && !StartsNumber(s[0]) && ',' !in s
  {
    assert !IsWhiteSpace(s[0]) && !IsWhiteSpace(s[|s| - 1]);
    TrimFixesTrimmed(s);
    IdentifierShape(s);
  }

  lemma IdentifierShape(s: string)
    requires IsIdentifier(s)
    ensures |s| > 0 && !StartsNumber(s[0]) && ',' !in s
  {
    assert forall i :: 0 <= i < |s| ==> s[i] != ',';
  }

  /** A name equal to a member ignoring case selects a member equal to it ignoring case. */
  lemma EnumMatchIgnoresCase(e: EnumType, text: string, k: nat)
    requires k < |e.members| && IsIdentifier(text) && EqualsIgnoreCase(e.members[k], text)
    ensures ParseEnum(e, Some(text)).Some?
    ensures var v := ParseEnum(e, Some(text)).value; 0 <= v <= k && EqualsIgnoreCase(e.members[v], text)
  {
    var m := FirstMatchIgnoreCase(e.members, text);
    assert m.Some? && m.value <= k;
    assert ParseEnum(e, Some(text)) == Some(m.value as int) by {
      IdentifierIsName(text);
      assert ParseEnum(e, Some(text)) == ParseTrimmedEnum(e, text);
    }
  }

  /** Schema and coercion agree: every value an enum parameter without override
      advertises is accepted when sent back as a JSON string. */
  lemma AdvertisedEnumValuesAccepted(other: (ClrType, Json) -> Option<Value>, p: ParameterInfo, k: nat)
    requires p.parameterType.EnumOf? && IsNullOrEmpty(EnumOverride(p))
    requires forall i :: 0 <= i < |p.parameterType.enumType.members| ==> IsIdentifier(p.parameterType.enumType.members[i])
    requires k < |Schema.CreateFunctionProperty(p).value.enumValues.value|
    ensures var v := Schema.CreateFunctionProperty(p).value.enumValues.value[k];
            CoerceArgument(other, p, map[ParameterKey(p) := JString(v)]).Success?
  {
    var e := p.parameterType.enumType;
    assert Schema.CreateFunctionProperty(p).value.enumValues.value == e.members;
    var v := e.members[k];
    assert ParseEnum(e, Some(v)).Some? by {
      assert EqualsIgnoreCase(v, v);
      EnumMatchIgnoresCase(e, v, k);
    }
    EnumArgument(other, p, JString(v));
  }

  /** An override is advertised but never consulted when coercing: an
      advertised value that names no member of the enum type is rejected. */
  lemma OverrideValueRejected(other: (ClrType, Json) -> Option<Value>, p: ParameterInfo, k: nat)
    requires p.parameterType.EnumOf? && !IsNullOrEmpty(EnumOverride(p))
    requires k < |Schema.CreateFunctionProperty(p).value.enumValues.value|
    requires var v := Schema.CreateFunctionProperty(p).value.enumValues.value[k];
             IsIdentifier(v) && forall i :: 0 <= i < |p.parameterType.enumType.members| ==> !EqualsIgnoreCase(p.parameterType.enumType.members[i], v)
    ensures var v := Schema.CreateFunctionProperty(p).value.enumValues.value[k];
            CoerceArgument(other, p, map[ParameterKey(p) := JString(v)])
            == Failure(InvalidFunctionCall(EnumErrorMessage(ParameterKey(p), p.parameterType.enumType)))
  {
    UnknownNameRejected(other, p, Schema.CreateFunctionProperty(p).value.enumValues.value[k]);
  }

  /** A name that matches no member of the enum type, ignoring case, is rejected. */
  lemma UnknownNameRejected(other: (ClrType, Json) -> Option<Value>, p: ParameterInfo, v: string)
    requires p.parameterType.EnumOf? && IsIdentifier(v)
    requires forall i :: 0 <= i < |p.parameterType.enumType.members| ==> !EqualsIgnoreCase(p.parameterType.enumType.members[i], v)
    ensures CoerceArgument(other, p, map[ParameterKey(p) := JString(v)])
            == Failure(InvalidFunctionCall(EnumErrorMessage(ParameterKey(p), p.parameterType.enumType)))
  {
    var e := p.parameterType.enumType;
    assert ElementText(JString(v)) == Some(v);
    UnknownIdentifierUnparsed(e, v);
    EnumArgument(other, p, JString(v));
  }

  /** `Enum.TryParse` finds nothing for an identifier that names no member, ignoring case. */
  lemma UnknownIdentifierUnparsed(e: EnumType, v: string)
    requires IsIdentifier(v)
    requires forall i :: 0 <= i < |e.members| ==> !EqualsIgnoreCase(e.members[i], v)
    ensures ParseEnum(e, Some(v)).None?
  {
    UnknownIdentifierUnmatched(e, v);
    IdentifierIsName(v);
    ParseEnumOfTrimmed(e, v);
  }

  lemma UnknownIdentifierUnmatched(e: EnumType, v: string)
    requires IsIdentifier(v)
    requires forall i :: 0 <= i < |e.members| ==> !EqualsIgnoreCase(e.members[i], v)
    ensures ParseTrimmedEnum(e, v).None?
  {
    IdentifierShape(v);
    assert FirstMatchIgnoreCase(e.members, v).None?;
  }

  /** The decimal text of a 32-bit integer is its own trim. */
  lemma IntToStringTrimmed(n: int)
    ensures Trim(IntToString(n)) == IntToString(n) && StartsNumber(IntToString(n)[0])
  {
    var s := IntToString(n);
    var digits := if n < 0 then NatToString(-n) else NatToString(n);
    assert s[|s| - 1] == digits[|digits| - 1];
    assert IsDigit(s[|s| - 1]);
    assert s[0] == '-' || IsDigit(s[0]);
    TrimFixesTrimmed(s);
  }

  /** Text that is its own trim goes to `ParseTrimmedEnum` unchanged. */
  lemma ParseEnumOfTrimmed(e: EnumType, t: string)
    requires Trim(t) == t
    ensures ParseEnum(e, Some(t)) == ParseTrimmedEnum(e, t)
  {
  }

  /** `Enum.TryParse` accepts the text of any 32-bit number, whether or not a
      member has that value. */
  lemma NumericEnumText(e: EnumType, n: int)
    requires IsInt32(n)
    ensures ParseEnum(e, Some(IntToString(n))) == Some(n)
  {
    IntToStringTrimmed(n);
    IntToStringParses(n);
    ParseEnumOfTrimmed(e, IntToString(n));
  }

  /** Any 32-bit number is accepted for an enum parameter, as a string or a
      JSON number, even when no member has that value. */
  lemma NumericEnumArgumentAccepted(other: (ClrType, Json) -> Option<Value>, p: ParameterInfo, n: int)
    requires p.parameterType.EnumOf? && IsInt32(n)
    ensures CoerceArgument(other, p, map[ParameterKey(p) := JString(IntToString(n))]) == Success(VEnum(p.parameterType.enumType, n))
    ensures CoerceArgument(other, p, map[ParameterKey(p) := JInt(n)]) == Success(VEnum(p.parameterType.enumType, n))
  {
    assert ElementText(JString(IntToString(n))) == Some(IntToString(n));
    assert ElementText(JInt(n)) == Some(IntToString(n));
    NumericEnumText(p.parameterType.enumType, n);
    EnumArgument(other, p, JString(IntToString(n)));
    EnumArgument(other, p, JInt(n));
  }
}

=== FILE: cost.dfy ===
/** `CalculateTotalCost` and the four per-token prices `SetupCost` sets: the
    cost of a usage snapshot, recomputed from the snapshot alone. Prices are
    exact rationals here; the source's `float` rounding is not modelled. */
module Cost {
  import opened Wrappers
  import opened UsageModel

  /** `TextInputPrice`, `TextOutputPrice`, `AudioInputPrice`, `AudioOutputPrice`. */
  datatype Prices = Prices(textInput: real, textOutput: real, audioInput: real, audioOutput: real)

  /** The four price properties before `SetupCost` is called: `float` defaults. */
  const UnsetPrices: Prices := Prices(0.0, 0.0, 0.0, 0.0)

  /** `CalculateTotalCost`: starting from 0, add the text and audio input tokens
      at their prices when there is an input detail group, then the text and
      audio output tokens when there is an output detail group. */
  function CalculateTotalCost(p: Prices, u: Usage): (cost: real)
    ensures u.inputTokenDetails.None? && u.outputTokenDetails.None? ==> cost == 0.0
    ensures p == UnsetPrices ==> cost == 0.0
  {
    var afterInput :=
      if u.inputTokenDetails.Some? then
        0.0 + u.inputTokenDetails.value.textTokens as real * p.textInput
            + u.inputTokenDetails.value.audioTokens as real * p.audioInput
      else 0.0;
    if u.outputTokenDetails.Some? then
      afterInput + u.outputTokenDetails.value.textTokens as real * p.textOutput
                 + u.outputTokenDetails.value.audioTokens as real * p.audioOutput
    else afterInput
  }

  // ---- Reference definition: a sum over the four priced token kinds ----

  datatype TokenKind = InputText | InputAudio | OutputText | OutputAudio

  const AllKinds: seq<TokenKind> := [InputText, InputAudio, OutputText, OutputAudio]

  /** How many tokens of a kind the snapshot reports; a missing group reports none. */
  function TokensOf(u: Usage, k: TokenKind): int {
    match k
    case InputText => if u.inputTokenDetails.Some? then u.inputTokenDetails.value.textTokens else 0
    case InputAudio => if u.inputTokenDetails.Some? then u.inputTokenDetails.value.audioTokens else 0
    case OutputText => if u.outputTokenDetails.Some? then u.outputTokenDetails.value.textTokens else 0
    case OutputAudio => if u.outputTokenDetails.Some? then u.outputTokenDetails.value.audioTokens else 0
  }

  function PriceOf(p: Prices, k: TokenKind): real {
    match k
    case InputText => p.textInput
    case InputAudio => p.audioInput
    case OutputText => p.textOutput
    case OutputAudio => p.audioOutput
  }

  /** The sum, over `kinds`, of tokens times price. */
  function CostOver(p: Prices, u: Usage, kinds: seq<TokenKind>): real {
    if |kinds| == 0 then 0.0
    else CostOver(p, u, kinds[..|kinds| - 1]) + KindCost(p, u, kinds[|kinds| - 1])
  }

  /** The term one kind adds to the cost. */
  function KindCost(p: Prices, u: Usage, k: TokenKind): real {
    TokensOf(u, k) as real * PriceOf(p, k)
  }

  /** The four-kind sum, unfolded. */
  lemma CostOverAllKinds(p: Prices, u: Usage)
    ensures CostOver(p, u, AllKinds)
            == KindCost(p, u, InputText) + KindCost(p, u, InputAudio) + KindCost(p, u, OutputText) + KindCost(p, u, OutputAudio)
  {
    var one := [InputText];
    var two := [InputText, InputAudio];
    var three := [InputText, InputAudio, OutputText];
    assert one[..0] == [] && two[..1] == one && three[..2] == two && AllKinds[..3] == three;
    assert CostOver(p, u, one) == KindCost(p, u, InputText);
    assert CostOver(p, u, two) == CostOver(p, u, one) + KindCost(p, u, InputAudio);
    assert CostOver(p, u, three) == CostOver(p, u, two) + KindCost(p, u, OutputText);
    assert CostOver(p, u, AllKinds) == CostOver(p, u, three) + KindCost(p, u, OutputAudio);
  }

  /** A kind whose detail group is missing adds nothing. */
  lemma MissingGroupCostsNothing(p: Prices, u: Usage, k: TokenKind)
    requires (k.InputText? || k.InputAudio?) ==> u.inputTokenDetails.None?
    requires (k.OutputText? || k.OutputAudio?) ==> u.outputTokenDetails.None?
    ensures KindCost(p, u, k) == 0.0
  {
    assert TokensOf(u, k) == 0;
  }

  /** The cost is tokens times price summed over the four priced kinds; a
      missing detail group contributes nothing. */
  lemma CostIsSumOverKinds(p: Prices, u: Usage)
    ensures CalculateTotalCost(p, u) == CostOver(p, u, AllKinds)
  {
    CostOverAllKinds(p, u);
    if u.inputTokenDetails.None? {
      MissingGroupCostsNothing(p, u, InputText);
      MissingGroupCostsNothing(p, u, InputAudio);
    }
    if u.outputTokenDetails.None? {
      MissingGroupCostsNothing(p, u, OutputText);
      MissingGroupCostsNothing(p, u, OutputAudio);
    }
  }

  /** With non-negative counts and prices, the cost is non-negative. */
  lemma {:induction false} CostOverNonNegative(p: Prices, u: Usage, kinds: seq<TokenKind>)
    requires forall k :: TokensOf(u, k) >= 0 && PriceOf(p, k) >= 0.0
    ensures CostOver(p, u, kinds) >= 0.0
  {
    if |kinds| > 0 {
      CostOverNonNegative(p, u, kinds[..|kinds| - 1]);
      var k := kinds[|kinds| - 1];
      assert TokensOf(u, k) as real * PriceOf(p, k) >= 0.0;
    }
  }

  lemma CostNonNegative(p: Prices, u: Usage)
    requires p.textInput >= 0.0 && p.textOutput >= 0.0 && p.audioInput >= 0.0 && p.audioOutput >= 0.0
    requires u.inputTokenDetails.Some? ==> u.inputTokenDetails.value.textTokens >= 0 && u.inputTokenDetails.value.audioTokens >= 0
    requires u.outputTokenDetails.Some? ==> u.outputTokenDetails.value.textTokens >= 0 && u.outputTokenDetails.value.audioTokens >= 0
    ensures CalculateTotalCost(p, u) >= 0.0
  {
    CostIsSumOverKinds(p, u);
    CostOverNonNegative(p, u, AllKinds);
  }

  /** The cost depends on the snapshot's priced counts only: totals, per-side
      counts and cached tokens do not enter it, and neither does any history,
      since nothing but the snapshot is an argument. */
  lemma CostDependsOnPricedCountsOnly(p: Prices, u: Usage, v: Usage)
    requires forall k :: TokensOf(u, k) == TokensOf(v, k)
    ensures CalculateTotalCost(p, u) == CalculateTotalCost(p, v)
  {
    CostIsSumOverKinds(p, u);
    CostIsSumOverKinds(p, v);
    CostOverAgrees(p, u, v, AllKinds);
  }

  lemma {:induction false} CostOverAgrees(p: Prices, u: Usage, v: Usage, kinds: seq<TokenKind>)
    requires forall k :: TokensOf(u, k) == TokensOf(v, k)
    ensures CostOver(p, u, kinds) == CostOver(p, v, kinds)
  {
    if |kinds| > 0 {
      CostOverAgrees(p, u, v, kinds[..|kinds| - 1]);
    }
  }

  /** The fresh snapshot the usage cell starts with costs nothing. */
  lemma EmptyUsageCostsNothing(p: Prices)
    ensures CalculateTotalCost(p, EmptyUsage) == 0.0
  {
  }

  /** All four prices multiplied by the same factor. */
  function ScalePrices(p: Prices, k: real): Prices {
    Prices(k * p.textInput, k * p.textOutput, k * p.audioInput, k * p.audioOutput)
  }

  /** The cost is linear in the prices: scaling every price scales the cost. */
  lemma CostScalesWithPrices(p: Prices, u: Usage, k: real)
    ensures CalculateTotalCost(ScalePrices(p, k), u) == k * CalculateTotalCost(p, u)
  {
    var q := ScalePrices(p, k);
    CostIsSumOverKinds(p, u);
    CostIsSumOverKinds(q, u);
    CostOverAllKinds(p, u);
    CostOverAllKinds(q, u);
    KindCostScales(p, u, k, InputText);
    KindCostScales(p, u, k, InputAudio);
    KindCostScales(p, u, k, OutputText);
    KindCostScales(p, u, k, OutputAudio);
    Distribute(k, KindCost(p, u, InputText), KindCost(p, u, InputAudio), KindCost(p, u, OutputText), KindCost(p, u, OutputAudio));
  }

  lemma KindCostScales(p: Prices, u: Usage, k: real, kind: TokenKind)
    ensures KindCost(ScalePrices(p, k), u, kind) == k * KindCost(p, u, kind)
  {
    assert PriceOf(ScalePrices(p, k), kind) == k * PriceOf(p, kind);
    MulSwap(TokensOf(u, kind) as real, k, PriceOf(p, kind));
  }

  lemma MulSwap(a: real, b: real, c: real)
    ensures a * (b * c) == b * (a * c)
  {
  }

  lemma Distribute(k: real, a: real, b: real, c: real, d: real)
    ensures k * a + k * b + k * c + k * d == k * (a + b + c + d)
  {
  }
}

=== FILE: definitions.dfy ===
/** `FunctionDefinition`, `FunctionParameters`, `FunctionProperty` and
    `FunctionCall`: the records exchanged between registration, export and
    dispatch. Every field the source declares nullable is an `Option`. */
module Definitions {
  import opened Wrappers
  import opened Exceptions
  import opened ClrTypes

  /** The schema of one parameter: its JSON type name, and the optional
      description and list of allowed values. */
  datatype FunctionProperty = FunctionProperty(
    propertyType: string,
    description: Option<string>,
    enumValues: Option<seq<string>>)

  /** No key appears twice. */
  predicate UniqueKeys<V>(entries: seq<(string, V)>) {
    forall i, j :: 0 <= i < j < |entries| ==> entries[i].0 != entries[j].0
  }

  /** `Dictionary<string, FunctionProperty>`: insertion-ordered, one entry per key. */
  type PropertyMap = m: seq<(string, FunctionProperty)> | UniqueKeys(m) witness []

  /** The dictionary indexer: the one entry stored under `key`, if any. */
  function Get(m: PropertyMap, key: string): (r: Option<FunctionProperty>)
    ensures r.None? <==> forall i :: 0 <= i < |m| ==> m[i].0 != key
    ensures forall i :: 0 <= i < |m| && m[i].0 == key ==> r == Some(m[i].1)
  {
    if |m| == 0 then None
    else if m[0].0 == key then Some(m[0].1)
    else
      var rest: PropertyMap := m[1..];
      Get(rest, key)
  }

  /** `Dictionary.Add` under a key not yet present keeps the keys unique. */
  lemma AddFreshKey(m: PropertyMap, key: string, v: FunctionProperty)
    requires forall i :: 0 <= i < |m| ==> m[i].0 != key
    ensures UniqueKeys(m + [(key, v)])
  {
    var r := m + [(key, v)];
    assert forall i :: 0 <= i < |m| ==> r[i] == m[i];
  }

  /** The parameter schema: a property per parameter name, and the ordered list
      of required names, kept apart from the properties. */
  datatype FunctionParameters = FunctionParameters(
    properties: Option<PropertyMap>,
    required: Option<seq<string>>)

  /** A function the remote model may call. `ownerType` is the declaring type;
      `owner` is the weak handle to the instance, when one was supplied. */
  datatype FunctionDefinition = FunctionDefinition(
    name: Option<string>,
    description: Option<string>,
    parameters: Option<FunctionParameters>,
    ownerType: Option<TypeInfo>,
    owner: Option<ObjectRef>)

  /** A call requested by the remote model: a name and the raw argument text. */
  datatype FunctionCall = FunctionCall(name: Option<string>, arguments: Option<string>)

  /** `FunctionDefinition.ThrowIfNameIsNull`: rejects a null name only; an
      empty name passes. Being a function, it changes nothing. */
  function ThrowIfNameIsNull(d: FunctionDefinition): (r: Outcome<Exception>)
    ensures r.Fail? <==> d.name.None?
    ensures r.Fail? ==> r.error == InvalidFunctionCall("Function name is null")
  {
    if d.name.None? then Fail(InvalidFunctionCall("Function name is null")) else Pass
  }

  /** `FunctionCall.ThrowIfNameIsNull`: the same check on a call, with its own message. */
  function ThrowIfCallNameIsNull(c: FunctionCall): (r: Outcome<Exception>)
    ensures r.Fail? <==> c.name.None?
    ensures r.Fail? ==> r.error == InvalidFunctionCall("Function Name is null.")
  {
    if c.name.None? then Fail(InvalidFunctionCall("Function Name is null.")) else Pass
  }

  /** An empty name is not null, so both checks let it through. */
  lemma EmptyNamePasses(d: FunctionDefinition, c: FunctionCall)
    requires d.name == Some("") && c.name == Some("")
    ensures ThrowIfNameIsNull(d).Pass? && ThrowIfCallNameIsNull(c).Pass?
  {
  }
}

=== FILE: demux.dfy ===
/** The update demultiplexer: `Updates` is the inbound update sequence itself,
    and each of the 24 typed streams is `OfType<K>` over it. A sequence of
    updates stands for everything the subject has delivered so far. */
module Demux {
  import opened Wrappers
  import opened Json

  /** The update classes with a typed stream of their own, and `Unlisted` for
      every other `ConversationUpdate` subclass (rate limits, for instance). */
  datatype UpdateKind =
    | SessionStarted | AudioDelta | AudioDone | ContentPartFinished | ContentPartStarted
    | Error | FunctionCallArgumentsDone | FunctionCallArgumentsDelta
    | InputAudioBufferCleared | InputAudioBufferCommitted
    | InputSpeechFinished | InputSpeechStarted
    | InputTranscriptionFailed | InputTranscriptionFinished
    | ItemDeleted | ItemFinished | ItemStarted
    | OutputTranscriptionDelta | OutputTranscriptionFinished
    | ResponseFinished | ResponseStarted | SessionConfigured | TextDelta | TextDone
    | Unlisted

  /** The kind of a typed stream: any kind but `Unlisted`. */
  type Stream = k: UpdateKind | k != Unlisted witness SessionStarted

  /** A kind whose updates carry nothing the core reads. */
  type PlainKind = k: UpdateKind | k != ItemFinished && k != ResponseFinished witness Unlisted

  const StreamCount: nat := 24

  /** The typed stream at position `i` of the 24, in declaration order. */
  function StreamAt(i: nat): (k: Stream)
    requires i < StreamCount
  {
    if i == 0 then SessionStarted else if i == 1 then AudioDelta else if i == 2 then AudioDone
    else if i == 3 then ContentPartFinished else if i == 4 then ContentPartStarted else if i == 5 then Error
    else if i == 6 then FunctionCallArgumentsDone else if i == 7 then FunctionCallArgumentsDelta
    else if i == 8 then InputAudioBufferCleared else if i == 9 then InputAudioBufferCommitted
    else if i == 10 then InputSpeechFinished else if i == 11 then InputSpeechStarted
    else if i == 12 then InputTranscriptionFailed else if i == 13 then InputTranscriptionFinished
    else if i == 14 then ItemDeleted else if i == 15 then ItemFinished else if i == 16 then ItemStarted
    else if i == 17 then OutputTranscriptionDelta else if i == 18 then OutputTranscriptionFinished
    else if i == 19 then ResponseFinished else if i == 20 then ResponseStarted
    else if i == 21 then SessionConfigured else if i == 22 then TextDelta else TextDone
  }

  /** The position of a typed stream among the 24. */
  function StreamIndex(k: Stream): (i: nat)
    ensures i < StreamCount && StreamAt(i) == k
  {
    match k
    case SessionStarted => 0 case AudioDelta => 1 case AudioDone => 2
    case ContentPartFinished => 3 case ContentPartStarted => 4 case Error => 5
    case FunctionCallArgumentsDone => 6 case FunctionCallArgumentsDelta => 7
    case InputAudioBufferCleared => 8 case InputAudioBufferCommitted => 9
    case InputSpeechFinished => 10 case InputSpeechStarted => 11
    case InputTranscriptionFailed => 12 case InputTranscriptionFinished => 13
    case ItemDeleted => 14 case ItemFinished => 15 case ItemStarted => 16
    case OutputTranscriptionDelta => 17 case OutputTranscriptionFinished => 18
    case ResponseFinished => 19 case ResponseStarted => 20
    case SessionConfigured => 21 case TextDelta => 22 case TextDone => 23
  }

  /** The 24 typed streams, in declaration order. */
  const AllStreams: seq<Stream> := seq(StreamCount, i requires 0 <= i < StreamCount => StreamAt(i))

  /** An inbound update. Only two kinds carry data the core reads: an item
      that finished (a function call when it names a function) and a finished
      response (whose raw payload holds the usage). `tag` tells otherwise
      equal updates apart. */
  datatype Update =
    | ItemFinishedUpdate(functionName: Option<string>, functionCallId: string, functionCallArguments: Option<string>)
    | ResponseFinishedUpdate(rawContent: Payload)
    | PlainUpdate(plainKind: PlainKind, tag: nat)

  function KindOf(u: Update): (k: UpdateKind)
    ensures k == ItemFinished <==> u.ItemFinishedUpdate?
    ensures k == ResponseFinished <==> u.ResponseFinishedUpdate?
  {
    match u
    case ItemFinishedUpdate(_, _, _) => ItemFinished
    case ResponseFinishedUpdate(_) => ResponseFinished
    case PlainUpdate(k, _) => k
  }

  /** `a` is `b` with some elements left out, the rest in their order. */
  predicate IsSubsequence(a: seq<Update>, b: seq<Update>)
    decreases |b|
  {
    if |a| == 0 then true
    else if |b| == 0 then false
    else if a[|a| - 1] == b[|b| - 1] then IsSubsequence(a[..|a| - 1], b[..|b| - 1])
    else IsSubsequence(a, b[..|b| - 1])
  }

  /** How many updates of kind `k` the sequence holds. */
  function CountOf(s: seq<Update>, k: UpdateKind): nat {
    if |s| == 0 then 0 else CountOf(s[..|s| - 1], k) + (if KindOf(s[|s| - 1]) == k then 1 else 0)
  }

  /** `_updates.OfType<K>()`: the updates of kind `k`, in arrival order. */
  function OfType(s: seq<Update>, k: Stream): (r: seq<Update>)
    ensures forall j :: 0 <= j < |r| ==> KindOf(r[j]) == k
    ensures |r| == CountOf(s, k)
  {
    if |s| == 0 then []
    else
      var front := OfType(s[..|s| - 1], k);
      var last := s[|s| - 1];
      if KindOf(last) == k then
        var r := front + [last];
        assert r[..|r| - 1] == front;
        r
      else
        front
  }

  /** A typed stream is the delivered sequence with some updates left out,
      the rest in arrival order. */
  lemma {:induction false} OfTypeIsSubsequence(s: seq<Update>, k: Stream)
    ensures IsSubsequence(OfType(s, k), s)
  {
    if |s| > 0 {
      var front := s[..|s| - 1];
      var last := s[|s| - 1];
      OfTypeIsSubsequence(front, k);
      var r := OfType(s, k);
      if KindOf(last) == k {
        assert r[..|r| - 1] == OfType(front, k) && r[|r| - 1] == last;
      } else {
        assert r == OfType(front, k);
        assert |r| > 0 ==> KindOf(r[|r| - 1]) != KindOf(last);
      }
    }
  }

  /** The positions of `s` holding updates of kind `k`, in increasing order. */
  function Positions(s: seq<Update>, k: UpdateKind): (r: seq<nat>)
    ensures forall j :: 0 <= j < |r| ==> r[j] < |s| && KindOf(s[r[j]]) == k
    ensures forall j, j' :: 0 <= j < j' < |r| ==> r[j] < r[j']
    ensures forall i :: 0 <= i < |s| && KindOf(s[i]) == k ==> i in r
  {
    if |s| == 0 then []
    else
      var front := Positions(s[..|s| - 1], k);
      if KindOf(s[|s| - 1]) == k then front + [|s| - 1] else front
  }

  /** Filtering one more update appends it exactly when it has the kind. */
  lemma OfTypeSnoc(s: seq<Update>, x: Update, k: Stream)
    ensures OfType(s + [x], k) == OfType(s, k) + (if KindOf(x) == k then [x] else [])
  {
    var t := s + [x];
    assert t[..|t| - 1] == s && t[|t| - 1] == x;
  }

  /** The positions of a kind after one more update. */
  lemma PositionsSnoc(s: seq<Update>, x: Update, k: Stream)
    ensures Positions(s + [x], k) == Positions(s, k) + (if KindOf(x) == k then [|s|] else [])
  {
    var t := s + [x];
    assert t[..|t| - 1] == s && t[|t| - 1] == x;
  }

  /** Pointwise agreement survives appending `x` to the source, and to both
      sides when it is kept. */
  lemma PointwiseSnoc(front: seq<Update>, x: Update, r: seq<Update>, ps: seq<nat>, keep: bool)
    requires |r| == |ps|
    requires forall j :: 0 <= j < |r| ==> ps[j] < |front| && r[j] == front[ps[j]]
    ensures var r' := r + (if keep then [x] else []);
            var ps' := ps + (if keep then [|front|] else []);
            && |r'| == |ps'|
            && forall j :: 0 <= j < |r'| ==> ps'[j] < |front + [x]| && r'[j] == (front + [x])[ps'[j]]
  {
  }

  /** The typed stream is exactly the updates at the positions of its kind:
      nothing of another kind gets in, nothing of its kind is dropped or
      repeated, and the order is the arrival order. */
  lemma {:induction false} OfTypeIsPositions(s: seq<Update>, k: Stream)
    ensures |OfType(s, k)| == |Positions(s, k)|
    ensures forall j :: 0 <= j < |OfType(s, k)| ==> OfType(s, k)[j] == s[Positions(s, k)[j]]
  {
    if |s| > 0 {
      var front := s[..|s| - 1];
      var last := s[|s| - 1];
      assert s == front + [last];
      OfTypeIsPositions(front, k);
      OfTypeSnoc(front, last, k);
      PositionsSnoc(front, last, k);
      PointwiseSnoc(front, last, OfType(front, k), Positions(front, k), KindOf(last) == k);
    }
  }

  /** Delivering more updates only extends each typed stream: the stream of a
      concatenation is the concatenation of the streams. */
  lemma {:induction false} OfTypeAppend(a: seq<Update>, b: seq<Update>, k: Stream)
    ensures OfType(a + b, k) == OfType(a, k) + OfType(b, k)
    decreases |b|
  {
    if |b| == 0 {
      assert a + b == a;
    } else {
      var front := b[..|b| - 1];
      var last := b[|b| - 1];
      assert b == front + [last];
      assert a + b == (a + front) + [last];
      OfTypeAppend(a, front, k);
      OfTypeSnoc(a + front, last, k);
      OfTypeSnoc(front, last, k);
      var tail := if KindOf(last) == k then [last] else [];
      assert OfType(a, k) + OfType(front, k) + tail == OfType(a, k) + (OfType(front, k) + tail);
    }
  }

  /** An update is in a typed stream exactly when it was delivered and has
      the stream's kind. */
  lemma {:induction false} OfTypeMembership(s: seq<Update>, k: Stream, u: Update)
    ensures u in OfType(s, k) <==> u in s && KindOf(u) == k
  {
    if |s| > 0 {
      var front := s[..|s| - 1];
      OfTypeMembership(front, k, u);
      assert s == front + [s[|s| - 1]];
    }
  }

  /** Filtering a typed stream by its own kind changes nothing. */
  lemma {:induction false} OfTypeIdempotent(s: seq<Update>, k: Stream)
    ensures OfType(OfType(s, k), k) == OfType(s, k)
  {
    if |s| > 0 {
      var front := s[..|s| - 1];
      OfTypeIdempotent(front, k);
      var r := OfType(s, k);
      if KindOf(s[|s| - 1]) == k {
        assert r[..|r| - 1] == OfType(front, k);
      }
    }
  }

  /** No update reaches two typed streams. */
  lemma {:induction false} StreamsDisjoint(s: seq<Update>, k: Stream, k': Stream)
    requires k != k'
    ensures OfType(OfType(s, k), k') == []
  {
    if |s| > 0 {
      StreamsDisjoint(s[..|s| - 1], k, k');
      var r := OfType(s, k);
      if KindOf(s[|s| - 1]) == k {
        assert r[..|r| - 1] == OfType(s[..|s| - 1], k);
      }
    }
  }

  /** The subject's fan-out: each update, as it arrives, is handed to every
      typed stream whose kind it has. */
  method Demultiplex(s: seq<Update>) returns (streams: map<Stream, seq<Update>>)
    ensures forall k: Stream :: k in streams && streams[k] == OfType(s, k)
  {
    streams := map k: Stream | k in AllStreams :: [];
    AllStreamsListed();
    var i := 0;
    while i < |s|
      invariant 0 <= i <= |s|
      invariant forall k: Stream :: k in streams && streams[k] == OfType(s[..i], k)
    {
      var u := s[i];
      assert s[..i + 1][..i] == s[..i];
      if KindOf(u) != Unlisted {
        var k: Stream := KindOf(u);
        streams := streams[k := streams[k] + [u]];
      }
      i := i + 1;
    }
    assert s[..i] == s;
  }

  /** Every stream kind is in the list of typed streams. */
  lemma AllStreamsListed()
    ensures forall k: Stream :: k in AllStreams
  {
    forall k: Stream
      ensures k in AllStreams
    {
      assert AllStreams[StreamIndex(k)] == k;
    }
  }
}

=== FILE: dispatch.dfy ===
/** Invocation: `FindMethod`, `IsCompatibleReturnType`,
    `PrepareMethodInvocation` and `CallFunctionAsync`. Reflection, JSON text
    parsing, the serializer's other types and the invoked function itself are
    supplied by an environment. */
module Dispatch {
  import opened Wrappers
  import opened Exceptions
  import opened Json
  import opened ClrTypes
  import opened Definitions
  import opened Coercion
  import Schema

  /** What invoking a method gave: its return value (for a task-returning
      method, the value its task completed with, `VNull` for a plain `Task`),
      an exception it or its task threw, or a `null` task. */
  datatype Completion = Completed(value: Value) | Faulted(message: string) | NullTask

  /** The code the model cannot see. `handleType` is the runtime type of the
      `WeakReference<object>` handle kept as a definition's owner. */
  datatype Env = Env(
    handleType: TypeInfo,
    parseJson: string -> Option<Json>,
    deserializeOther: (ClrType, Json) -> Option<Value>,
    invoke: (Option<ObjectRef>, MethodInfo, seq<Value>) -> Completion)

  /** The `(obj, methodInfo, args)` triple. */
  datatype Invocation = Invocation(target: Option<ObjectRef>, methodInfo: MethodInfo, arguments: seq<Value>)

  /** The public methods whose CLR name is `name`, in order (`Type.GetMethod`'s candidates). */
  function PublicNamed(ms: seq<MethodInfo>, name: string): (r: seq<MethodInfo>)
    ensures |r| <= |ms|
    ensures forall m :: m in r <==> m in ms && m.isPublic && m.name == name
  {
    if |ms| == 0 then []
    else (if ms[0].isPublic && ms[0].name == name then [ms[0]] else []) + PublicNamed(ms[1..], name)
  }

  /** When a single method qualifies, `GetMethod` has exactly one candidate. */
  lemma {:induction false} PublicNamedSingle(ms: seq<MethodInfo>, name: string, k: nat)
    requires k < |ms| && ms[k].isPublic && ms[k].name == name
    requires forall j :: 0 <= j < |ms| && j != k ==> !(ms[j].isPublic && ms[j].name == name)
    ensures PublicNamed(ms, name) == [ms[k]]
  {
    if k == 0 {
      assert forall j :: 0 <= j < |ms[1..]| ==> ms[1..][j] == ms[j + 1];
      PublicNamedNone(ms[1..], name);
    } else {
      assert ms[1..][k - 1] == ms[k];
      forall j | 0 <= j < |ms[1..]| && j != k - 1 ensures !(ms[1..][j].isPublic && ms[1..][j].name == name) {
        assert ms[1..][j] == ms[j + 1];
      }
      PublicNamedSingle(ms[1..], name, k - 1);
    }
  }

  /** When no method qualifies, `GetMethod` has no candidate. */
  lemma {:induction false} PublicNamedNone(ms: seq<MethodInfo>, name: string)
    requires forall j :: 0 <= j < |ms| ==> !(ms[j].isPublic && ms[j].name == name)
    ensures PublicNamed(ms, name) == []
  {
    if |ms| > 0 {
      assert forall j :: 0 <= j < |ms[1..]| ==> ms[1..][j] == ms[j + 1];
      PublicNamedNone(ms[1..], name);
    }
  }

  /** The method's `[FunctionDescription]` gives it the name `name`. */
  predicate AttributeNamed(m: MethodInfo, name: string) {
    m.attribute.Some? && m.attribute.value.name == Some(name)
  }

  /** The name a tool method is registered under: the attribute's `Name`, else the method's. */
  function ToolName(m: MethodInfo): string {
    if m.attribute.Some? && m.attribute.value.name.Some? then m.attribute.value.name.value else m.name
  }

  /** `Array.Find(type.GetMethods(), …)`: the first public method whose attribute names it `name`. */
  function FirstAttributeNamed(ms: seq<MethodInfo>, name: string): (r: Option<nat>)
    ensures r.None? <==> forall i :: 0 <= i < |ms| ==> !(ms[i].isPublic && AttributeNamed(ms[i], name))
    ensures r.Some? ==> r.value < |ms| && ms[r.value].isPublic && AttributeNamed(ms[r.value], name)
    ensures r.Some? ==> forall i :: 0 <= i < r.value ==> !(ms[i].isPublic && AttributeNamed(ms[i], name))
  {
    if |ms| == 0 then None
    else if ms[0].isPublic && AttributeNamed(ms[0], name) then Some(0)
    else
      var rest := FirstAttributeNamed(ms[1..], name);
      assert forall i :: 1 <= i < |ms| ==> ms[i] == ms[1..][i - 1];
      if rest.Some? then Some(rest.value + 1) else None
  }

  /** The not-found message; it names the type of the `Type` object, not the searched type. */
  function NotFoundMessage(name: string): string {
    "Method '" + name + "' on type 'System.RuntimeType' not found."
  }

  /** `FindMethod(Type, string)`: the public method with that CLR name (an
      overloaded name is ambiguous), else the first public method whose
      attribute carries that name, else not found. */
  function FindMethod(t: TypeInfo, name: string): (r: Result<MethodInfo, Exception>)
    ensures |PublicNamed(t.methods, name)| == 1 ==> r == Success(PublicNamed(t.methods, name)[0])
    ensures |PublicNamed(t.methods, name)| > 1 <==> r == Failure(AmbiguousMatch(name))
    ensures r.Success? ==> r.value in t.methods && r.value.isPublic && (r.value.name == name || AttributeNamed(r.value, name))
    ensures |PublicNamed(t.methods, name)| == 0 ==>
              (r.Success? <==> exists i :: 0 <= i < |t.methods| && t.methods[i].isPublic && AttributeNamed(t.methods[i], name))
    ensures r.Failure? && !r.error.AmbiguousMatch? ==> r.error == InvalidFunctionCall(NotFoundMessage(name))
    ensures |PublicNamed(t.methods, name)| == 0 && FirstAttributeNamed(t.methods, name).Some? ==>
              r == Success(t.methods[FirstAttributeNamed(t.methods, name).value])
  {
    var named := PublicNamed(t.methods, name);
    if |named| == 1 then Success(named[0])
    else if |named| > 1 then Failure(AmbiguousMatch(name))
    else
      match FirstAttributeNamed(t.methods, name)
      case Some(i) => Success(t.methods[i])
      case None => Failure(InvalidFunctionCall(NotFoundMessage(name)))
  }

  /** A public tool method whose registered name no other public method
      shares, by CLR name or by attribute, is found again under that name. */
  lemma RegisteredToolIsFound(t: TypeInfo, k: nat)
    requires k < |t.methods| && t.methods[k].isPublic
    requires forall j :: 0 <= j < |t.methods| && j != k && t.methods[j].isPublic ==>
               t.methods[j].name != ToolName(t.methods[k]) && !AttributeNamed(t.methods[j], ToolName(t.methods[k]))
    ensures FindMethod(t, ToolName(t.methods[k])) == Success(t.methods[k])
  {
    var m := t.methods[k];
    var name := ToolName(m);
    if m.name == name {
      PublicNamedSingle(t.methods, name, k);
    } else {
      assert AttributeNamed(m, name);
      PublicNamedNone(t.methods, name);
      var f := FirstAttributeNamed(t.methods, name);
      assert f == Some(k);
    }
  }

  /** A private tool method is registered under its name but can never be
      found: `GetMethods()` lists public methods only. */
  lemma PrivateToolRegisteredButNotFound()
    ensures var m := MethodInfo("Hidden", false, true, ObjectType, [], Some(FunctionDescription(Some("hidden"), None)));
            var t := TypeInfo("Tools", [m]);
            && Schema.GetFunctionDefinitions(t, None).Success?
            && Schema.GetFunctionDefinitions(t, None).value[0].name == Some("hidden")
            && FindMethod(t, "hidden") == Failure(InvalidFunctionCall(NotFoundMessage("hidden")))
  {
    var m := MethodInfo("Hidden", false, true, ObjectType, [], Some(FunctionDescription(Some("hidden"), None)));
    var t := TypeInfo("Tools", [m]);
    assert Schema.ToolMethods(t.methods, false) == [m];
    assert PublicNamed(t.methods, "hidden") == [];
  }

  /** `IsCompatibleReturnType<T>`: `T` is assignable from the return type, or
      from the result type of a `Task<U>` return type. */
  predicate IsCompatibleReturnType(expected: ClrType, returnType: ClrType) {
    IsAssignableFrom(expected, returnType) || (returnType.TaskOf? && IsAssignableFrom(expected, returnType.result))
  }

  /** `object` accepts every return type; `T` accepts `T` and `Task<T>`; a
      `void` method suits only `void` and `object`. */
  lemma CompatibleReturnTypes(expected: ClrType, returnType: ClrType)
    ensures IsCompatibleReturnType(ObjectType, returnType)
    ensures IsCompatibleReturnType(expected, expected) && IsCompatibleReturnType(expected, TaskOf(expected))
    ensures IsCompatibleReturnType(expected, VoidType) <==> expected == VoidType || expected == ObjectType
  {
  }

  /** The type `FindMethod` searches: the handle's own type when the definition
      holds an owner, else the declaring type. */
  function SearchedType(env: Env, def: FunctionDefinition): Option<TypeInfo> {
    if def.owner.Some? then Some(env.handleType) else def.ownerType
  }

  function ReturnTypeMessage(name: string, t: TypeInfo, returnType: ClrType, expected: ClrType): string {
    "Method '" + name + "' on type '" + t.name + "' has return type '" + FullName(returnType)
      + "' but expected '" + FullName(expected) + "' or Task<" + FullName(expected) + ">"
  }

  /** `PrepareMethodInvocation<T>`: name check, method lookup, return-type
      check, argument parsing, argument coercion, in that order. */
  function PrepareMethodInvocation(env: Env, call: FunctionCall, def: FunctionDefinition, expected: ClrType, allowPartial: bool): (r: Result<Invocation, Exception>)
    ensures call.name.None? ==> r == Failure(InvalidFunctionCall("Function Name is null."))
    ensures call.name.Some? && SearchedType(env, def).None? ==> r == Failure(NullReference)
    ensures r.Success? ==> call.name.Some? && SearchedType(env, def).Some?
    ensures r.Success? ==> FindMethod(SearchedType(env, def).value, call.name.value) == Success(r.value.methodInfo)
    ensures r.Success? && def.owner.Some? ==> r.value.methodInfo in env.handleType.methods
    ensures r.Success? ==> IsCompatibleReturnType(expected, r.value.methodInfo.returnType) && r.value.target == def.owner
    ensures r.Success? ==> TryParseArguments(env.parseJson, call.arguments, None).Some?
    ensures r.Success? ==> |r.value.arguments| == |r.value.methodInfo.parameters|
    ensures r.Success? ==> forall i :: 0 <= i < |r.value.arguments| ==>
              CoerceArgument(env.deserializeOther, r.value.methodInfo.parameters[i], TryParseArguments(env.parseJson, call.arguments, None).value)
              == Success(r.value.arguments[i])
    ensures call.name.Some? && SearchedType(env, def).Some? && FindMethod(SearchedType(env, def).value, call.name.value).Success?
            && !IsCompatibleReturnType(expected, FindMethod(SearchedType(env, def).value, call.name.value).value.returnType) ==>
              r == Failure(InvalidFunctionCall(ReturnTypeMessage(call.name.value, SearchedType(env, def).value,
                                                                  FindMethod(SearchedType(env, def).value, call.name.value).value.returnType, expected)))
    ensures call.name.Some? && SearchedType(env, def).Some? && FindMethod(SearchedType(env, def).value, call.name.value).Success?
            && IsCompatibleReturnType(expected, FindMethod(SearchedType(env, def).value, call.name.value).value.returnType)
            && TryParseArguments(env.parseJson, call.arguments, None).None? ==>
              r == Failure(InvalidFunctionCall("Failed to parse function arguments."))
    ensures call.name.Some? && SearchedType(env, def).Some? ==>
              var found := FindMethod(SearchedType(env, def).value, call.name.value);
              && (found.Failure? ==> r == Failure(found.error))
              && (found.Success? && IsCompatibleReturnType(expected, found.value.returnType)
                  && TryParseArguments(env.parseJson, call.arguments, None).Some? ==>
                    var prepared := PrepareArguments(env.deserializeOther, found.value.parameters,
                                                     TryParseArguments(env.parseJson, call.arguments, None).value);
                    && (prepared.Failure? ==> r == Failure(prepared.error))
                    && (prepared.Success? ==> r.Success?))
  {
    match ThrowIfCallNameIsNull(call)
    case Fail(e) => Failure(e)
    case Pass =>
      var name := call.name.value;
      match SearchedType(env, def)
      case None => Failure(NullReference)
      case Some(t) =>
        var m :- FindMethod(t, name);
        if !IsCompatibleReturnType(expected, m.returnType) then
          Failure(InvalidFunctionCall(ReturnTypeMessage(name, t, m.returnType, expected)))
        else
          match TryParseArguments(env.parseJson, call.arguments, if allowPartial then Some("\"}") else None)
          case None => Failure(InvalidFunctionCall("Failed to parse function arguments."))
          case Some(args) =>
            var values :- PrepareArguments(env.deserializeOther, m.parameters, args);
            Success(Invocation(def.owner, m, values))
  }

  /** A registered static tool called by its registered name with no arguments
      resolves to its method, with every argument defaulted. */
  lemma RegisteredToolDispatches(env: Env, t: TypeInfo, k: nat, expected: ClrType)
    requires k < |t.methods| && t.methods[k].isPublic
    requires forall j :: 0 <= j < |t.methods| && j != k && t.methods[j].isPublic ==>
               t.methods[j].name != ToolName(t.methods[k]) && !AttributeNamed(t.methods[j], ToolName(t.methods[k]))
    requires Schema.GetFunctionDefinition(t.methods[k], t, None).Success?
    requires IsCompatibleReturnType(expected, t.methods[k].returnType)
    ensures var def := Schema.GetFunctionDefinition(t.methods[k], t, None).value;
            var r := PrepareMethodInvocation(env, FunctionCall(def.name, None), def, expected, false);
            var ps := t.methods[k].parameters;
            && r.Success? && r.value.target == None && r.value.methodInfo == t.methods[k]
            && |r.value.arguments| == |ps|
            && forall i :: 0 <= i < |ps| ==> r.value.arguments[i] == DefaultValue(ps[i].parameterType)
  {
    var m := t.methods[k];
    var def := Schema.GetFunctionDefinition(m, t, None).value;
    assert def.name == Some(ToolName(m));
    RegisteredToolIsFound(t, k);
    EmptyArgumentsGiveDefaults(env.deserializeOther, m.parameters);
    var values := PrepareArguments(env.deserializeOther, m.parameters, map[]).value;
    assert SearchedType(env, def) == Some(t);
    assert TryParseArguments(env.parseJson, None, None) == Some(map[]);
    assert PrepareMethodInvocation(env, FunctionCall(def.name, None), def, expected, false) == Success(Invocation(None, m, values));
  }

  /** A task-returning method. */
  predicate IsTask(t: ClrType) {
    t == TaskType || t.TaskOf?
  }

  /** The `(T?)` cast of the result: `null` cannot become a value type. */
  function CastResult(expected: ClrType, v: Value): (r: Result<Value, Exception>)
    ensures r.Success? ==> r.value == v
    ensures r.Failure? <==> v == VNull && IsValueType(expected)
  {
    if v == VNull && IsValueType(expected) then Failure(NullReference) else Success(v)
  }

  /** The tail of `CallFunctionAsync<T>`: await a task, unwrap `Task<U>`'s
      result, and give `default(T)` for a plain `Task`. */
  function Complete(expected: ClrType, returnType: ClrType, c: Completion): (r: Result<Value, Exception>)
    ensures c.Faulted? ==> r == Failure(Thrown(c.message))
    ensures c.NullTask? && IsTask(returnType) ==> r == Failure(NullReference)
    ensures c.Completed? && returnType == TaskType ==> r == Success(DefaultValue(expected))
    ensures c.Completed? && returnType != TaskType && (c.value != VNull || !IsValueType(expected)) ==> r == Success(c.value)
    ensures c.Completed? && returnType != TaskType && c.value == VNull && IsValueType(expected) ==> r == Failure(NullReference)
    ensures c.NullTask? && !IsTask(returnType) ==>
              r == (if IsValueType(expected) then Failure(NullReference) else Success(VNull))
  {
    match c
    case Faulted(message) => Failure(Thrown(message))
    case NullTask => if IsTask(returnType) then Failure(NullReference) else CastResult(expected, VNull)
    case Completed(v) => if returnType == TaskType then Success(DefaultValue(expected)) else CastResult(expected, v)
  }

  /** `CallFunctionAsync<T>`: prepare, invoke on the definition's owner handle,
      and complete: a faulted invocation rethrows, a plain `Task` gives
      `default(T)`, a null task of a task-returning method and a null result
      cast to a value type throw a null reference, and any other result is
      returned as it is. */
  function CallFunctionAsync(env: Env, call: FunctionCall, def: FunctionDefinition, expected: ClrType, allowPartial: bool): (r: Result<Value, Exception>)
    ensures PrepareMethodInvocation(env, call, def, expected, allowPartial).Failure? ==>
              r == Failure(PrepareMethodInvocation(env, call, def, expected, allowPartial).error)
    ensures r.Success? ==> PrepareMethodInvocation(env, call, def, expected, allowPartial).Success?
    ensures PrepareMethodInvocation(env, call, def, expected, allowPartial).Success? ==>
              var inv := PrepareMethodInvocation(env, call, def, expected, allowPartial).value;
              var c := env.invoke(def.owner, inv.methodInfo, inv.arguments);
              var returnType := inv.methodInfo.returnType;
              && (c.Faulted? ==> r == Failure(Thrown(c.message)))
              && (c.NullTask? ==> (r.Failure? <==> IsTask(returnType) || IsValueType(expected)))
              && (c.NullTask? && r.Failure? ==> r.error == NullReference)
              && (c.NullTask? && r.Success? ==> r.value == VNull)
              && (c.Completed? && returnType == TaskType ==> r == Success(DefaultValue(expected)))
              && (c.Completed? && returnType != TaskType && !(c.value == VNull && IsValueType(expected)) ==> r == Success(c.value))
              && (c.Completed? && returnType != TaskType && c.value == VNull && IsValueType(expected) ==> r == Failure(NullReference))
  {
    var inv :- PrepareMethodInvocation(env, call, def, expected, allowPartial);
    Complete(expected, inv.methodInfo.returnType, env.invoke(inv.target, inv.methodInfo, inv.arguments))
  }

  /** The parameter defaults a call without arguments passes. */
  function Defaults(ps: seq<ParameterInfo>): (r: seq<Value>)
    ensures |r| == |ps| && forall i :: 0 <= i < |ps| ==> r[i] == DefaultValue(ps[i].parameterType)
  {
    seq(|ps|, i requires 0 <= i < |ps| => DefaultValue(ps[i].parameterType))
  }

  /** Calling a registered static tool by its registered name, without
      arguments, returns what its invocation with every argument defaulted
      completes with; a plain `Task` gives `default(T)`. */
  lemma RegisteredToolCallReturns(env: Env, t: TypeInfo, k: nat, expected: ClrType, v: Value)
    requires k < |t.methods| && t.methods[k].isPublic
    requires forall j :: 0 <= j < |t.methods| && j != k && t.methods[j].isPublic ==>
               t.methods[j].name != ToolName(t.methods[k]) && !AttributeNamed(t.methods[j], ToolName(t.methods[k]))
    requires Schema.GetFunctionDefinition(t.methods[k], t, None).Success?
    requires IsCompatibleReturnType(expected, t.methods[k].returnType)
    requires env.invoke(None, t.methods[k], Defaults(t.methods[k].parameters)) == Completed(v)
    ensures var def := Schema.GetFunctionDefinition(t.methods[k], t, None).value;
            var r := CallFunctionAsync(env, FunctionCall(def.name, None), def, expected, false);
            && (t.methods[k].returnType == TaskType ==> r == Success(DefaultValue(expected)))
            && (t.methods[k].returnType != TaskType && !(v == VNull && IsValueType(expected)) ==> r == Success(v))
  {
    var def := Schema.GetFunctionDefinition(t.methods[k], t, None).value;
    RegisteredToolDispatches(env, t, k, expected);
    var inv := PrepareMethodInvocation(env, FunctionCall(def.name, None), def, expected, false).value;
    assert inv.arguments == Defaults(t.methods[k].parameters);
    assert def.owner == None;
  }
}

=== FILE: exceptions.dfy ===
/** The exceptions raised by the core, one constructor per .NET exception type,
    carrying the message the source gives it where the message is fixed. */
module Exceptions {

  datatype Exception =
    /** `InvalidFunctionCallException`: bad call name, unknown method,
        incompatible return type, unparseable arguments, bad enum value. */
    | InvalidFunctionCall(message: string)
    /** `InvalidOperationException`: session state errors and usage extraction errors. */
    | InvalidOperation(message: string)
    /** The plain `Exception` thrown for a parameter type with no schema mapping. */
    | UnsupportedParameterType(message: string)
    /** `ArgumentException` from `Dictionary.Add` on a repeated key. */
    | DuplicateKey(key: string)
    /** `AmbiguousMatchException` from `Type.GetMethod` when a name is overloaded. */
    | AmbiguousMatch(name: string)
    /** `NullReferenceException`. */
    | NullReference
    /** `InvalidCastException`. */
    | InvalidCast
    /** `JsonException` from deserialising a value into a parameter type. */
    | JsonError
    /** An exception thrown by the invoked function itself, or by the task it returned. */
    | Thrown(message: string)
}

=== FILE: json.dfy ===
/** Parsed JSON, as `System.Text.Json` presents it to the core. Turning JSON
    text into this tree is not part of the model. */
module Json {
  import opened Wrappers

  /** A JSON value. Numbers are split the way `Utf8JsonReader.TryGetInt32`
      sees them: an integer literal, or any literal with a fraction or
      exponent. Object members keep their order and may repeat a key. */
  datatype Json =
    | JNull
    | JBool(b: bool)
    | JInt(i: int)
    | JFrac(r: real)
    | JString(s: string)
    | JArray(items: seq<Json>)
    | JObject(members: seq<(string, Json)>)

  /** A raw payload: text that is not JSON, or a parsed document. */
  datatype Payload = Unparseable | Document(root: Json)

  /** Member `i` is the last one whose key is exactly `key`. */
  predicate LastKeyAt(members: seq<(string, Json)>, key: string, i: int) {
    && 0 <= i < |members|
    && members[i].0 == key
    && forall j :: i < j < |members| ==> members[j].0 != key
  }

  /** `JsonElement.GetProperty`: ordinal, case-sensitive key match; when a
      key repeats, the last occurrence is the one found. */
  function Lookup(members: seq<(string, Json)>, key: string): (r: Option<Json>)
    ensures r.None? <==> forall i :: 0 <= i < |members| ==> members[i].0 != key
    ensures r.Some? ==> exists i :: LastKeyAt(members, key, i) && members[i].1 == r.value
  {
    if |members| == 0 then None
    else if members[|members| - 1].0 == key then
      assert LastKeyAt(members, key, |members| - 1);
      Some(members[|members| - 1].1)
    else
      var front := members[..|members| - 1];
      var r := Lookup(front, key);
      if r.Some? then
        var i :| LastKeyAt(front, key, i) && front[i].1 == r.value;
        LastKeyAtExtends(members, key, i);
        r
      else
        assert forall i :: 0 <= i < |front| ==> members[i] == front[i];
        r
  }

  /** A last occurrence in all but the final member stays the last when the
      final member has another key. */
  lemma LastKeyAtExtends(members: seq<(string, Json)>, key: string, i: int)
    requires |members| > 0 && members[|members| - 1].0 != key
    requires LastKeyAt(members[..|members| - 1], key, i)
    ensures LastKeyAt(members, key, i) && members[i] == members[..|members| - 1][i]
  {
    var front := members[..|members| - 1];
    assert forall j :: 0 <= j < |front| ==> members[j] == front[j];
  }

  /** Whatever precedes the last occurrence of a key does not affect the lookup. */
  lemma {:induction false} LookupLastWins(front: seq<(string, Json)>, key: string, v: Json, back: seq<(string, Json)>)
    requires forall j :: 0 <= j < |back| ==> back[j].0 != key
    ensures Lookup(front + [(key, v)] + back, key) == Some(v)
    decreases |back|
  {
    var ms := front + [(key, v)] + back;
    if |back| == 0 {
      assert ms == front + [(key, v)];
    } else {
      var shorter := back[..|back| - 1];
      var prefix := front + [(key, v)] + shorter;
      assert ms == prefix + [back[|back| - 1]];
      assert ms[..|ms| - 1] == prefix;
      assert ms[|ms| - 1].0 != key;
      LookupLastWins(front, key, v, shorter);
      assert Lookup(ms, key) == Lookup(prefix, key);
    }
  }
}

=== FILE: orchestrator.dfy ===
/** `RealtimeConversationClientRX`: the session state machine, the tool
    registry, the function-call protocol, and the usage and cost cells. The
    client is a state record; what it asks of the underlying session and
    what it publishes on its subjects are events appended to a trace, in the
    order they happen. Updates are handled one at a time. */
module Orchestrator {
  import opened Wrappers
  import opened Exceptions
  import opened Text
  import opened Json
  import opened ClrTypes
  import opened Definitions
  import opened ToolExport
  import opened Dispatch
  import opened UsageModel
  import opened Cost
  import opened Demux

  /** `ConversationSessionOptions`, reduced to the fields the client sets. */
  datatype SessionOptions = SessionOptions(
    transcriptionModel: Option<string>,
    instructions: Option<string>,
    tools: seq<ConversationTool>)

  const Whisper1: string := "whisper-1"
  const DefaultInstructions: string := "You are an annoyingly rude assistant. Use lots of sarcasm and emojis. Only speak in Hungarian."

  /** The options `InitializeSessionAsync` uses when it is given none. */
  const DefaultOptions: SessionOptions := SessionOptions(Some(Whisper1), Some(DefaultInstructions), [])

  /** A conversation item the client adds to the session. */
  datatype ConversationItem =
    | UserMessage(text: string)
    | SystemMessage(text: string)
    | AssistantMessage(text: string)
    | FunctionCallOutput(callId: string, output: string)

  /** A call on the underlying session. Audio streams are told apart by an id. */
  datatype Request =
    | Configure(options: SessionOptions)
    | SendAudio(audio: nat)
    | StartResponseTurn
    | AddItem(item: ConversationItem)

  /** One step of the trace. */
  datatype Event =
    /** `StartConversationSessionAsync` on the wrapped client. */
    | SessionOpened
    /** A call on the session. */
    | Requested(request: Request)
    /** `FunctionCallStarted` emits. */
    | CallStarted(call: FunctionCall)
    /** `FunctionCallEnded` emits: the call and its result text. */
    | CallEnded(call: FunctionCall, result: string)
    /** `Usages` emits. */
    | UsagePublished(usage: Usage)
    /** `TotalCost` emits. */
    | CostPublished(cost: real)

  /** The `Usages` cell holds an object; `ref` is its identity, which is what
      the client compares. */
  datatype UsageCell = UsageCell(ref: nat, usage: Usage)

  /** The client's state.
      `session`: whether `_session` is set.
      `registry`: `_functionDefinitions`.
      `usageSubscribed`: whether `UpdateUsage` observes finished responses.
      `pumping`: whether the task forwarding session updates is running.
      `delivered`: every update `_updates` has emitted, in order.
      `nextRef`: the identity the next `Usage` object created will get. */
  datatype Client = Client(
    session: bool,
    registry: map<string, FunctionDefinition>,
    prices: Prices,
    usageCell: UsageCell,
    totalCost: real,
    usageSubscribed: bool,
    pumping: bool,
    delivered: seq<Update>,
    nextRef: nat,
    trace: seq<Event>)

  /** What the client cannot see: the dispatch environment of the invoked
      functions, and `ToString()` of a result the model does not spell out. */
  datatype Host = Host(env: Env, format: Value -> string)

  /** A freshly constructed client: no session, an empty registry, the usage
      cell at a fresh all-zero `Usage`, the cost cell at 0. */
  function NewClient(): (c: Client)
    ensures !c.session && c.registry == map[] && c.trace == [] && c.delivered == []
    ensures c.usageCell.usage == EmptyUsage && c.totalCost == 0.0
  {
    Client(false, map[], UnsetPrices, UsageCell(0, EmptyUsage), 0.0, false, false, [], 1, [])
  }

  /** What holds of every client reachable through the public operations:
      every usage object in the cell was created before `nextRef` was
      handed out, and nothing runs without a session. */
  predicate Valid(c: Client) {
    && c.usageCell.ref < c.nextRef
    && (c.pumping ==> c.session)
    && (c.usageSubscribed ==> c.session)
  }

  /** `VerifySession`. */
  function VerifySession(c: Client): (r: Outcome<Exception>)
    ensures r.Fail? <==> !c.session
    ensures r.Fail? ==> r.error == InvalidOperation("Session not initialized")
  {
    if !c.session then Fail(InvalidOperation("Session not initialized")) else Pass
  }

  /** Every session operation: `UpdateSessionOptionsAsync`, `SendAudioAsync`,
      `StartResponseTurnAsync`, and the user, system, assistant and function
      messages. Without a session it fails and changes nothing; with one it
      makes exactly its request. */
  function Send(c: Client, request: Request): (r: (Client, Outcome<Exception>))
    ensures r.1.Fail? <==> !c.session
    ensures r.1.Fail? ==> r.1.error == InvalidOperation("Session not initialized") && r.0 == c
    ensures r.1.Pass? ==> r.0 == c.(trace := c.trace + [Requested(request)])
  {
    match VerifySession(c)
    case Fail(e) => (c, Fail(e))
    case Pass => (c.(trace := c.trace + [Requested(request)]), Pass)
  }

  function UpdateSessionOptions(c: Client, options: SessionOptions): (Client, Outcome<Exception>) {
    Send(c, Configure(options))
  }

  function SendUserMessage(c: Client, text: string): (Client, Outcome<Exception>) {
    Send(c, AddItem(UserMessage(text)))
  }

  function SendSystemMessage(c: Client, text: string): (Client, Outcome<Exception>) {
    Send(c, AddItem(SystemMessage(text)))
  }

  function SendAssistantMessage(c: Client, text: string): (Client, Outcome<Exception>) {
    Send(c, AddItem(AssistantMessage(text)))
  }

  function SendFunctionMessage(c: Client, callId: string, output: string): (Client, Outcome<Exception>) {
    Send(c, AddItem(FunctionCallOutput(callId, output)))
  }

  // ---- Tool registry ----

  /** Definition `i` is the last among the first `n` named `name`. */
  predicate IsLastNamed(defs: seq<FunctionDefinition>, n: int, name: string, i: int) {
    && 0 <= i < n <= |defs|
    && defs[i].name == Some(name)
    && forall j :: i < j < n ==> defs[j].name != Some(name)
  }

  /** The position of the last of the first `n` definitions named `name`. */
  function LastNamedIndex(defs: seq<FunctionDefinition>, n: nat, name: string): (r: Option<nat>)
    requires n <= |defs|
    ensures r.None? <==> forall i :: 0 <= i < n ==> defs[i].name != Some(name)
    ensures r.Some? ==> IsLastNamed(defs, n, name, r.value)
  {
    if n == 0 then None
    else if defs[n - 1].name == Some(name) then Some(n - 1)
    else LastNamedIndex(defs, n - 1, name)
  }

  /** The definition "last one wins" leaves under `name` after the first `n`. */
  function LastNamed(defs: seq<FunctionDefinition>, n: nat, name: string): Option<FunctionDefinition>
    requires n <= |defs|
  {
    match LastNamedIndex(defs, n, name)
    case None => None
    case Some(i) => Some(defs[i])
  }

  /** No definition is left under a name none of the first `n` bears;
      otherwise the one left is the last bearing it. */
  lemma LastNamedMeaning(defs: seq<FunctionDefinition>, n: nat, name: string)
    requires n <= |defs|
    ensures LastNamed(defs, n, name).None? <==> forall i :: 0 <= i < n ==> defs[i].name != Some(name)
    ensures LastNamed(defs, n, name).Some? ==>
              exists i :: IsLastNamed(defs, n, name, i) && defs[i] == LastNamed(defs, n, name).value
  {
    var k := LastNamedIndex(defs, n, name);
    if k.Some? {
      assert IsLastNamed(defs, n, name, k.value) && defs[k.value] == LastNamed(defs, n, name).value;
    }
  }

  /** One more definition replaces what is left under its own name and no other. */
  lemma LastNamedStep(defs: seq<FunctionDefinition>, n: nat, name: string)
    requires 0 < n <= |defs|
    ensures LastNamed(defs, n, name)
            == if defs[n - 1].name == Some(name) then Some(defs[n - 1]) else LastNamed(defs, n - 1, name)
  {
    assert LastNamedIndex(defs, n, name)
           == if defs[n - 1].name == Some(name) then Some(n - 1) else LastNamedIndex(defs, n - 1, name);
  }

  /** The dictionary's `TryGetValue`. */
  function Find(registry: map<string, FunctionDefinition>, name: string): Option<FunctionDefinition> {
    if name in registry then Some(registry[name]) else None
  }

  /** `tools` holds, in order, the export of each of the first `|tools|`
      definitions, all of which have names. */
  predicate ToolsOf(defs: seq<FunctionDefinition>, tools: seq<ConversationTool>) {
    && |tools| <= |defs|
    && forall i :: 0 <= i < |tools| ==> defs[i].name.Some? && tools[i] == ToConversationTool(defs[i])
  }

  /** Each name finds in `registry` what "last one wins" leaves after the first `n` definitions. */
  ghost predicate RegistryOf(defs: seq<FunctionDefinition>, n: nat, registry: map<string, FunctionDefinition>)
    requires n <= |defs|
  {
    forall name :: Find(registry, name) == LastNamed(defs, n, name)
  }

  /** The tool list and registry `SetFunctionDefinitions` leaves, and whether it threw. */
  datatype Registration = Registration(tools: seq<ConversationTool>, registry: map<string, FunctionDefinition>, outcome: Outcome<Exception>)

  /** The loop of `SetFunctionDefinitions` over the first `n` definitions,
      after both collections are cleared: each definition in turn is checked
      for a null name, exported as a tool and stored under its name, so a
      later definition replaces an earlier one of the same name. The first
      null name throws, leaving what the definitions before it added. */
  function RegisterPrefix(defs: seq<FunctionDefinition>, n: nat): (r: Registration)
    requires n <= |defs|
    ensures ToolsOf(defs, r.tools) && |r.tools| <= n
    ensures RegistryOf(defs, |r.tools|, r.registry)
    ensures r.outcome.Pass? <==> forall i :: 0 <= i < n ==> defs[i].name.Some?
    ensures r.outcome.Pass? ==> |r.tools| == n
    ensures r.outcome.Fail? ==> |r.tools| < n && defs[|r.tools|].name.None?
    ensures r.outcome.Fail? ==> r.outcome.error == InvalidFunctionCall("Function name is null")
  {
    if n == 0 then Registration([], map[], Pass)
    else
      var prev := RegisterPrefix(defs, n - 1);
      if prev.outcome.Fail? then prev
      else
        var d := defs[n - 1];
        match ThrowIfNameIsNull(d)
        case Fail(e) => Registration(prev.tools, prev.registry, Fail(e))
        case Pass =>
          ToolsStep(defs, prev.tools);
          RegistryStep(defs, n, prev.registry);
          Registration(prev.tools + [ToConversationTool(d)], prev.registry[d.name.value := d], Pass)
  }

  /** Exporting the next named definition extends the tool list by its export. */
  lemma ToolsStep(defs: seq<FunctionDefinition>, tools: seq<ConversationTool>)
    requires ToolsOf(defs, tools) && |tools| < |defs| && defs[|tools|].name.Some?
    ensures ToolsOf(defs, tools + [ToConversationTool(defs[|tools|])])
  {
  }

  /** Storing the `n`-th definition under its name keeps "last one wins". */
  lemma RegistryStep(defs: seq<FunctionDefinition>, n: nat, registry: map<string, FunctionDefinition>)
    requires 0 < n <= |defs| && defs[n - 1].name.Some?
    requires RegistryOf(defs, n - 1, registry)
    ensures RegistryOf(defs, n, registry[defs[n - 1].name.value := defs[n - 1]])
  {
    forall name
      ensures Find(registry[defs[n - 1].name.value := defs[n - 1]], name) == LastNamed(defs, n, name)
    {
      RegistryStepAt(defs, n, registry, name);
    }
  }

  /** The same, for one name. */
  lemma RegistryStepAt(defs: seq<FunctionDefinition>, n: nat, registry: map<string, FunctionDefinition>, name: string)
    requires 0 < n <= |defs| && defs[n - 1].name.Some?
    requires Find(registry, name) == LastNamed(defs, n - 1, name)
    ensures Find(registry[defs[n - 1].name.value := defs[n - 1]], name) == LastNamed(defs, n, name)
  {
    LastNamedStep(defs, n, name);
    var d := defs[n - 1];
    if d.name != Some(name) {
      assert Find(registry[d.name.value := d], name) == Find(registry, name);
    }
  }

  /** The whole loop of `SetFunctionDefinitions`. */
  function Register(defs: seq<FunctionDefinition>): (r: Registration)
    ensures ToolsOf(defs, r.tools)
    ensures forall name :: Find(r.registry, name) == LastNamed(defs, |r.tools|, name)
    ensures r.outcome.Pass? <==> forall i :: 0 <= i < |defs| ==> defs[i].name.Some?
    ensures r.outcome.Pass? ==> |r.tools| == |defs|
    ensures r.outcome.Fail? ==> defs[|r.tools|].name.None?
    ensures r.outcome.Fail? ==> r.outcome.error == InvalidFunctionCall("Function name is null")
  {
    RegisterPrefix(defs, |defs|)
  }

  /** `SetFunctionDefinitions(options, definitions)`: the options' tools and
      the registry are cleared and refilled, one tool per definition in order
      and "last one wins" per name, up to the first null name, which throws.
      Nothing else in the client or the options changes. */
  function SetFunctionDefinitions(c: Client, options: SessionOptions, defs: seq<FunctionDefinition>): (r: (Client, SessionOptions, Outcome<Exception>))
    ensures ToolsOf(defs, r.1.tools)
    ensures RegistryOf(defs, |r.1.tools|, r.0.registry)
    ensures r.2.Pass? <==> forall i :: 0 <= i < |defs| ==> defs[i].name.Some?
    ensures r.2.Pass? ==> |r.1.tools| == |defs|
    ensures r.2.Fail? ==> defs[|r.1.tools|].name.None? && r.2.error == InvalidFunctionCall("Function name is null")
    ensures r.0 == c.(registry := r.0.registry)
    ensures r.1 == options.(tools := r.1.tools)
  {
    var reg := Register(defs);
    (c.(registry := reg.registry), options.(tools := reg.tools), reg.outcome)
  }

  // ---- Session state machine ----

  /** `InitializeSessionAsync`. A second call throws before touching anything.
      Otherwise the session is set first, the default options stand in for
      missing ones, the definitions (when given) are registered, the options
      are sent, and then usage tracking and the update pump start. A null
      definition name throws out of the middle of this, leaving the session
      set but neither configured nor pumping. */
  function InitializeSession(c: Client, options: Option<SessionOptions>, defs: Option<seq<FunctionDefinition>>): (r: (Client, Outcome<Exception>))
    ensures c.session ==> r == (c, Fail(InvalidOperation("Session already initialized")))
    ensures !c.session ==> r.0.session && r.0.usageCell == c.usageCell && r.0.nextRef == c.nextRef
    ensures r.1.Pass? <==> !c.session && (defs.None? || Register(defs.value).outcome.Pass?)
    ensures r.1.Pass? ==> r.0.usageSubscribed && r.0.pumping
    ensures r.1.Pass? ==> r.0.trace == c.trace + [SessionOpened, Requested(Configure(ConfiguredOptions(options, defs)))]
    ensures !c.session && r.1.Fail? ==>
              r.0.pumping == c.pumping && r.0.usageSubscribed == c.usageSubscribed && r.0.trace == c.trace + [SessionOpened]
  {
    if c.session then (c, Fail(InvalidOperation("Session already initialized")))
    else
      var r := OpenSession(c.(session := true, trace := c.trace + [SessionOpened]), options, defs);
      assert r.1.Pass? ==> r.0.trace == c.trace + [SessionOpened] + [Requested(Configure(ConfiguredOptions(options, defs)))];
      r
  }

  /** The rest of `InitializeSessionAsync` once the session is set: the
      definitions are registered, the options sent, and usage tracking and the
      pump started, unless registration throws. */
  function OpenSession(c: Client, options: Option<SessionOptions>, defs: Option<seq<FunctionDefinition>>): (r: (Client, Outcome<Exception>))
    requires c.session
    ensures r.0.session && r.0.usageCell == c.usageCell && r.0.nextRef == c.nextRef
    ensures r.1.Pass? <==> defs.None? || Register(defs.value).outcome.Pass?
    ensures r.1.Pass? ==>
              r.0.usageSubscribed && r.0.pumping && r.0.trace == c.trace + [Requested(Configure(ConfiguredOptions(options, defs)))]
    ensures r.1.Fail? ==> r.0.pumping == c.pumping && r.0.usageSubscribed == c.usageSubscribed && r.0.trace == c.trace
  {
    var opts := options.GetOr(DefaultOptions);
    var registered := if defs.Some? then SetFunctionDefinitions(c, opts, defs.value) else (c, opts, Pass);
    if registered.2.Fail? then (registered.0, registered.2)
    else
      var sent := UpdateSessionOptions(registered.0, registered.1);
      if sent.1.Fail? then sent
      else (sent.0.(usageSubscribed := true, pumping := true), Pass)
  }

  /** The caller's options object after `InitializeSessionAsync`: the tools
      of the very object passed in are cleared and refilled in place, so the
      caller sees the exported tools, or on a null name the tools before it.
      Options that were not passed, a second call and a call without
      definitions leave nothing of the caller's changed. */
  function CallerOptions(c: Client, options: Option<SessionOptions>, defs: Option<seq<FunctionDefinition>>): (r: Option<SessionOptions>)
    ensures r.Some? <==> options.Some?
    ensures c.session || defs.None? ==> r == options
    ensures !c.session && options.Some? && defs.Some? ==>
              && r.value == options.value.(tools := r.value.tools)
              && ToolsOf(defs.value, r.value.tools)
              && (InitializeSession(c, options, defs).1.Pass? <==> |r.value.tools| == |defs.value|)
  {
    if c.session || options.None? || defs.None? then options
    else Some(SetFunctionDefinitions(c, options.value, defs.value).1)
  }

  /** After a successful initialization, the caller's options are exactly the ones sent. */
  lemma CallerOptionsWereSent(c: Client, options: Option<SessionOptions>, defs: Option<seq<FunctionDefinition>>)
    requires options.Some? && InitializeSession(c, options, defs).1.Pass?
    ensures CallerOptions(c, options, defs) == Some(ConfiguredOptions(options, defs))
  {
  }

  /** The options a successful initialization sends. */
  function ConfiguredOptions(options: Option<SessionOptions>, defs: Option<seq<FunctionDefinition>>): SessionOptions {
    var opts := options.GetOr(DefaultOptions);
    if defs.Some? then opts.(tools := Register(defs.value).tools) else opts
  }

  /** `SetupCost`: the four prices, and nothing else, change. */
  function SetupCost(c: Client, textInput: real, textOutput: real, audioInput: real, audioOutput: real): (r: Client)
    ensures r.prices == Prices(textInput, textOutput, audioInput, audioOutput)
    ensures r.(prices := c.prices) == c
  {
    c.(prices := Prices(textInput, textOutput, audioInput, audioOutput))
  }

  // ---- Usage and cost ----

  /** `Usages.Value != usage`: reference inequality. */
  predicate Distinct(cell: UsageCell, ref: nat) {
    cell.ref != ref
  }

  /** `UpdateUsage`: parse the response's raw payload; a failure propagates,
      a null snapshot changes nothing; otherwise the cost of the new object is
      computed and, when it is not the object already in the cell, the
      snapshot and then the cost are published. */
  function UpdateUsage(c: Client, raw: Payload): (r: (Client, Outcome<Exception>))
    ensures ParseFromBinaryData(raw).Failure? ==> r == (c, Fail(ParseFromBinaryData(raw).error))
    ensures ParseFromBinaryData(raw) == Success(None) ==> r == (c, Pass)
    ensures ParseFromBinaryData(raw).Success? ==> r.1.Pass?
    ensures Valid(c) ==> Valid(r.0)
  {
    match ParseFromBinaryData(raw)
    case Failure(e) => (c, Fail(e))
    case Success(None) => (c, Pass)
    case Success(Some(usage)) =>
      var newRef := c.nextRef;
      var c' := c.(nextRef := c.nextRef + 1);
      var cost := CalculateTotalCost(c.prices, usage);
      if Distinct(c'.usageCell, newRef) then
        (c'.(usageCell := UsageCell(newRef, usage), totalCost := cost,
             trace := c'.trace + [UsagePublished(usage), CostPublished(cost)]), Pass)
      else (c', Pass)
  }

  // ---- Function calls ----

  /** `?.ToString() ?? "null"` of a call's result: a null result reads
      "null", a string as itself, a boolean as "True" or "False", a named
      enum value as its member name, and an integer as its decimal text. */
  function ResultText(format: Value -> string, v: Value): (s: string)
    ensures v == VNull ==> s == "null"
    ensures v.VInt? && IsInt32(v.i) ==> ParseInt32(s) == Parsed(v.i)
    ensures v.VString? ==> s == v.s
    ensures v.VBool? ==> s == (if v.b then "True" else "False")
    ensures v.VEnum? && 0 <= v.ordinal < |v.enumType.members| ==> s == v.enumType.members[v.ordinal]
  {
    match v
    case VNull => "null"
    case VBool(b) => if b then "True" else "False"
    case VInt(i) => (if IsInt32(i) then IntToStringParses(i); IntToString(i) else IntToString(i))
    case VString(s) => s
    case VEnum(e, i) => if 0 <= i < |e.members| then e.members[i] else IntToString(i)
    case VOpaque(_, text) => text
    case _ => format(v)
  }

  /** The events a handled call adds, from the started event on. */
  function CallEvents(call: FunctionCall, callId: string, result: string): seq<Event> {
    [CallStarted(call), CallEnded(call, result), Requested(AddItem(FunctionCallOutput(callId, result))), Requested(StartResponseTurn)]
  }

  /** `HandleFunctionCall`. An unregistered name is dropped. Otherwise the
      call is announced, invoked through `CallFunctionAsync<object>`, its
      result text announced and sent back under the update's call id, and a
      new response turn started. An exception from the invocation ends the
      handler after the announcement. */
  function HandleFunctionCall(host: Host, c: Client, name: string, callId: string, arguments: Option<string>): (r: (Client, Outcome<Exception>))
    ensures name !in c.registry ==> r == (c, Pass)
    ensures r.0 == c.(trace := r.0.trace)
    ensures name in c.registry ==>
              var call := FunctionCall(Some(name), arguments);
              match CallFunctionAsync(host.env, call, c.registry[name], ObjectType, false)
              case Failure(e) => r == (c.(trace := c.trace + [CallStarted(call)]), Fail(e))
              case Success(v) =>
                c.session ==> r == (c.(trace := c.trace + CallEvents(call, callId, ResultText(host.format, v))), Pass)
  {
    if name !in c.registry then (c, Pass)
    else
      var def := c.registry[name];
      var call := FunctionCall(Some(name), arguments);
      var started := c.(trace := c.trace + [CallStarted(call)]);
      match CallFunctionAsync(host.env, call, def, ObjectType, false)
      case Failure(e) => (started, Fail(e))
      case Success(v) =>
        var result := ResultText(host.format, v);
        var ended := started.(trace := started.trace + [CallEnded(call, result)]);
        var sent := SendFunctionMessage(ended, callId, result);
        if sent.1.Fail? then sent
        else
          CallEventsTrace(c.trace, call, callId, result);
          Send(sent.0, StartResponseTurn)
  }

  /** The four requests and announcements of a handled call, appended one at a time. */
  lemma CallEventsTrace(trace: seq<Event>, call: FunctionCall, callId: string, result: string)
    ensures trace + [CallStarted(call)] + [CallEnded(call, result)] + [Requested(AddItem(FunctionCallOutput(callId, result)))]
              + [Requested(StartResponseTurn)]
            == trace + CallEvents(call, callId, result)
  {
  }

  /** True of the item-finished updates the constructor's subscription
      passes on: those naming a function, with a non-empty name. */
  predicate TriggersCall(u: Update) {
    u.ItemFinishedUpdate? && u.functionName.Some? && u.functionName.value != ""
  }

  /** Every update that triggers a call reached the item-finished stream:
      the handler sees a filtered part of `ItemFinishedUpdates`. */
  lemma HandledCallsAreItemFinished(delivered: seq<Update>, u: Update)
    requires u in delivered && TriggersCall(u)
    ensures u in OfType(delivered, ItemFinished)
  {
    assert KindOf(u) == ItemFinished;
    OfTypeMembership(delivered, ItemFinished, u);
  }

  /** `_updates.OnNext(update)`: the update joins the delivered sequence, so
      every typed stream sees it; then the observers run in the order they
      subscribed. First the constructor's item-finished handler, whose
      exceptions `FireAndForget` discards; then, once a session was
      initialized, `UpdateUsage`, whose exceptions propagate to the caller. */
  function Deliver(host: Host, c: Client, u: Update): (r: (Client, Outcome<Exception>))
    ensures r.0.delivered == c.delivered + [u]
    ensures r.1.Fail? ==> u.ResponseFinishedUpdate? && c.usageSubscribed
    ensures Valid(c) ==> Valid(r.0)
  {
    var c' := c.(delivered := c.delivered + [u]);
    if TriggersCall(u) then
      (HandleFunctionCall(host, c', u.functionName.value, u.functionCallId, u.functionCallArguments).0, Pass)
    else if u.ResponseFinishedUpdate? && c'.usageSubscribed then
      UpdateUsage(c', u.rawContent)
    else (c', Pass)
  }

  /** Which handler an update reaches: a call-naming finished item runs the
      function-call handler with its exceptions discarded, a finished response
      runs `UpdateUsage` once tracking has started, and anything else only
      joins the delivered updates. */
  lemma DeliverRoutes(host: Host, c: Client, u: Update)
    ensures var r := Deliver(host, c, u);
            var c' := c.(delivered := c.delivered + [u]);
            && (!TriggersCall(u) && !(u.ResponseFinishedUpdate? && c.usageSubscribed) ==> r == (c', Pass))
            && (TriggersCall(u) ==>
                  r == (HandleFunctionCall(host, c', u.functionName.value, u.functionCallId, u.functionCallArguments).0, Pass))
            && (u.ResponseFinishedUpdate? && c.usageSubscribed ==> r == UpdateUsage(c', u.rawContent))
  {
  }

  /** The update pump: while it runs, each update the session yields is
      delivered in turn; an exception out of a delivery ends it. */
  function Pump(host: Host, c: Client, updates: seq<Update>): (r: Client)
    ensures |c.delivered| <= |r.delivered| <= |c.delivered| + |updates|
    ensures r.delivered == c.delivered + updates[..|r.delivered| - |c.delivered|]
    ensures !c.pumping ==> r == c
    ensures Valid(c) ==> Valid(r)
    decreases |updates|
  {
    if !c.pumping || |updates| == 0 then
      assert c.delivered + updates[..0] == c.delivered;
      c
    else
      var d := Deliver(host, c, updates[0]);
      if d.1.Fail? then
        assert c.delivered + updates[..1] == d.0.delivered;
        d.0.(pumping := false)
      else
        var r := Pump(host, d.0, updates[1..]);
        DeliveredPrefixStep(c.delivered, updates, |r.delivered| - |d.0.delivered|);
        r
  }

  /** Delivering an update leaves the pump and usage tracking as they were. */
  lemma DeliverKeepsFlags(host: Host, c: Client, u: Update)
    ensures Deliver(host, c, u).0.pumping == c.pumping
    ensures Deliver(host, c, u).0.usageSubscribed == c.usageSubscribed
  {
    DeliverRoutes(host, c, u);
  }

  /** No update of the run is a finished response. */
  predicate NoFinishedResponse(updates: seq<Update>) {
    forall i :: 0 <= i < |updates| ==> !updates[i].ResponseFinishedUpdate?
  }

  lemma NoFinishedResponseTail(updates: seq<Update>)
    requires |updates| > 0 && NoFinishedResponse(updates)
    ensures !updates[0].ResponseFinishedUpdate? && NoFinishedResponse(updates[1..])
  {
    assert forall i :: 0 <= i < |updates[1..]| ==> updates[1..][i] == updates[i + 1];
  }

  /** One turn of the running pump: deliver the first update, then stop on
      an exception or go on with the rest. */
  lemma PumpStep(host: Host, c: Client, updates: seq<Update>)
    requires c.pumping && |updates| > 0
    ensures var d := Deliver(host, c, updates[0]);
            && (d.1.Fail? ==> Pump(host, c, updates) == d.0.(pumping := false))
            && (d.1.Pass? ==> Pump(host, c, updates) == Pump(host, d.0, updates[1..]))
  {
  }

  /** The first update followed by the rest is the whole run. */
  lemma ConsRest(delivered: seq<Update>, updates: seq<Update>)
    requires |updates| > 0
    ensures delivered + [updates[0]] + updates[1..] == delivered + updates
  {
    assert updates == [updates[0]] + updates[1..];
  }

  /** While usage is not tracked, or no finished response arrives, the
      running pump delivers every update and keeps running. */
  lemma {:induction false} PumpDeliversAll(host: Host, c: Client, updates: seq<Update>)
    ensures c.pumping && (!c.usageSubscribed || NoFinishedResponse(updates)) ==>
              Pump(host, c, updates).delivered == c.delivered + updates && Pump(host, c, updates).pumping
    decreases |updates|
  {
    if c.pumping && (!c.usageSubscribed || NoFinishedResponse(updates)) {
      if |updates| == 0 {
        assert updates == [];
      } else {
        var d := Deliver(host, c, updates[0]);
        DeliverKeepsFlags(host, c, updates[0]);
        PumpStep(host, c, updates);
        if c.usageSubscribed {
          NoFinishedResponseTail(updates);
        }
        PumpDeliversAll(host, d.0, updates[1..]);
        ConsRest(c.delivered, updates);
      }
    }
  }

  /** The running pump stops early only after a failing finished response:
      when it delivers fewer updates than it was given, it has stopped and
      the last update it delivered was a finished response. */
  lemma {:induction false} PumpStopsOnFinishedResponse(host: Host, c: Client, updates: seq<Update>)
    ensures var r := Pump(host, c, updates);
            c.pumping && |r.delivered| < |c.delivered| + |updates| ==>
              !r.pumping && |r.delivered| > |c.delivered| && r.delivered[|r.delivered| - 1].ResponseFinishedUpdate?
    decreases |updates|
  {
    if c.pumping && |updates| > 0 {
      var d := Deliver(host, c, updates[0]);
      DeliverKeepsFlags(host, c, updates[0]);
      PumpStep(host, c, updates);
      if d.1.Pass? {
        PumpStopsOnFinishedResponse(host, d.0, updates[1..]);
      }
    }
  }

  /** Delivering the first update and then a prefix of the rest delivers a prefix of all. */
  lemma DeliveredPrefixStep(delivered: seq<Update>, updates: seq<Update>, n: nat)
    requires n < |updates|
    ensures delivered + [updates[0]] + updates[1..][..n] == delivered + updates[..n + 1]
  {
    assert updates[..n + 1] == [updates[0]] + updates[1..][..n];
  }

  // ---- Properties ----

  /** Before initialization every session operation fails, and after a
      successful one a second initialization fails without changing anything. */
  lemma SessionStateMachine(c: Client, request: Request, options: Option<SessionOptions>, defs: Option<seq<FunctionDefinition>>,
                            options': Option<SessionOptions>, defs': Option<seq<FunctionDefinition>>)
    ensures Send(NewClient(), request) == (NewClient(), Fail(InvalidOperation("Session not initialized")))
    ensures var (c', out) := InitializeSession(c, options, defs);
            !c.session ==> InitializeSession(c', options', defs') == (c', Fail(InvalidOperation("Session already initialized")))
    ensures var (c', out) := InitializeSession(c, options, defs);
            !c.session ==> Send(c', request) == (c'.(trace := c'.trace + [Requested(request)]), Pass)
  {
  }

  /** Every operation keeps the client valid, starting from a new one. */
  lemma OperationsPreserveValid(host: Host, c: Client, options: Option<SessionOptions>, defs: Option<seq<FunctionDefinition>>,
                                request: Request, prices: Prices, u: Update, updates: seq<Update>)
    requires Valid(c)
    ensures Valid(NewClient())
    ensures Valid(InitializeSession(c, options, defs).0)
    ensures Valid(Send(c, request).0)
    ensures Valid(SetupCost(c, prices.textInput, prices.textOutput, prices.audioInput, prices.audioOutput))
    ensures Valid(Deliver(host, c, u).0)
    ensures Valid(Pump(host, c, updates))
  {
    InitializePreservesValid(c, options, defs);
    SendPreservesValid(c, request);
    SetupCostPreservesValid(c, prices);
    DeliverPreservesValid(host, c, u);
    PumpPreservesValid(host, c, updates);
  }

  lemma SendPreservesValid(c: Client, request: Request)
    requires Valid(c)
    ensures Valid(Send(c, request).0)
  {
  }

  lemma SetupCostPreservesValid(c: Client, prices: Prices)
    requires Valid(c)
    ensures Valid(SetupCost(c, prices.textInput, prices.textOutput, prices.audioInput, prices.audioOutput))
  {
  }

  lemma DeliverPreservesValid(host: Host, c: Client, u: Update)
    requires Valid(c)
    ensures Valid(Deliver(host, c, u).0)
  {
  }

  lemma PumpPreservesValid(host: Host, c: Client, updates: seq<Update>)
    requires Valid(c)
    ensures Valid(Pump(host, c, updates))
  {
  }

  lemma InitializePreservesValid(c: Client, options: Option<SessionOptions>, defs: Option<seq<FunctionDefinition>>)
    requires Valid(c)
    ensures Valid(InitializeSession(c, options, defs).0)
  {
  }

  /** `Usages.Value != usage` compares a freshly created object with the one
      in the cell, so every snapshot that parses is published, with the cost
      recomputed from it alone, even one equal to the current value. */
  lemma EverySnapshotPublished(c: Client, raw: Payload, u: Usage)
    requires Valid(c) && ParseFromBinaryData(raw) == Success(Some(u))
    ensures var (c', out) := UpdateUsage(c, raw);
            && out == Pass
            && c'.usageCell.usage == u
            && c'.totalCost == CalculateTotalCost(c.prices, u)
            && c'.trace == c.trace + [UsagePublished(u), CostPublished(CalculateTotalCost(c.prices, u))]
  {
  }

  /** The same response delivered twice publishes twice: an equal snapshot
      is still a different object. */
  lemma IdenticalSnapshotRepublished(c: Client, raw: Payload, u: Usage)
    requires Valid(c) && ParseFromBinaryData(raw) == Success(Some(u))
    ensures var c1 := UpdateUsage(c, raw).0;
            var c2 := UpdateUsage(c1, raw).0;
            var cost := CalculateTotalCost(c.prices, u);
            c2.trace == c.trace + [UsagePublished(u), CostPublished(cost), UsagePublished(u), CostPublished(cost)]
  {
    EverySnapshotPublished(c, raw, u);
    var c1 := UpdateUsage(c, raw).0;
    EverySnapshotPublished(c1, raw, u);
  }

  /** A `null` usage, and a failed extraction, publish nothing. */
  lemma NoSnapshotNoPublication(c: Client, raw: Payload)
    requires ParseFromBinaryData(raw).Failure? || ParseFromBinaryData(raw) == Success(None)
    ensures UpdateUsage(c, raw).0 == c
  {
  }

  /** A call naming an unregistered function only joins the delivered
      updates: no event, no output, no turn. */
  lemma UnknownFunctionDropped(host: Host, c: Client, u: Update)
    requires TriggersCall(u) && u.functionName.value !in c.registry
    ensures Deliver(host, c, u) == (c.(delivered := c.delivered + [u]), Pass)
  {
    DeliverRoutes(host, c, u);
  }

  /** A call naming a registered function whose invocation succeeds produces,
      in order: the started event, the ended event with the result text, the
      function output under the update's call id, and a new response turn. */
  lemma KnownFunctionProtocol(host: Host, c: Client, u: Update, v: Value)
    requires c.session && TriggersCall(u) && u.functionName.value in c.registry
    requires var call := FunctionCall(u.functionName, u.functionCallArguments);
             CallFunctionAsync(host.env, call, c.registry[u.functionName.value], ObjectType, false) == Success(v)
    ensures var call := FunctionCall(u.functionName, u.functionCallArguments);
            var r := Deliver(host, c, u);
            && r.1 == Pass
            && r.0.trace == c.trace + CallEvents(call, u.functionCallId, ResultText(host.format, v))
            && r.0.registry == c.registry && r.0.usageCell == c.usageCell && r.0.totalCost == c.totalCost
  {
    DeliverRoutes(host, c, u);
  }

  /** An invocation that throws leaves only the started event; the exception
      goes no further, and the pump carries on. */
  lemma FailedCallOnlyStarted(host: Host, c: Client, u: Update, e: Exception)
    requires TriggersCall(u) && u.functionName.value in c.registry
    requires var call := FunctionCall(u.functionName, u.functionCallArguments);
             CallFunctionAsync(host.env, call, c.registry[u.functionName.value], ObjectType, false) == Failure(e)
    ensures var r := Deliver(host, c, u);
            && r.1 == Pass
            && r.0.trace == c.trace + [CallStarted(FunctionCall(u.functionName, u.functionCallArguments))]
  {
    DeliverRoutes(host, c, u);
  }

  /** Only item-finished updates naming a function with a non-empty name, and
      finished responses once usage is tracked, do anything beyond joining
      the delivered updates. */
  lemma OtherUpdatesOnlyDelivered(host: Host, c: Client, u: Update)
    requires !TriggersCall(u) && !u.ResponseFinishedUpdate?
    ensures Deliver(host, c, u) == (c.(delivered := c.delivered + [u]), Pass)
  {
    DeliverRoutes(host, c, u);
  }

  /** What the pump delivers reaches each typed stream in order: the stream
      grows by exactly the kind-`k` updates of a prefix of what was pumped. */
  lemma PumpFeedsStreams(host: Host, c: Client, updates: seq<Update>, k: Stream)
    ensures exists n :: 0 <= n <= |updates|
              && OfType(Pump(host, c, updates).delivered, k) == OfType(c.delivered, k) + OfType(updates[..n], k)
    ensures c.pumping && (!c.usageSubscribed || NoFinishedResponse(updates)) ==>
              OfType(Pump(host, c, updates).delivered, k) == OfType(c.delivered, k) + OfType(updates, k)
  {
    var n := |Pump(host, c, updates).delivered| - |c.delivered|;
    OfTypeAppend(c.delivered, updates[..n], k);
    PumpDeliversAll(host, c, updates);
    assert updates[..|updates|] == updates;
  }

  /** Registering definitions makes each name find the last definition bearing
      it, and a successful initialization advertises one tool per definition. */
  lemma InitializeRegisters(c: Client, options: Option<SessionOptions>, defs: seq<FunctionDefinition>, name: string)
    requires !c.session && forall i :: 0 <= i < |defs| ==> defs[i].name.Some?
    ensures var (c', out) := InitializeSession(c, options, Some(defs));
            && out == Pass
            && Find(c'.registry, name) == LastNamed(defs, |defs|, name)
            && |ConfiguredOptions(options, Some(defs)).tools| == |defs|
  {
  }
}

=== FILE: schema.dfy ===
/** Registration: `GetFunctionDefinition(s)` and `CreateFunctionProperty`.
    A method's parameter list becomes a property map and an ordered list of
    required names; each parameter type maps to a JSON schema type, and any
    type without a mapping is rejected when the definition is built. */
module Schema {
  import opened Wrappers
  import opened Exceptions
  import opened Text
  import opened ClrTypes
  import opened Definitions

  /** The types `CreateFunctionProperty` accepts. */
  predicate IsSupportedParameterType(t: ClrType) {
    IsIntegerType(t) || IsNumberType(t) || t.Boolean? || IsStringType(t) || t.EnumOf?
  }

  /** The allowed values of an enum parameter: the attribute's override split
      on ',' and trimmed when the override is non-empty, else every member name. */
  function EnumValues(e: EnumType, enumOverride: Option<string>): (values: seq<string>)
    ensures IsNullOrEmpty(enumOverride) ==> values == e.members
    ensures !IsNullOrEmpty(enumOverride) ==>
              && |values| == |Split(enumOverride.value, ',')|
              && forall i :: 0 <= i < |values| ==> values[i] == Trim(Split(enumOverride.value, ',')[i])
    ensures !IsNullOrEmpty(enumOverride) ==> forall i :: 0 <= i < |values| ==>
              ',' !in values[i] && (values[i] == [] || (!IsWhiteSpace(values[i][0]) && !IsWhiteSpace(values[i][|values[i]| - 1])))
  {
    if IsNullOrEmpty(enumOverride) then e.members
    else
      var parts := Split(enumOverride.value, ',');
      var values := seq(|parts|, i requires 0 <= i < |parts| => Trim(parts[i]));
      forall i | 0 <= i < |parts|
        ensures ',' !in values[i]
      {
        TrimInside(parts[i], ',');
      }
      values
  }

  /** An override written as comma-free names, each with blank padding around
      text that has none at its ends, joined by ',', yields exactly the
      unpadded names: `"A, B ,C"` gives `A`, `B`, `C`. */
  lemma EnumOverrideRoundTrip(e: EnumType, names: seq<string>, pre: seq<string>, core: seq<string>, post: seq<string>)
    requires |names| >= 1 && names != [""]
    requires |pre| == |names| && |core| == |names| && |post| == |names|
    requires forall k :: 0 <= k < |names| ==> names[k] == pre[k] + core[k] + post[k]
    requires forall k :: 0 <= k < |names| ==> IsBlank(pre[k]) && IsBlank(post[k]) && ',' !in core[k]
    requires forall k :: 0 <= k < |names| ==> core[k] == [] || (!IsWhiteSpace(core[k][0]) && !IsWhiteSpace(core[k][|core[k]| - 1]))
    ensures EnumValues(e, Some(Join(",", names))) == core
  {
    var text := Join(",", names);
    JoinedNamesNonEmpty(names);
    PaddedNamesSplit(names, pre, core, post);
    PaddedNamesTrim(names, pre, core, post);
    EnumValuesOfPieces(e, text, names, core);
  }

  /** The padded names come back from splitting their join. */
  lemma PaddedNamesSplit(names: seq<string>, pre: seq<string>, core: seq<string>, post: seq<string>)
    requires |names| >= 1
    requires |pre| == |names| && |core| == |names| && |post| == |names|
    requires forall k :: 0 <= k < |names| ==> names[k] == pre[k] + core[k] + post[k]
    requires forall k :: 0 <= k < |names| ==> IsBlank(pre[k]) && IsBlank(post[k]) && ',' !in core[k]
    ensures Split(Join(",", names), ',') == names
  {
    forall k | 0 <= k < |names|
      ensures ',' !in names[k]
    {
      PaddedHasNoComma(pre[k], core[k], post[k]);
    }
    SplitJoin(names, ',');
    assert Join([','], names) == Join(",", names);
  }

  /** Each padded name trims to its unpadded text. */
  lemma PaddedNamesTrim(names: seq<string>, pre: seq<string>, core: seq<string>, post: seq<string>)
    requires |pre| == |names| && |core| == |names| && |post| == |names|
    requires forall k :: 0 <= k < |names| ==> names[k] == pre[k] + core[k] + post[k]
    requires forall k :: 0 <= k < |names| ==> IsBlank(pre[k]) && IsBlank(post[k])
    requires forall k :: 0 <= k < |names| ==> core[k] == [] || (!IsWhiteSpace(core[k][0]) && !IsWhiteSpace(core[k][|core[k]| - 1]))
    ensures forall k :: 0 <= k < |names| ==> Trim(names[k]) == core[k]
  {
    forall k | 0 <= k < |names|
      ensures Trim(names[k]) == core[k]
    {
      TrimPadded(pre[k], core[k], post[k]);
    }
  }

  /** A non-empty override whose pieces trim to `core` advertises `core`. */
  lemma EnumValuesOfPieces(e: EnumType, text: string, pieces: seq<string>, core: seq<string>)
    requires text != "" && Split(text, ',') == pieces
    requires |core| == |pieces| && forall k :: 0 <= k < |pieces| ==> Trim(pieces[k]) == core[k]
    ensures EnumValues(e, Some(text)) == core
  {
    var values := EnumValues(e, Some(text));
    assert |values| == |core|;
    assert forall k :: 0 <= k < |values| ==> values[k] == core[k];
  }

  /** Blank padding adds no comma. */
  lemma PaddedHasNoComma(pre: string, core: string, post: string)
    requires IsBlank(pre) && IsBlank(post) && ',' !in core
    ensures ',' !in pre + core + post
  {
    assert forall k :: 0 <= k < |pre| ==> pre[k] != ',';
    assert forall k :: 0 <= k < |post| ==> post[k] != ',';
  }

  /** Joining at least one name, not just one empty name, gives non-empty text. */
  lemma JoinedNamesNonEmpty(names: seq<string>)
    requires |names| >= 1 && names != [""]
    ensures Join(",", names) != ""
  {
    if |names| == 1 {
      assert names == [names[0]];
    } else {
      assert Join(",", names) == names[0] + "," + Join(",", names[1..]);
    }
  }

  /** `CreateFunctionProperty`: the schema of one parameter. Integer types give
      "integer", floating types "number", `bool` "boolean", string-like types
      "string", an enum "string" with its allowed values; the description is the
      attribute's; any other type throws. */
  function CreateFunctionProperty(p: ParameterInfo): (r: Result<FunctionProperty, Exception>)
    ensures r.Success? <==> IsSupportedParameterType(p.parameterType)
    ensures r.Failure? ==> r.error == UnsupportedTypeError(p.parameterType)
    ensures r.Success? ==> r.value.description == ParameterDescriptionText(p)
    ensures r.Success? ==> (r.value.enumValues.Some? <==> p.parameterType.EnumOf?)
    ensures r.Success? ==> JsonTypeName(p.parameterType) == Some(r.value.propertyType)
  {
    var t := p.parameterType;
    match JsonTypeName(t)
    case None => Failure(UnsupportedTypeError(t))
    case Some(name) =>
      var values := if t.EnumOf? then Some(EnumValues(t.enumType, EnumOverride(p))) else None;
      Success(FunctionProperty(name, ParameterDescriptionText(p), values))
  }

  /** The exception a parameter of an unsupported type is rejected with. */
  function UnsupportedTypeError(t: ClrType): Exception {
    UnsupportedParameterType("Parameter type '" + FullName(t) + "' not supported")
  }

  /** The JSON schema type of a parameter type, when it has one. */
  function JsonTypeName(t: ClrType): (name: Option<string>)
    ensures name.Some? <==> IsSupportedParameterType(t)
    ensures name.Some? ==> name.value in {"integer", "number", "boolean", "string"}
    ensures name == Some("integer") ==> IsIntegerType(t)
    ensures name == Some("number") ==> IsNumberType(t)
    ensures name == Some("boolean") ==> t.Boolean?
    ensures name == Some("string") ==> IsStringType(t) || t.EnumOf?
  {
    if IsIntegerType(t) then Some("integer")
    else if IsNumberType(t) then Some("number")
    else if t.Boolean? then Some("boolean")
    else if IsStringType(t) || t.EnumOf? then Some("string")
    else None
  }

  /** The keys of the required parameters, in declaration order (the reference
      for what `GetFunctionDefinition` puts in `Required`). */
  function RequiredKeys(ps: seq<ParameterInfo>): (keys: seq<string>)
    ensures |keys| <= |ps|
    ensures forall k :: k in keys <==> exists i :: 0 <= i < |ps| && IsRequired(ps[i]) && ParameterKey(ps[i]) == k
  {
    if |ps| == 0 then []
    else
      var rest := RequiredKeys(ps[1..]);
      assert forall i :: 1 <= i < |ps| ==> ps[i] == ps[1..][i - 1];
      (if IsRequired(ps[0]) then [ParameterKey(ps[0])] else []) + rest
  }

  lemma {:induction false} RequiredKeysSnoc(ps: seq<ParameterInfo>, p: ParameterInfo)
    ensures RequiredKeys(ps + [p]) == RequiredKeys(ps) + (if IsRequired(p) then [ParameterKey(p)] else [])
  {
    if |ps| > 0 {
      assert (ps + [p])[1..] == ps[1..] + [p];
      RequiredKeysSnoc(ps[1..], p);
    }
  }

  /** What registering parameter `i` does: fail on its type, or on a key
      already taken by an earlier parameter (`Dictionary.Add`), else pass. */
  function ParameterStep(ps: seq<ParameterInfo>, i: nat): Outcome<Exception>
    requires i < |ps|
  {
    if !IsSupportedParameterType(ps[i].parameterType) then Fail(UnsupportedTypeError(ps[i].parameterType))
    else if exists j :: 0 <= j < i && ParameterKey(ps[j]) == ParameterKey(ps[i]) then Fail(DuplicateKey(ParameterKey(ps[i])))
    else Pass
  }

  /** The parameter loop of `GetFunctionDefinition`: one property per parameter
      keyed by `ParameterKey`, in order, and the required keys in order; the
      first failing parameter's exception otherwise. */
  function BuildParameters(ps: seq<ParameterInfo>): (r: Result<(PropertyMap, seq<string>), Exception>)
    ensures r.Success? <==> AllStepsPass(ps)
    ensures r.Failure? ==> FirstFailure(ps, r.error)
    ensures r.Success? ==> Built(ps, r.value.0, r.value.1)
  {
    if |ps| == 0 then Success(([], []))
    else
      var front := ps[..|ps| - 1];
      var last := ps[|ps| - 1];
      assert ps == front + [last];
      var prev := BuildParameters(front);
      if prev.Failure? then
        FirstFailureExtends(ps, prev.error);
        Failure(prev.error)
      else
        StepsSnoc(ps);
        ExtendParameters(front, last, prev.value)
  }

  /** Every parameter registers. */
  predicate AllStepsPass(ps: seq<ParameterInfo>) {
    forall i :: 0 <= i < |ps| ==> ParameterStep(ps, i).Pass?
  }

  /** Registration fails with `e` at some parameter, and every earlier one registers. */
  predicate FirstFailure(ps: seq<ParameterInfo>, e: Exception) {
    exists i :: 0 <= i < |ps| && ParameterStep(ps, i) == Fail(e) && forall j :: 0 <= j < i ==> ParameterStep(ps, j).Pass?
  }

  /** A first failure among the earlier parameters is still the first failure. */
  lemma FirstFailureExtends(ps: seq<ParameterInfo>, e: Exception)
    requires |ps| > 0 && FirstFailure(ps[..|ps| - 1], e)
    ensures FirstFailure(ps, e) && !AllStepsPass(ps)
  {
    StepsOfPrefix(ps);
    var front := ps[..|ps| - 1];
    var i :| 0 <= i < |front| && ParameterStep(front, i) == Fail(e) && forall j :: 0 <= j < i ==> ParameterStep(front, j).Pass?;
    assert ParameterStep(ps, i) == Fail(e);
  }

  /** When the earlier parameters all register, the last one decides. */
  lemma StepsSnoc(ps: seq<ParameterInfo>)
    requires |ps| > 0 && AllStepsPass(ps[..|ps| - 1])
    ensures AllStepsPass(ps) <==> ParameterStep(ps, |ps| - 1).Pass?
    ensures ParameterStep(ps, |ps| - 1).Fail? ==> FirstFailure(ps, ParameterStep(ps, |ps| - 1).error)
  {
    StepsOfPrefix(ps);
  }

  /** `props` and `required` are what the loop has built after the parameters `ps`. */
  predicate Built(ps: seq<ParameterInfo>, props: seq<(string, FunctionProperty)>, required: seq<string>) {
    && |props| == |ps|
    && (forall i :: 0 <= i < |ps| ==>
          props[i].0 == ParameterKey(ps[i]) && CreateFunctionProperty(ps[i]) == Success(props[i].1))
    && required == RequiredKeys(ps)
  }

  /** One iteration of the parameter loop, after the parameters `front`. */
  function ExtendParameters(front: seq<ParameterInfo>, p: ParameterInfo, built: (PropertyMap, seq<string>))
    : (r: Result<(PropertyMap, seq<string>), Exception>)
    requires Built(front, built.0, built.1)
    ensures r.Success? <==> ParameterStep(front + [p], |front|).Pass?
    ensures r.Failure? ==> ParameterStep(front + [p], |front|) == Fail(r.error)
    ensures r.Success? ==> Built(front + [p], r.value.0, r.value.1)
  {
    LastStep(front, p);
    var prop := CreateFunctionProperty(p);
    var key := ParameterKey(p);
    if prop.Failure? then Failure(prop.error)
    else if exists j :: 0 <= j < |front| && ParameterKey(front[j]) == key then Failure(DuplicateKey(key))
    else
      assert forall i :: 0 <= i < |built.0| ==> built.0[i].0 == ParameterKey(front[i]);
      AddFreshKey(built.0, key, prop.value);
      BuiltSnoc(front, p, built.0, built.1, prop.value);
      var m: PropertyMap := built.0 + [(key, prop.value)];
      Success((m, built.1 + (if IsRequired(p) then [key] else [])))
  }

  /** The step of a parameter appended after `front`. */
  lemma LastStep(front: seq<ParameterInfo>, p: ParameterInfo)
    ensures ParameterStep(front + [p], |front|)
            == if !IsSupportedParameterType(p.parameterType) then Fail(UnsupportedTypeError(p.parameterType))
               else if exists j :: 0 <= j < |front| && ParameterKey(front[j]) == ParameterKey(p) then Fail(DuplicateKey(ParameterKey(p)))
               else Pass
  {
    var ps := front + [p];
    assert ps[|front|] == p;
    assert forall j :: 0 <= j < |front| ==> ps[j] == front[j];
  }

  /** Adding the property of a parameter whose key is new extends what was built. */
  lemma BuiltSnoc(front: seq<ParameterInfo>, p: ParameterInfo, props: seq<(string, FunctionProperty)>, required: seq<string>, prop: FunctionProperty)
    requires Built(front, props, required) && CreateFunctionProperty(p) == Success(prop)
    ensures Built(front + [p], props + [(ParameterKey(p), prop)], required + (if IsRequired(p) then [ParameterKey(p)] else []))
  {
    var ps := front + [p];
    var m := props + [(ParameterKey(p), prop)];
    assert forall i :: 0 <= i < |front| ==> ps[i] == front[i] && m[i] == props[i];
    RequiredKeysSnoc(front, p);
  }

  /** Registering a parameter does not depend on the parameters after it. */
  lemma StepsOfPrefix(ps: seq<ParameterInfo>)
    requires |ps| > 0
    ensures forall i :: 0 <= i < |ps| - 1 ==> ParameterStep(ps[..|ps| - 1], i) == ParameterStep(ps, i)
  {
    var front := ps[..|ps| - 1];
    forall i | 0 <= i < |front|
      ensures ParameterStep(front, i) == ParameterStep(ps, i)
    {
      assert forall j :: 0 <= j <= i ==> front[j] == ps[j];
    }
  }

  /** `GetFunctionDefinition`: the method's definition, named by its attribute
      or else by the method itself, owned by `obj` when one is given. */
  function GetFunctionDefinition(m: MethodInfo, declaring: TypeInfo, obj: Option<ObjectRef>): (r: Result<FunctionDefinition, Exception>)
    ensures r.Success? <==> BuildParameters(m.parameters).Success?
    ensures r.Failure? ==> r.error == BuildParameters(m.parameters).error
    ensures r.Success? ==> r.value.name.Some?
    ensures r.Success? ==> r.value.description == if m.attribute.Some? then m.attribute.value.description else None
    ensures r.Success? ==> r.value.name.value == (if m.attribute.Some? && m.attribute.value.name.Some? then m.attribute.value.name.value else m.name)
    ensures r.Success? ==> r.value.owner == obj && r.value.ownerType == Some(declaring)
    ensures r.Success? ==>
              && r.value.parameters.Some?
              && r.value.parameters.value.properties == Some(BuildParameters(m.parameters).value.0)
              && r.value.parameters.value.required == Some(RequiredKeys(m.parameters))
  {
    var name := if m.attribute.Some? && m.attribute.value.name.Some? then m.attribute.value.name.value else m.name;
    var description := if m.attribute.Some? then m.attribute.value.description else None;
    var built :- BuildParameters(m.parameters);
    Success(FunctionDefinition(
      Some(name), description,
      Some(FunctionParameters(Some(built.0), Some(built.1))),
      Some(declaring), obj))
  }

  /** The required list names exactly the required parameters' property keys. */
  lemma RequiredArePropertyKeys(m: MethodInfo, declaring: TypeInfo, obj: Option<ObjectRef>, k: string)
    requires GetFunctionDefinition(m, declaring, obj).Success?
    ensures var fp := GetFunctionDefinition(m, declaring, obj).value.parameters.value;
            k in fp.required.value <==> exists i :: 0 <= i < |m.parameters| && fp.properties.value[i].0 == k && IsRequired(m.parameters[i])
  {
  }

  /** The methods `GetFunctionDefinitions` registers, in reflection order:
      those marked `[FunctionDescription]`, static ones always, instance ones
      only when an instance is supplied. */
  function ToolMethods(ms: seq<MethodInfo>, withInstance: bool): (r: seq<MethodInfo>)
    ensures |r| <= |ms|
    ensures forall x :: x in r <==> x in ms && x.attribute.Some? && (x.isStatic || withInstance)
  {
    if |ms| == 0 then []
    else
      var rest := ToolMethods(ms[1..], withInstance);
      assert forall x :: x in ms <==> x == ms[0] || x in ms[1..];
      if ms[0].attribute.Some? && (ms[0].isStatic || withInstance) then [ms[0]] + rest else rest
  }

  /** Filtering keeps reflection order: the tool methods of two runs of
      methods are those of the first run followed by those of the second.
      With the membership clauses of `ToolMethods` for a single method, this
      fixes the list. */
  lemma {:induction false} ToolMethodsAppend(a: seq<MethodInfo>, b: seq<MethodInfo>, withInstance: bool)
    ensures ToolMethods(a + b, withInstance) == ToolMethods(a, withInstance) + ToolMethods(b, withInstance)
  {
    if |a| == 0 {
      assert a + b == b;
    } else {
      var x := a[0];
      var tail := a[1..];
      var keep := if x.attribute.Some? && (x.isStatic || withInstance) then [x] else [];
      calc {
        ToolMethods(a + b, withInstance);
        { assert a + b == [x] + (tail + b); }
        ToolMethods([x] + (tail + b), withInstance);
        { ToolMethodsCons(x, tail + b, withInstance); }
        keep + ToolMethods(tail + b, withInstance);
        { ToolMethodsAppend(tail, b, withInstance); }
        (keep + ToolMethods(tail, withInstance)) + ToolMethods(b, withInstance);
        { assert a == [x] + tail; ToolMethodsCons(x, tail, withInstance); }
        ToolMethods(a, withInstance) + ToolMethods(b, withInstance);
      }
    }
  }

  /** Every method before position `i` builds its definition. */
  predicate BuildsBefore(ms: seq<MethodInfo>, declaring: TypeInfo, obj: Option<ObjectRef>, i: nat)
    requires i <= |ms|
  {
    forall j :: 0 <= j < i ==> GetFunctionDefinition(ms[j], declaring, obj).Success?
  }

  /** One method in front: it is kept exactly when it is a tool method. */
  lemma ToolMethodsCons(x: MethodInfo, rest: seq<MethodInfo>, withInstance: bool)
    ensures ToolMethods([x] + rest, withInstance)
         == (if x.attribute.Some? && (x.isStatic || withInstance) then [x] else []) + ToolMethods(rest, withInstance)
  {
    assert ([x] + rest)[0] == x && ([x] + rest)[1..] == rest;
  }

  /** Building the definitions fails with `e` at some method, and every earlier one builds. */
  predicate FirstDefinitionFailure(ms: seq<MethodInfo>, declaring: TypeInfo, obj: Option<ObjectRef>, e: Exception) {
    exists i :: 0 <= i < |ms| && GetFunctionDefinition(ms[i], declaring, obj) == Failure(e) && BuildsBefore(ms, declaring, obj, i)
  }

  /** A method that builds, in front of methods that all build up to `i`. */
  lemma BuildsBeforeCons(ms: seq<MethodInfo>, declaring: TypeInfo, obj: Option<ObjectRef>, i: nat)
    requires 0 < |ms| && i < |ms| && GetFunctionDefinition(ms[0], declaring, obj).Success?
    requires BuildsBefore(ms[1..], declaring, obj, i)
    ensures BuildsBefore(ms, declaring, obj, i + 1)
  {
    AllBeforeCons(ms, i, m => GetFunctionDefinition(m, declaring, obj).Success?);
  }

  /** A property of the first element and of the `i` elements after it holds
      of the first `i + 1` elements. */
  lemma AllBeforeCons<T>(ms: seq<T>, i: nat, p: T -> bool)
    requires 0 < |ms| && i < |ms| && p(ms[0])
    requires forall j :: 0 <= j < i ==> p(ms[1..][j])
    ensures forall j :: 0 <= j < i + 1 ==> p(ms[j])
  {
    forall j | 0 < j < i + 1
      ensures p(ms[j])
    {
      assert ms[j] == ms[1..][j - 1];
    }
  }

  /** A first failure after a method that builds is still the first failure. */
  lemma FirstDefinitionFailureCons(ms: seq<MethodInfo>, declaring: TypeInfo, obj: Option<ObjectRef>, e: Exception)
    requires |ms| > 0 && GetFunctionDefinition(ms[0], declaring, obj).Success?
    requires FirstDefinitionFailure(ms[1..], declaring, obj, e)
    ensures FirstDefinitionFailure(ms, declaring, obj, e)
  {
    var i :| 0 <= i < |ms[1..]| && GetFunctionDefinition(ms[1..][i], declaring, obj) == Failure(e) && BuildsBefore(ms[1..], declaring, obj, i);
    assert ms[i + 1] == ms[1..][i];
    BuildsBeforeCons(ms, declaring, obj, i);
  }

  function DefinitionsOf(ms: seq<MethodInfo>, declaring: TypeInfo, obj: Option<ObjectRef>): (r: Result<seq<FunctionDefinition>, Exception>)
    ensures r.Success? <==> forall i :: 0 <= i < |ms| ==> GetFunctionDefinition(ms[i], declaring, obj).Success?
    ensures r.Success? ==> |r.value| == |ms|
    ensures r.Success? ==> forall i :: 0 <= i < |ms| ==> r.value[i] == GetFunctionDefinition(ms[i], declaring, obj).value
    ensures r.Failure? ==> FirstDefinitionFailure(ms, declaring, obj, r.error)
  {
    if |ms| == 0 then Success([])
    else
      var d := GetFunctionDefinition(ms[0], declaring, obj);
      if d.Failure? then
        assert FirstDefinitionFailure(ms, declaring, obj, d.error) by {
          assert GetFunctionDefinition(ms[0], declaring, obj) == Failure(d.error);
          assert BuildsBefore(ms, declaring, obj, 0);
        }
        Failure(d.error)
      else
        var rest := DefinitionsOf(ms[1..], declaring, obj);
        assert forall i :: 1 <= i < |ms| ==> ms[i] == ms[1..][i - 1];
        if rest.Failure? then
          FirstDefinitionFailureCons(ms, declaring, obj, rest.error);
          Failure(rest.error)
        else
          Success([d.value] + rest.value)
  }

  /** `GetFunctionDefinitions(type, obj)`: one definition per tool method.
      Every definition is named, declared by `t`, and carries `obj` as its
      owner, static methods included. */
  function GetFunctionDefinitions(t: TypeInfo, obj: Option<ObjectRef>): (r: Result<seq<FunctionDefinition>, Exception>)
    ensures r.Success? ==> |r.value| == |ToolMethods(t.methods, obj.Some?)|
    ensures r.Success? ==> forall i :: 0 <= i < |r.value| ==>
              r.value[i].name.Some? && r.value[i].owner == obj && r.value[i].ownerType == Some(t)
    ensures r.Success? <==> forall m :: m in ToolMethods(t.methods, obj.Some?) ==> BuildParameters(m.parameters).Success?
    ensures r.Success? ==> forall i :: 0 <= i < |r.value| ==>
              r.value[i] == GetFunctionDefinition(ToolMethods(t.methods, obj.Some?)[i], t, obj).value
    ensures r.Failure? ==> FirstDefinitionFailure(ToolMethods(t.methods, obj.Some?), t, obj, r.error)
  {
    var ms := ToolMethods(t.methods, obj.Some?);
    var r := DefinitionsOf(ms, t, obj);
    AllBuildByMembership(ms, t, obj);
    if r.Success? then
      DefinitionsShape(ms, t, obj, r.value);
      r
    else r
  }

  /** Every method builds exactly when every method's parameters build. */
  lemma AllBuildByMembership(ms: seq<MethodInfo>, declaring: TypeInfo, obj: Option<ObjectRef>)
    ensures (forall i :: 0 <= i < |ms| ==> GetFunctionDefinition(ms[i], declaring, obj).Success?)
        <==> forall m :: m in ms ==> BuildParameters(m.parameters).Success?
  {
    assert forall m :: m in ms ==> exists i :: 0 <= i < |ms| && ms[i] == m;
  }

  /** Built definitions are named and carry the owner and the declaring type. */
  lemma DefinitionsShape(ms: seq<MethodInfo>, declaring: TypeInfo, obj: Option<ObjectRef>, defs: seq<FunctionDefinition>)
    requires |defs| == |ms|
    requires forall i :: 0 <= i < |ms| ==> GetFunctionDefinition(ms[i], declaring, obj).Success?
    requires forall i :: 0 <= i < |ms| ==> defs[i] == GetFunctionDefinition(ms[i], declaring, obj).value
    ensures forall i :: 0 <= i < |defs| ==> defs[i].name.Some? && defs[i].owner == obj && defs[i].ownerType == Some(declaring)
  {
  }

  /** Registering by type alone never registers an instance method. */
  lemma TypeOnlyRegistersStatic(t: TypeInfo, m: MethodInfo)
    requires m in ToolMethods(t.methods, false)
    ensures m.isStatic
  {
  }
}

=== FILE: text.dfy ===
/** The .NET string primitives the core relies on: `char.IsWhiteSpace`,
    `string.IsNullOrWhiteSpace`, `Trim`, `Split(",")`, `string.Join`,
    ordinal case-insensitive comparison, and decimal integer text. */
module Text {
  import opened Wrappers

  /** `char.IsWhiteSpace`: the control characters U+0009..U+000D, U+0085, and
      the Unicode space, line and paragraph separators. */
  predicate IsWhiteSpace(c: char) {
    || c == ' ' || ('\t' <= c <= '\r') || c == '\U{85}' || c == '\U{A0}' || c == '\U{1680}'
    || ('\U{2000}' <= c <= '\U{200A}') || c == '\U{2028}' || c == '\U{2029}'
    || c == '\U{202F}' || c == '\U{205F}' || c == '\U{3000}'
  }

  predicate IsBlank(s: string) {
    forall i :: 0 <= i < |s| ==> IsWhiteSpace(s[i])
  }

  /** `string.IsNullOrWhiteSpace`. */
  predicate IsNullOrWhiteSpace(s: Option<string>) {
    s.None? || IsBlank(s.value)
  }

  /** `string.IsNullOrEmpty`. */
  predicate IsNullOrEmpty(s: Option<string>) {
    s.None? || s.value == ""
  }

  /** `TrimStart()`: the suffix left after dropping leading white space. */
  function TrimStart(s: string): (r: string)
    ensures |r| <= |s| && r == s[|s| - |r|..]
    ensures IsBlank(s[..|s| - |r|])
    ensures r == [] || !IsWhiteSpace(r[0])
  {
    if |s| > 0 && IsWhiteSpace(s[0]) then
      var rest := s[1..];
      var r := TrimStart(rest);
      var k := |s| - |r|;
      assert rest[|rest| - |r|..] == s[k..];
      forall i | 0 <= i < k
        ensures IsWhiteSpace(s[..k][i])
      {
        if i > 0 {
          assert s[..k][i] == rest[..|rest| - |r|][i - 1];
        }
      }
      r
    else s
  }

  /** `TrimEnd()`: the prefix left after dropping trailing white space. */
  function TrimEnd(s: string): (r: string)
    ensures |r| <= |s| && r == s[..|r|]
    ensures IsBlank(s[|r|..])
    ensures r == [] || !IsWhiteSpace(r[|r| - 1])
  {
    if |s| > 0 && IsWhiteSpace(s[|s| - 1]) then
      var r := TrimEnd(s[..|s| - 1]);
      assert s[..|s| - 1][..|r|] == s[..|r|];
      assert s[|r|..] == s[..|s| - 1][|r|..] + [s[|s| - 1]];
      r
    else s
  }

  /** `Trim()`: white space removed from both ends, nothing else changed. */
  function Trim(s: string): (r: string)
    ensures exists i, j :: 0 <= i <= j <= |s| && r == s[i..j] && IsBlank(s[..i]) && IsBlank(s[j..])
    ensures r == [] || (!IsWhiteSpace(r[0]) && !IsWhiteSpace(r[|r| - 1]))
  {
    var t := TrimStart(s);
    var r := TrimEnd(t);
    PrefixOfSuffix(s, t, r);
    TrimmedSlice(s, t, r);
    r
  }

  /** Cutting a blank prefix off `s`, then a blank suffix off what remains,
      leaves a slice of `s` between a blank prefix and a blank suffix. */
  lemma TrimmedSlice(s: string, t: string, r: string)
    requires |t| <= |s| && t == s[|s| - |t|..] && IsBlank(s[..|s| - |t|])
    requires |r| <= |t| && r == t[..|r|] && IsBlank(t[|r|..])
    ensures exists i, j :: 0 <= i <= j <= |s| && r == s[i..j] && IsBlank(s[..i]) && IsBlank(s[j..])
  {
    var i := |s| - |t|;
    var j := i + |r|;
    assert r == s[i..j];
    assert s[j..] == t[|r|..];
  }

  /** Trimming never brings in a character the text lacks. */
  lemma TrimInside(s: string, c: char)
    requires c !in s
    ensures c !in Trim(s)
  {
    var t := TrimStart(s);
    SliceLacks(s, c, |s| - |t|, |s|);
    SliceLacks(t, c, 0, |TrimEnd(t)|);
  }

  /** A slice of text lacking `c` lacks it too. */
  lemma SliceLacks(s: string, c: char, i: nat, j: nat)
    requires c !in s && i <= j <= |s|
    ensures c !in s[i..j]
  {
    assert forall k :: 0 <= k < j - i ==> s[i..j][k] == s[i + k];
  }

  /** Dropping a blank prefix in front of text that starts with no white space. */
  lemma {:induction false} TrimStartBlankPrefix(pre: string, t: string)
    requires IsBlank(pre)
    requires t == [] || !IsWhiteSpace(t[0])
    ensures TrimStart(pre + t) == t
  {
    if |pre| == 0 {
      assert pre + t == t;
    } else {
      assert (pre + t)[0] == pre[0];
      assert (pre + t)[1..] == pre[1..] + t;
      TrimStartBlankPrefix(pre[1..], t);
    }
  }

  /** Dropping a blank suffix after text that ends with no white space. */
  lemma {:induction false} TrimEndBlankSuffix(t: string, post: string)
    requires IsBlank(post)
    requires t == [] || !IsWhiteSpace(t[|t| - 1])
    ensures TrimEnd(t + post) == t
  {
    if |post| == 0 {
      assert t + post == t;
    } else {
      var s := t + post;
      assert s[|s| - 1] == post[|post| - 1];
      assert s[..|s| - 1] == t + post[..|post| - 1];
      TrimEndBlankSuffix(t, post[..|post| - 1]);
    }
  }

  /** Trimming removes exactly the blank padding around text that has no
      white space at either end. */
  lemma TrimPadded(pre: string, core: string, post: string)
    requires IsBlank(pre) && IsBlank(post)
    requires core == [] || (!IsWhiteSpace(core[0]) && !IsWhiteSpace(core[|core| - 1]))
    ensures Trim(pre + core + post) == core
  {
    if core == [] {
      assert pre + core + post == (pre + post) + [];
      TrimStartBlankPrefix(pre + post, []);
    } else {
      assert pre + core + post == pre + (core + post);
      TrimStartBlankPrefix(pre, core + post);
      TrimEndBlankSuffix(core, post);
    }
  }

  /** A prefix `r` of a suffix `t` of `s` occurs in `s` where `t` starts, and starts as `t` does. */
  lemma PrefixOfSuffix(s: string, t: string, r: string)
    requires |t| <= |s| && t == s[|s| - |t|..]
    requires |r| <= |t| && r == t[..|r|]
    ensures OccursAt(s, r, |s| - |t|)
    ensures r == [] || r[0] == t[0]
  {
    var i := |s| - |t|;
    assert s[i..i + |r|] == r;
  }

  /** A string with no white space at either end is its own trim, so `Trim` is idempotent. */
  lemma TrimFixesTrimmed(s: string)
    requires s == [] || (!IsWhiteSpace(s[0]) && !IsWhiteSpace(s[|s| - 1]))
    ensures Trim(s) == s
  {
  }

  lemma TrimIdempotent(s: string)
    ensures Trim(Trim(s)) == Trim(s)
  {
    TrimFixesTrimmed(Trim(s));
  }

  /** The position of the first `c` in `s`. */
  function IndexOf(s: string, c: char): (k: nat)
    requires c in s
    ensures k < |s| && s[k] == c && c !in s[..k]
  {
    if s[0] == c then 0 else 1 + IndexOf(s[1..], c)
  }

  /** `s.Split(sep)` for a one-character separator: the pieces between
      separators, empty pieces included. */
  function Split(s: string, sep: char): (parts: seq<string>)
    ensures |parts| >= 1
    ensures forall i :: 0 <= i < |parts| ==> sep !in parts[i]
    decreases |s|
  {
    if sep in s then
      var k := IndexOf(s, sep);
      [s[..k]] + Split(s[k + 1..], sep)
    else
      [s]
  }

  /** `string.Join(sep, parts)`. */
  function Join(sep: string, parts: seq<string>): string {
    if |parts| == 0 then ""
    else if |parts| == 1 then parts[0]
    else parts[0] + sep + Join(sep, parts[1..])
  }

  /** Splitting and re-joining with the same separator gives back the input. */
  lemma {:induction false} JoinSplit(s: string, sep: char)
    ensures Join([sep], Split(s, sep)) == s
    decreases |s|
  {
    if sep in s {
      var k := IndexOf(s, sep);
      var rest := s[k + 1..];
      JoinSplit(rest, sep);
      assert Split(s, sep) == [s[..k]] + Split(rest, sep);
      assert s == s[..k] + [sep] + rest;
    }
  }

  /** The first separator after a separator-free piece is right after it. */
  lemma {:induction false} IndexOfAfter(a: string, c: char, b: string)
    requires c !in a
    ensures c in a + [c] + b && IndexOf(a + [c] + b, c) == |a|
  {
    var s := a + [c] + b;
    assert s[|a|] == c;
    if |a| > 0 {
      assert s[0] == a[0] && s[1..] == a[1..] + [c] + b;
      IndexOfAfter(a[1..], c, b);
    }
  }

  /** Joining pieces free of the separator and splitting again gives back the pieces. */
  lemma {:induction false} SplitJoin(parts: seq<string>, sep: char)
    requires |parts| >= 1
    requires forall i :: 0 <= i < |parts| ==> sep !in parts[i]
    ensures Split(Join([sep], parts), sep) == parts
  {
    if |parts| == 1 {
      assert sep !in parts[0];
    } else {
      var s := Join([sep], parts);
      var p := parts[0];
      var tail := parts[1..];
      var rest := Join([sep], tail);
      assert s == p + [sep] + rest;
      assert sep !in p;
      IndexOfAfter(p, sep, rest);
      assert s[..|p|] == p;
      assert s[|p| + 1..] == rest;
      assert Split(s, sep) == [p] + Split(rest, sep);
      assert forall i :: 0 <= i < |tail| ==> tail[i] == parts[i + 1];
      SplitJoin(tail, sep);
      assert parts == [p] + tail;
    }
  }

  /** `s` occurs in `text` starting at position `i`. */
  predicate OccursAt(text: string, s: string, i: int) {
    0 <= i <= |text| - |s| && text[i..i + |s|] == s
  }

  /** `s` occurs somewhere in `text`. */
  ghost predicate Contains(text: string, s: string) {
    exists i :: OccursAt(text, s, i)
  }

  /** Every piece joined appears in the joined text. */
  lemma {:induction false} JoinContainsParts(sep: string, parts: seq<string>, k: nat)
    requires k < |parts|
    ensures Contains(Join(sep, parts), parts[k])
  {
    var j := Join(sep, parts);
    if |parts| == 1 || k == 0 {
      assert OccursAt(j, parts[0], 0);
    } else {
      JoinContainsParts(sep, parts[1..], k - 1);
      var rest := Join(sep, parts[1..]);
      var i :| OccursAt(rest, parts[k], i);
      var off := |parts[0]| + |sep|;
      assert j == parts[0] + sep + rest;
      assert j[off + i..off + i + |parts[k]|] == rest[i..i + |parts[k]|];
      assert OccursAt(j, parts[k], off + i);
    }
  }

  /** Text containing `s` keeps containing it when extended on either side. */
  lemma ContainsExtended(pre: string, text: string, post: string, s: string)
    requires Contains(text, s)
    ensures Contains(pre + text + post, s)
  {
    var i :| OccursAt(text, s, i);
    var whole := pre + text + post;
    assert whole[|pre| + i..|pre| + i + |s|] == s;
    assert OccursAt(whole, s, |pre| + i);
  }

  /** ASCII upper-casing, the part of ordinal case folding this model covers. */
  function ToUpperAscii(c: char): (u: char)
    ensures 'a' <= c <= 'z' ==> u as int == c as int - 32
    ensures !('a' <= c <= 'z') ==> u == c
  {
    if 'a' <= c <= 'z' then (c as int - 32) as char else c
  }

  /** `string.Equals(a, b, StringComparison.OrdinalIgnoreCase)`, ASCII letters folded. */
  predicate EqualsIgnoreCase(a: string, b: string) {
    |a| == |b| && forall i :: 0 <= i < |a| ==> ToUpperAscii(a[i]) == ToUpperAscii(b[i])
  }

  /** Upper- and lower-case ASCII spellings of a string are equal ignoring case. */
  lemma IgnoreCaseOfUpper(a: string)
    ensures EqualsIgnoreCase(a, seq(|a|, i requires 0 <= i < |a| => ToUpperAscii(a[i])))
  {
    var u := seq(|a|, i requires 0 <= i < |a| => ToUpperAscii(a[i]));
    forall i | 0 <= i < |a|
      ensures ToUpperAscii(a[i]) == ToUpperAscii(u[i])
    {
      assert u[i] == ToUpperAscii(a[i]);
    }
  }

  // ---- Decimal integer text ----

  const Int32Min: int := -0x8000_0000
  const Int32Max: int := 0x7FFF_FFFF

  /** The range of the CLR `int` (`System.Int32`). */
  predicate IsInt32(i: int) {
    Int32Min <= i <= Int32Max
  }

  predicate IsDigit(c: char) {
    '0' <= c <= '9'
  }

  predicate AllDigits(s: string) {
    forall i :: 0 <= i < |s| ==> IsDigit(s[i])
  }

  function DigitChar(d: int): (c: char)
    requires 0 <= d < 10
    ensures IsDigit(c) && c as int - '0' as int == d
  {
    ('0' as int + d) as char
  }

  /** The value of a string of decimal digits. */
  function DigitsValue(s: string): (v: nat)
    requires AllDigits(s)
  {
    if |s| == 0 then 0 else 10 * DigitsValue(s[..|s| - 1]) + (s[|s| - 1] as int - '0' as int)
  }

  /** The shortest decimal text of a natural number. */
  function NatToString(n: nat): (s: string)
    ensures |s| >= 1 && AllDigits(s)
  {
    if n < 10 then [DigitChar(n)] else NatToString(n / 10) + [DigitChar(n % 10)]
  }

  /** `int.ToString()` in the invariant culture. */
  function IntToString(i: int): (s: string)
    ensures |s| >= 1
  {
    if i < 0 then "-" + NatToString(-i) else NatToString(i)
  }

  /** The digits of `NatToString(n)` denote `n`. */
  lemma {:induction false} NatToStringValue(n: nat)
    ensures DigitsValue(NatToString(n)) == n
  {
    if n >= 10 {
      NatToStringValue(n / 10);
      var s := NatToString(n);
      assert s[..|s| - 1] == NatToString(n / 10);
    }
  }

  /** The three results of parsing an integer as `Enum.TryParse` does before it
      falls back to member names. */
  datatype NumberParse = Parsed(value: int) | Overflow | Malformed

  /** True of the characters with which `Enum.TryParse` attempts a numeric parse. */
  predicate StartsNumber(c: char) {
    IsDigit(c) || c == '-' || c == '+'
  }

  /** An optionally signed run of decimal digits, read as a 32-bit integer. */
  function ParseInt32(s: string): (r: NumberParse)
    ensures r.Parsed? ==> IsInt32(r.value)
    ensures |s| == 0 ==> r.Malformed?
  {
    if |s| == 0 then Malformed
    else
      var negative := s[0] == '-';
      var digits := if s[0] == '-' || s[0] == '+' then s[1..] else s;
      if |digits| == 0 || !AllDigits(digits) then Malformed
      else
        var d: int := DigitsValue(digits);
        var v := if negative then -d else d;
        if IsInt32(v) then Parsed(v) else Overflow
  }

  /** Parsing the text of a 32-bit integer gives back the integer. */
  lemma IntToStringParses(i: int)
    requires IsInt32(i)
    ensures ParseInt32(IntToString(i)) == Parsed(i)
  {
    var s := IntToString(i);
    if i < 0 {
      var n: nat := -i;
      NatToStringValue(n);
      assert s == "-" + NatToString(n);
      assert s[0] == '-' && s[1..] == NatToString(n);
      assert DigitsValue(s[1..]) == n;
    } else {
      NatToStringValue(i);
      assert s == NatToString(i);
      assert IsDigit(s[0]);
      assert DigitsValue(s) == i;
    }
  }
}

=== FILE: tool_export.dfy ===
/** `ToConversationTool` and `GetArgumentForJson`: a definition exported as a
    tool whose parameter schema is
    `{type: "object", properties, required, additionalProperties: false}`.
    Serialising that object to text is not part of the model; the schema is
    kept as a JSON tree. */
module ToolExport {
  import opened Wrappers
  import opened Json
  import opened Definitions

  /** The SDK's function tool: a name, a description and the parameter schema. */
  datatype ConversationTool = ConversationTool(name: Option<string>, description: Option<string>, parameters: Json)

  function StringsJson(xs: seq<string>): (j: Json)
    ensures j.JArray? && |j.items| == |xs|
  {
    JArray(seq(|xs|, i requires 0 <= i < |xs| => JString(xs[i])))
  }

  /** `GetArgumentForJson`: a dictionary with "Type" always, "Description" and
      "Enum" only when they are non-null. The keys are dictionary keys, so they
      keep their capitalisation. */
  function PropertyJson(p: FunctionProperty): (j: Json)
    ensures j.JObject?
    ensures Lookup(j.members, "Type") == Some(JString(p.propertyType))
    ensures Lookup(j.members, "Description").Some? <==> p.description.Some?
    ensures Lookup(j.members, "Enum").Some? <==> p.enumValues.Some?
    ensures forall i :: 0 <= i < |j.members| ==> j.members[i].0 in {"Type", "Description", "Enum"}
  {
    PropertyTypeLookup(p);
    PropertyDescriptionLookup(p);
    PropertyEnumLookup(p);
    JObject(PropertyMembers(p))
  }

  function TypeMember(p: FunctionProperty): seq<(string, Json)> {
    [("Type", JString(p.propertyType))]
  }

  function DescriptionMember(p: FunctionProperty): seq<(string, Json)> {
    if p.description.Some? then [("Description", JString(p.description.value))] else []
  }

  function EnumMember(p: FunctionProperty): seq<(string, Json)> {
    if p.enumValues.Some? then [("Enum", StringsJson(p.enumValues.value))] else []
  }

  /** The members of the property dictionary, in insertion order. */
  function PropertyMembers(p: FunctionProperty): seq<(string, Json)> {
    TypeMember(p) + DescriptionMember(p) + EnumMember(p)
  }

  lemma PropertyTypeLookup(p: FunctionProperty)
    ensures Lookup(PropertyMembers(p), "Type") == Some(JString(p.propertyType))
    ensures forall i :: 0 <= i < |PropertyMembers(p)| ==> PropertyMembers(p)[i].0 in {"Type", "Description", "Enum"}
  {
    var rest := DescriptionMember(p) + EnumMember(p);
    OptionalMemberKeys(p);
    assert PropertyMembers(p) == [] + [("Type", JString(p.propertyType))] + rest;
    LookupLastWins([], "Type", JString(p.propertyType), rest);
  }

  /** The optional members carry the keys "Description" and "Enum", never "Type". */
  lemma OptionalMemberKeys(p: FunctionProperty)
    ensures forall j :: 0 <= j < |DescriptionMember(p) + EnumMember(p)| ==>
      (DescriptionMember(p) + EnumMember(p))[j].0 in {"Description", "Enum"}
    ensures forall j :: 0 <= j < |DescriptionMember(p) + EnumMember(p)| ==>
      (DescriptionMember(p) + EnumMember(p))[j].0 != "Type"
  {
    var d := DescriptionMember(p);
    var e := EnumMember(p);
    assert "Description" != "Type" && "Enum" != "Type";
    assert forall j :: 0 <= j < |d| ==> d[j].0 == "Description";
    assert forall j :: 0 <= j < |e| ==> e[j].0 == "Enum";
  }

  lemma PropertyDescriptionLookup(p: FunctionProperty)
    ensures Lookup(PropertyMembers(p), "Description")
            == if p.description.Some? then Some(JString(p.description.value)) else None
  {
    var ms := PropertyMembers(p);
    if p.description.Some? {
      assert ms == TypeMember(p) + [("Description", JString(p.description.value))] + EnumMember(p);
      LookupLastWins(TypeMember(p), "Description", JString(p.description.value), EnumMember(p));
    } else {
      assert forall i :: 0 <= i < |ms| ==> ms[i].0 != "Description";
    }
  }

  lemma PropertyEnumLookup(p: FunctionProperty)
    ensures Lookup(PropertyMembers(p), "Enum")
            == if p.enumValues.Some? then Some(StringsJson(p.enumValues.value)) else None
  {
    var ms := PropertyMembers(p);
    if p.enumValues.Some? {
      assert ms == (TypeMember(p) + DescriptionMember(p)) + [("Enum", StringsJson(p.enumValues.value))] + [];
      LookupLastWins(TypeMember(p) + DescriptionMember(p), "Enum", StringsJson(p.enumValues.value), []);
    } else {
      assert forall i :: 0 <= i < |ms| ==> ms[i].0 != "Enum";
    }
  }

  function PropertiesJson(m: PropertyMap): (j: Json)
    ensures j.JObject? && |j.members| == |m|
  {
    JObject(seq(|m|, i requires 0 <= i < |m| => (m[i].0, PropertyJson(m[i].1))))
  }

  /** The properties a definition exports: `Parameters?.Properties ?? []`. */
  function ExportedProperties(d: FunctionDefinition): PropertyMap {
    if d.parameters.Some? && d.parameters.value.properties.Some? then d.parameters.value.properties.value else []
  }

  /** The required names a definition exports: `Parameters?.Required ?? []`. */
  function ExportedRequired(d: FunctionDefinition): seq<string> {
    if d.parameters.Some? && d.parameters.value.required.Some? then d.parameters.value.required.value else []
  }

  /** `ToConversationTool`: name and description carried over, and the schema
      object with "type" "object" and "additionalProperties" false. */
  function ToConversationTool(d: FunctionDefinition): (tool: ConversationTool)
    ensures tool.name == d.name && tool.description == d.description
    ensures tool.parameters.JObject?
    ensures Lookup(tool.parameters.members, "type") == Some(JString("object"))
    ensures Lookup(tool.parameters.members, "additionalProperties") == Some(JBool(false))
  {
    var ms := SchemaMembers(PropertiesJson(ExportedProperties(d)), StringsJson(ExportedRequired(d)));
    SchemaLookups(PropertiesJson(ExportedProperties(d)), StringsJson(ExportedRequired(d)));
    ConversationTool(d.name, d.description, JObject(ms))
  }

  /** The members of the exported parameter schema, in the order written. */
  function SchemaMembers(properties: Json, required: Json): seq<(string, Json)> {
    [("type", JString("object")),
     ("properties", properties),
     ("required", required),
     ("additionalProperties", JBool(false))]
  }

  lemma SchemaLookups(properties: Json, required: Json)
    ensures var ms := SchemaMembers(properties, required);
            && Lookup(ms, "type") == Some(JString("object"))
            && Lookup(ms, "properties") == Some(properties)
            && Lookup(ms, "required") == Some(required)
            && Lookup(ms, "additionalProperties") == Some(JBool(false))
  {
    SchemaHeadLookups(properties, required);
    SchemaTailLookups(properties, required);
  }

  lemma SchemaHeadLookups(properties: Json, required: Json)
    ensures Lookup(SchemaMembers(properties, required), "type") == Some(JString("object"))
    ensures Lookup(SchemaMembers(properties, required), "properties") == Some(properties)
  {
    var ms := SchemaMembers(properties, required);
    var tail := [ms[2], ms[3]];
    assert ms == [] + [ms[0]] + ([ms[1]] + tail);
    LookupLastWins([], "type", JString("object"), [ms[1]] + tail);
    assert ms == [ms[0]] + [ms[1]] + tail;
    LookupLastWins([ms[0]], "properties", properties, tail);
  }

  lemma SchemaTailLookups(properties: Json, required: Json)
    ensures Lookup(SchemaMembers(properties, required), "required") == Some(required)
    ensures Lookup(SchemaMembers(properties, required), "additionalProperties") == Some(JBool(false))
  {
    var ms := SchemaMembers(properties, required);
    var head := [ms[0], ms[1]];
    assert ms == head + [ms[2]] + [ms[3]];
    LookupLastWins(head, "required", required, [ms[3]]);
    assert ms == (head + [ms[2]]) + [ms[3]] + [];
    LookupLastWins(head + [ms[2]], "additionalProperties", JBool(false), []);
  }

  // ---- Reading an exported schema back ----

  function ReadStrings(j: Json): Option<seq<string>> {
    if j.JArray? && forall i :: 0 <= i < |j.items| ==> j.items[i].JString? then
      Some(seq(|j.items|, i requires 0 <= i < |j.items| && j.items[i].JString? => j.items[i].s))
    else None
  }

  function ReadOptionalString(ms: seq<(string, Json)>, key: string): Option<Option<string>> {
    match Lookup(ms, key)
    case None => Some(None)
    case Some(JString(s)) => Some(Some(s))
    case Some(_) => None
  }

  function ReadOptionalStrings(ms: seq<(string, Json)>, key: string): Option<Option<seq<string>>> {
    match Lookup(ms, key)
    case None => Some(None)
    case Some(v) => if ReadStrings(v).Some? then Some(ReadStrings(v)) else None
  }

  /** Reads one property entry in the shape `GetArgumentForJson` writes. */
  function ReadProperty(j: Json): Option<FunctionProperty> {
    if !j.JObject? then None
    else
      match Lookup(j.members, "Type")
      case Some(JString(t)) =>
        var description := ReadOptionalString(j.members, "Description");
        var values := ReadOptionalStrings(j.members, "Enum");
        if description.Some? && values.Some? then Some(FunctionProperty(t, description.value, values.value)) else None
      case _ => None
  }

  function ReadProperties(j: Json): Option<seq<(string, FunctionProperty)>> {
    if j.JObject? && forall i :: 0 <= i < |j.members| ==> ReadProperty(j.members[i].1).Some? then
      Some(seq(|j.members|, i requires 0 <= i < |j.members| && ReadProperty(j.members[i].1).Some? =>
        (j.members[i].0, ReadProperty(j.members[i].1).value)))
    else None
  }

  /** Reads a parameter schema: a closed object schema's properties and required names. */
  function ReadToolSchema(j: Json): Option<(seq<(string, FunctionProperty)>, seq<string>)> {
    if !j.JObject? then None
    else if Lookup(j.members, "type") != Some(JString("object")) then None
    else if Lookup(j.members, "additionalProperties") != Some(JBool(false)) then None
    else
      match (Lookup(j.members, "properties"), Lookup(j.members, "required"))
      case (Some(p), Some(r)) =>
        if ReadProperties(p).Some? && ReadStrings(r).Some? then Some((ReadProperties(p).value, ReadStrings(r).value)) else None
      case _ => None
  }

  lemma ReadStringsRoundTrip(xs: seq<string>)
    ensures ReadStrings(StringsJson(xs)) == Some(xs)
  {
    var j := StringsJson(xs);
    assert forall i :: 0 <= i < |j.items| ==> j.items[i] == JString(xs[i]);
    assert ReadStrings(j).value == xs;
  }

  lemma ReadPropertyRoundTrip(p: FunctionProperty)
    ensures ReadProperty(PropertyJson(p)) == Some(p)
  {
    var ms := PropertyMembers(p);
    assert PropertyJson(p) == JObject(ms);
    PropertyTypeLookup(p);
    PropertyDescriptionLookup(p);
    assert ReadOptionalString(ms, "Description") == Some(p.description);
    PropertyEnumLookup(p);
    if p.enumValues.Some? {
      ReadStringsRoundTrip(p.enumValues.value);
    }
    assert ReadOptionalStrings(ms, "Enum") == Some(p.enumValues);
  }

  /** Reading back an exported tool's schema yields the definition's properties,
      in order, and its required names: the export loses nothing. */
  lemma ExportRoundTrip(d: FunctionDefinition)
    ensures ReadToolSchema(ToConversationTool(d).parameters) == Some((ExportedProperties(d), ExportedRequired(d)))
  {
    var props := ExportedProperties(d);
    var pj := PropertiesJson(props);
    forall i | 0 <= i < |props|
      ensures ReadProperty(pj.members[i].1) == Some(props[i].1)
    {
      ReadPropertyRoundTrip(props[i].1);
    }
    assert forall i :: 0 <= i < |props| ==> pj.members[i].0 == props[i].0;
    assert ReadProperties(pj).value == props;
    ReadStringsRoundTrip(ExportedRequired(d));
    SchemaLookups(pj, StringsJson(ExportedRequired(d)));
  }
}

=== FILE: usage.dfy ===
/** `Usage`, `TokenDetails` and `Usage.ParseFromBinaryData`: the token counts
    read from `response.usage` of a response-finished payload, and the
    exception each way of failing is rethrown as. */
module UsageModel {
  import opened Wrappers
  import opened Exceptions
  import opened Text
  import opened Json

  datatype TokenDetails = TokenDetails(cachedTokens: int, textTokens: int, audioTokens: int)

  /** A usage snapshot; a detail group is `None` when the payload has none. */
  datatype Usage = Usage(
    totalTokens: int,
    inputTokens: int,
    outputTokens: int,
    inputTokenDetails: Option<TokenDetails>,
    outputTokenDetails: Option<TokenDetails>)

  /** `new Usage()`: every counter 0, no detail groups. */
  const EmptyUsage: Usage := Usage(0, 0, 0, None, None)
  const EmptyDetails: TokenDetails := TokenDetails(0, 0, 0)

  // The `[JsonPropertyName]` of each field.
  const TotalTokensKey: string := "total_tokens"
  const InputTokensKey: string := "input_tokens"
  const OutputTokensKey: string := "output_tokens"
  const InputDetailsKey: string := "input_token_details"
  const OutputDetailsKey: string := "output_token_details"
  const CachedTokensKey: string := "cached_tokens"
  const TextTokensKey: string := "text_tokens"
  const AudioTokensKey: string := "audio_tokens"

  // The three messages `ParseFromBinaryData` rethrows with.
  const JsonParsingError: string := "JSON Parsing Error."
  const KeyNotFoundError: string := "Required key not found in JSON."
  const UnexpectedError: string := "An unexpected error occurred."

  /** The member the case-insensitive deserializer lets stand: the last one
      whose name equals `key` ignoring case. */
  function LookupIgnoreCase(members: seq<(string, Json)>, key: string): (r: Option<Json>)
    ensures r.None? <==> forall i :: 0 <= i < |members| ==> !EqualsIgnoreCase(members[i].0, key)
  {
    if |members| == 0 then None
    else if EqualsIgnoreCase(members[|members| - 1].0, key) then Some(members[|members| - 1].1)
    else LookupIgnoreCase(members[..|members| - 1], key)
  }

  /** Whatever precedes the last member naming `key` does not affect the lookup. */
  lemma {:induction false} LookupIgnoreCaseLastWins(front: seq<(string, Json)>, name: string, v: Json, back: seq<(string, Json)>, key: string)
    requires EqualsIgnoreCase(name, key)
    requires forall j :: 0 <= j < |back| ==> !EqualsIgnoreCase(back[j].0, key)
    ensures LookupIgnoreCase(front + [(name, v)] + back, key) == Some(v)
    decreases |back|
  {
    var ms := front + [(name, v)] + back;
    if |back| == 0 {
      assert ms == front + [(name, v)];
    } else {
      var shorter := back[..|back| - 1];
      var prefix := front + [(name, v)] + shorter;
      assert ms == prefix + [back[|back| - 1]];
      assert ms[..|ms| - 1] == prefix;
      LookupIgnoreCaseLastWins(front, name, v, shorter, key);
    }
  }

  /** No name matches both `total_tokens` and `input_tokens` (the one pair of
      `Usage` names of equal length), nor both `cached_tokens` and `text_tokens`. */
  lemma KeysDistinct(name: string)
    ensures !(EqualsIgnoreCase(name, TotalTokensKey) && EqualsIgnoreCase(name, InputTokensKey))
    ensures !(EqualsIgnoreCase(name, CachedTokensKey) && EqualsIgnoreCase(name, TextTokensKey))
  {
    if EqualsIgnoreCase(name, TotalTokensKey) {
      assert ToUpperAscii(name[0]) == 'T';
    }
  }

  /** The `[JsonPropertyName]`s of `Usage`'s fields and of `TokenDetails`' fields. */
  const UsageKeys: seq<string> := [TotalTokensKey, InputTokensKey, OutputTokensKey, InputDetailsKey, OutputDetailsKey]
  const DetailsKeys: seq<string> := [CachedTokensKey, TextTokensKey, AudioTokensKey]

  /** No name matches two different fields of `Usage`, nor two of `TokenDetails`,
      ignoring case: each member sets at most one field. */
  lemma AllKeysDistinct(name: string)
    ensures forall i, j :: 0 <= i < j < |UsageKeys| ==> !(EqualsIgnoreCase(name, UsageKeys[i]) && EqualsIgnoreCase(name, UsageKeys[j]))
    ensures forall i, j :: 0 <= i < j < |DetailsKeys| ==> !(EqualsIgnoreCase(name, DetailsKeys[i]) && EqualsIgnoreCase(name, DetailsKeys[j]))
  {
    KeysDistinct(name);
    assert |TotalTokensKey| == 12 && |InputTokensKey| == 12 && |OutputTokensKey| == 13;
    assert |InputDetailsKey| == 19 && |OutputDetailsKey| == 20;
    assert |CachedTokensKey| == 13 && |TextTokensKey| == 11 && |AudioTokensKey| == 12;
  }

  /** An `int` property: an integer literal within 32 bits, else a `JsonException`. */
  function ReadInt32(v: Json): (r: Result<int, Exception>)
    ensures r.Success? <==> v.JInt? && IsInt32(v.i)
    ensures r.Success? ==> r.value == v.i
    ensures r.Failure? ==> r.error == JsonError
  {
    if v.JInt? && IsInt32(v.i) then Success(v.i) else Failure(JsonError)
  }

  /** The value a counter ends with: the last matching member's integer, else 0. */
  function Counter(members: seq<(string, Json)>, key: string): int {
    match LookupIgnoreCase(members, key)
    case Some(JInt(i)) => i
    case _ => 0
  }

  // ---- TokenDetails ----

  /** A member the `TokenDetails` deserializer accepts: a counter with a 32-bit
      integer value, or a name it ignores. */
  predicate DetailsMemberValid(name: string, v: Json) {
    (EqualsIgnoreCase(name, CachedTokensKey) || EqualsIgnoreCase(name, TextTokensKey) || EqualsIgnoreCase(name, AudioTokensKey))
      ==> ReadInt32(v).Success?
  }

  /** Deserialising one member of a `TokenDetails` object. */
  function SetDetailsMember(d: TokenDetails, name: string, v: Json): (r: Result<TokenDetails, Exception>)
    ensures r.Success? <==> DetailsMemberValid(name, v)
    ensures r.Failure? ==> r.error == JsonError
  {
    if EqualsIgnoreCase(name, CachedTokensKey) then
      var n :- ReadInt32(v);
      Success(d.(cachedTokens := n))
    else if EqualsIgnoreCase(name, TextTokensKey) then
      var n :- ReadInt32(v);
      Success(d.(textTokens := n))
    else if EqualsIgnoreCase(name, AudioTokensKey) then
      var n :- ReadInt32(v);
      Success(d.(audioTokens := n))
    else Success(d)
  }

  /** Deserialising a `TokenDetails` object, member by member: any invalid
      member fails; otherwise each counter holds its last value, or 0. */
  function ReadDetailsMembers(members: seq<(string, Json)>): (r: Result<TokenDetails, Exception>)
    ensures r.Success? <==> forall i :: 0 <= i < |members| ==> DetailsMemberValid(members[i].0, members[i].1)
    ensures r.Success? ==> r.value == TokenDetails(Counter(members, CachedTokensKey), Counter(members, TextTokensKey), Counter(members, AudioTokensKey))
  {
    if |members| == 0 then Success(EmptyDetails)
    else
      var front := members[..|members| - 1];
      var (name, v) := members[|members| - 1];
      assert forall i :: 0 <= i < |front| ==> front[i] == members[i];
      var d :- ReadDetailsMembers(front);
      KeysDistinct(name);
      SetDetailsMember(d, name, v)
  }

  /** A detail group: `null` or an object, else a `JsonException`. */
  function ReadDetails(v: Json): (r: Result<Option<TokenDetails>, Exception>)
    ensures r.Success? <==> v.JNull? || (v.JObject? && ReadDetailsMembers(v.members).Success?)
    ensures v.JNull? ==> r == Success(None)
    ensures r.Failure? ==> r.error == JsonError
  {
    match v
    case JNull => Success(None)
    case JObject(ms) =>
      (match ReadDetailsMembers(ms)
       case Success(d) => Success(Some(d))
       case Failure(_) => Failure(JsonError))
    case _ => Failure(JsonError)
  }

  /** The value a detail group ends with: its last matching member, else `null`. */
  function DetailsGroup(members: seq<(string, Json)>, key: string): Result<Option<TokenDetails>, Exception> {
    match LookupIgnoreCase(members, key)
    case None => Success(None)
    case Some(v) => ReadDetails(v)
  }

  // ---- Usage ----

  predicate IsCounterKey(name: string) {
    EqualsIgnoreCase(name, TotalTokensKey) || EqualsIgnoreCase(name, InputTokensKey) || EqualsIgnoreCase(name, OutputTokensKey)
  }

  predicate IsDetailsKey(name: string) {
    EqualsIgnoreCase(name, InputDetailsKey) || EqualsIgnoreCase(name, OutputDetailsKey)
  }

  /** A member the `Usage` deserializer accepts. */
  predicate UsageMemberValid(name: string, v: Json) {
    && (IsCounterKey(name) ==> ReadInt32(v).Success?)
    && (IsDetailsKey(name) ==> ReadDetails(v).Success?)
  }

  /** Deserialising one member of a `Usage` object. */
  function SetUsageMember(u: Usage, name: string, v: Json): (r: Result<Usage, Exception>)
    ensures r.Success? <==> UsageMemberValid(name, v)
    ensures r.Failure? ==> r.error == JsonError
  {
    KeysDistinct(name);
    if EqualsIgnoreCase(name, TotalTokensKey) then
      var n :- ReadInt32(v);
      Success(u.(totalTokens := n))
    else if EqualsIgnoreCase(name, InputTokensKey) then
      var n :- ReadInt32(v);
      Success(u.(inputTokens := n))
    else if EqualsIgnoreCase(name, OutputTokensKey) then
      var n :- ReadInt32(v);
      Success(u.(outputTokens := n))
    else if EqualsIgnoreCase(name, InputDetailsKey) then
      var d :- ReadDetails(v);
      Success(u.(inputTokenDetails := d))
    else if EqualsIgnoreCase(name, OutputDetailsKey) then
      var d :- ReadDetails(v);
      Success(u.(outputTokenDetails := d))
    else Success(u)
  }

  /** `u` holds, in every field, the value of the last member of `members`
      naming that field, or the field's default when none does. */
  predicate Describes(u: Usage, members: seq<(string, Json)>) {
    && u.totalTokens == Counter(members, TotalTokensKey)
    && u.inputTokens == Counter(members, InputTokensKey)
    && u.outputTokens == Counter(members, OutputTokensKey)
    && DetailsGroup(members, InputDetailsKey) == Success(u.inputTokenDetails)
    && DetailsGroup(members, OutputDetailsKey) == Success(u.outputTokenDetails)
  }

  /** Appending one valid member updates exactly the field it names. */
  lemma DescribesStep(u: Usage, members: seq<(string, Json)>)
    requires |members| > 0 && Describes(u, members[..|members| - 1])
    requires SetUsageMember(u, members[|members| - 1].0, members[|members| - 1].1).Success?
    ensures Describes(SetUsageMember(u, members[|members| - 1].0, members[|members| - 1].1).value, members)
  {
    var front := members[..|members| - 1];
    var (name, v) := members[|members| - 1];
    KeysDistinct(name);
    assert LookupIgnoreCase(members, TotalTokensKey) == if EqualsIgnoreCase(name, TotalTokensKey) then Some(v) else LookupIgnoreCase(front, TotalTokensKey);
    assert LookupIgnoreCase(members, InputTokensKey) == if EqualsIgnoreCase(name, InputTokensKey) then Some(v) else LookupIgnoreCase(front, InputTokensKey);
    assert LookupIgnoreCase(members, OutputTokensKey) == if EqualsIgnoreCase(name, OutputTokensKey) then Some(v) else LookupIgnoreCase(front, OutputTokensKey);
    assert LookupIgnoreCase(members, InputDetailsKey) == if EqualsIgnoreCase(name, InputDetailsKey) then Some(v) else LookupIgnoreCase(front, InputDetailsKey);
    assert LookupIgnoreCase(members, OutputDetailsKey) == if EqualsIgnoreCase(name, OutputDetailsKey) then Some(v) else LookupIgnoreCase(front, OutputDetailsKey);
  }

  /** Deserialising a `Usage` object, member by member, names matched ignoring
      case: any invalid member fails; otherwise each field holds the value of
      the last member naming it, or its default when none does. */
  function ReadUsageMembers(members: seq<(string, Json)>): (r: Result<Usage, Exception>)
    ensures r.Success? <==> forall i :: 0 <= i < |members| ==> UsageMemberValid(members[i].0, members[i].1)
    ensures r.Failure? ==> r.error == JsonError
    ensures r.Success? ==> Describes(r.value, members)
  {
    if |members| == 0 then Success(EmptyUsage)
    else
      var front := members[..|members| - 1];
      var last := members[|members| - 1];
      AllUsageMembersValidSnoc(members);
      var previous := ReadUsageMembers(front);
      if previous.Failure? then Failure(previous.error)
      else
        var r := SetUsageMember(previous.value, last.0, last.1);
        if r.Success? then DescribesStep(previous.value, members); r else r
  }

  predicate AllUsageMembersValid(members: seq<(string, Json)>) {
    forall i :: 0 <= i < |members| ==> UsageMemberValid(members[i].0, members[i].1)
  }

  /** Every member is valid exactly when every earlier one and the last one are. */
  lemma AllUsageMembersValidSnoc(members: seq<(string, Json)>)
    requires |members| > 0
    ensures AllUsageMembersValid(members)
            <==> AllUsageMembersValid(members[..|members| - 1]) && UsageMemberValid(members[|members| - 1].0, members[|members| - 1].1)
  {
    var front := members[..|members| - 1];
    assert forall i :: 0 <= i < |front| ==> front[i] == members[i];
  }

  /** What `JsonSerializer.Deserialize<Usage>` makes of the `usage` element:
      `null` for a JSON null, a snapshot for a valid object, a `JsonException`
      otherwise. */
  function DeserializeUsage(v: Json): (r: Result<Option<Usage>, Exception>)
    ensures v.JNull? ==> r == Success(None)
    ensures r.Success? && r.value.Some? ==> v.JObject? && ReadUsageMembers(v.members) == Success(r.value.value)
    ensures r.Failure? <==> !v.JNull? && !(v.JObject? && ReadUsageMembers(v.members).Success?)
    ensures r.Failure? ==> r.error == JsonError
  {
    match v
    case JNull => Success(None)
    case JObject(ms) =>
      (match ReadUsageMembers(ms)
       case Success(u) => Success(Some(u))
       case Failure(_) => Failure(JsonError))
    case _ => Failure(JsonError)
  }

  /** `Usage.ParseFromBinaryData`. Text that is not JSON, and a `usage` value
      the deserializer rejects, give "JSON Parsing Error."; a missing
      `response` or `usage` key gives "Required key not found in JSON."; a
      root or `response` that is not an object gives "An unexpected error
      occurred."; a JSON null `usage` gives no snapshot and no error. */
  function ParseFromBinaryData(payload: Payload): (r: Result<Option<Usage>, Exception>)
    ensures payload.Unparseable? ==> r == Failure(InvalidOperation(JsonParsingError))
    ensures payload.Document? && !payload.root.JObject? ==> r == Failure(InvalidOperation(UnexpectedError))
    ensures payload.Document? && payload.root.JObject? && Lookup(payload.root.members, "response").None? ==>
              r == Failure(InvalidOperation(KeyNotFoundError))
    ensures payload.Document? && payload.root.JObject? ==>
              var response := Lookup(payload.root.members, "response");
              && (response.Some? && !response.value.JObject? ==> r == Failure(InvalidOperation(UnexpectedError)))
              && (response.Some? && response.value.JObject? ==>
                    var usage := Lookup(response.value.members, "usage");
                    && (usage.None? ==> r == Failure(InvalidOperation(KeyNotFoundError)))
                    && (usage.Some? && DeserializeUsage(usage.value).Failure? ==> r == Failure(InvalidOperation(JsonParsingError)))
                    && (usage.Some? && DeserializeUsage(usage.value).Success? ==> r == DeserializeUsage(usage.value)))
    ensures r.Failure? ==> r.error in {InvalidOperation(JsonParsingError), InvalidOperation(KeyNotFoundError), InvalidOperation(UnexpectedError)}
    ensures r.Success? ==>
              && payload.Document? && payload.root.JObject?
              && var response := Lookup(payload.root.members, "response");
              && response.Some? && response.value.JObject?
              && var usage := Lookup(response.value.members, "usage");
              && usage.Some? && DeserializeUsage(usage.value) == r
  {
    match payload
    case Unparseable => Failure(InvalidOperation(JsonParsingError))
    case Document(root) =>
      if !root.JObject? then Failure(InvalidOperation(UnexpectedError))
      else
        match Lookup(root.members, "response")
        case None => Failure(InvalidOperation(KeyNotFoundError))
        case Some(response) =>
          if !response.JObject? then Failure(InvalidOperation(UnexpectedError))
          else
            match Lookup(response.members, "usage")
            case None => Failure(InvalidOperation(KeyNotFoundError))
            case Some(usage) =>
              (match DeserializeUsage(usage)
               case Success(u) => Success(u)
               case Failure(_) => Failure(InvalidOperation(JsonParsingError)))
  }

  /** Only `response.usage` matters: any two payloads that agree there parse alike. */
  lemma OnlyUsagePathMatters(rootMembers: seq<(string, Json)>, responseMembers: seq<(string, Json)>, usage: Json)
    requires Lookup(rootMembers, "response") == Some(JObject(responseMembers))
    requires Lookup(responseMembers, "usage") == Some(usage)
    ensures ParseFromBinaryData(Document(JObject(rootMembers)))
            == ParseFromBinaryData(Document(JObject([("response", JObject([("usage", usage)]))])))
  {
    LookupLastWins([], "response", JObject([("usage", usage)]), []);
    LookupLastWins([], "usage", usage, []);
  }

  // ---- Encoding, for the round trip ----

  predicate IsInt32Details(d: Option<TokenDetails>) {
    d.Some? ==> IsInt32(d.value.cachedTokens) && IsInt32(d.value.textTokens) && IsInt32(d.value.audioTokens)
  }

  /** Every counter of the snapshot fits the 32-bit `int` fields. */
  predicate IsInt32Usage(u: Usage) {
    && IsInt32(u.totalTokens) && IsInt32(u.inputTokens) && IsInt32(u.outputTokens)
    && IsInt32Details(u.inputTokenDetails) && IsInt32Details(u.outputTokenDetails)
  }

  function DetailsToJson(d: Option<TokenDetails>): Json {
    match d
    case None => JNull
    case Some(t) => JObject([(CachedTokensKey, JInt(t.cachedTokens)), (TextTokensKey, JInt(t.textTokens)), (AudioTokensKey, JInt(t.audioTokens))])
  }

  /** The snapshot as the service writes it. */
  function UsageToJson(u: Usage): Json {
    JObject([
      (TotalTokensKey, JInt(u.totalTokens)),
      (InputTokensKey, JInt(u.inputTokens)),
      (OutputTokensKey, JInt(u.outputTokens)),
      (InputDetailsKey, DetailsToJson(u.inputTokenDetails)),
      (OutputDetailsKey, DetailsToJson(u.outputTokenDetails))])
  }

  /** A response-finished payload carrying `usage` at `response.usage`. */
  function ResponsePayload(usage: Json): Payload {
    Document(JObject([("response", JObject([("usage", usage)]))]))
  }

  lemma DetailsRoundTrip(d: Option<TokenDetails>)
    requires IsInt32Details(d)
    ensures ReadDetails(DetailsToJson(d)) == Success(d)
  {
    if d.Some? {
      var t := d.value;
      var ms := [(CachedTokensKey, JInt(t.cachedTokens)), (TextTokensKey, JInt(t.textTokens)), (AudioTokensKey, JInt(t.audioTokens))];
      assert ms[..2] == [(CachedTokensKey, JInt(t.cachedTokens)), (TextTokensKey, JInt(t.textTokens))];
      assert ms[..2][..1] == [(CachedTokensKey, JInt(t.cachedTokens))];
      assert EqualsIgnoreCase(CachedTokensKey, CachedTokensKey);
      assert EqualsIgnoreCase(TextTokensKey, TextTokensKey);
      assert EqualsIgnoreCase(AudioTokensKey, AudioTokensKey);
      assert ReadDetailsMembers(ms) == Success(t);
    }
  }

  /** Each field name occurs once in the encoded snapshot, so each lookup finds its own member. */
  lemma UsageLookups(u: Usage)
    ensures var ms := UsageToJson(u).members;
      && LookupIgnoreCase(ms, TotalTokensKey) == Some(JInt(u.totalTokens))
      && LookupIgnoreCase(ms, InputTokensKey) == Some(JInt(u.inputTokens))
      && LookupIgnoreCase(ms, OutputTokensKey) == Some(JInt(u.outputTokens))
      && LookupIgnoreCase(ms, InputDetailsKey) == Some(DetailsToJson(u.inputTokenDetails))
      && LookupIgnoreCase(ms, OutputDetailsKey) == Some(DetailsToJson(u.outputTokenDetails))
  {
    UsageCounterLookups(u);
    UsageDetailsLookups(u);
  }

  lemma UsageCounterLookups(u: Usage)
    ensures LookupIgnoreCase(UsageToJson(u).members, TotalTokensKey) == Some(JInt(u.totalTokens))
    ensures LookupIgnoreCase(UsageToJson(u).members, InputTokensKey) == Some(JInt(u.inputTokens))
    ensures LookupIgnoreCase(UsageToJson(u).members, OutputTokensKey) == Some(JInt(u.outputTokens))
  {
    EncodedFieldLookup(u, 0);
    EncodedFieldLookup(u, 1);
    EncodedFieldLookup(u, 2);
  }

  lemma UsageDetailsLookups(u: Usage)
    ensures LookupIgnoreCase(UsageToJson(u).members, InputDetailsKey) == Some(DetailsToJson(u.inputTokenDetails))
    ensures LookupIgnoreCase(UsageToJson(u).members, OutputDetailsKey) == Some(DetailsToJson(u.outputTokenDetails))
  {
    EncodedFieldLookup(u, 3);
    EncodedFieldLookup(u, 4);
  }

  /** The encoded member at `i` is the last one naming its field. */
  lemma EncodedFieldLookup(u: Usage, i: nat)
    requires i < 5
    ensures var ms := UsageToJson(u).members; LookupIgnoreCase(ms, ms[i].0) == Some(ms[i].1)
  {
    var ms := UsageToJson(u).members;
    assert !EqualsIgnoreCase(InputTokensKey, TotalTokensKey) by { KeysDistinct(InputTokensKey); }
    assert forall j :: i < j < |ms| ==> |ms[j].0| != |ms[i].0| || (i == 0 && j == 1);
    assert ms == ms[..i] + [ms[i]] + ms[i + 1..];
    LookupIgnoreCaseLastWins(ms[..i], ms[i].0, ms[i].1, ms[i + 1..], ms[i].0);
  }

  /** Deserialising the encoded members gives back the snapshot. */
  lemma UsageMembersRoundTrip(u: Usage)
    requires IsInt32Usage(u)
    ensures ReadUsageMembers(UsageToJson(u).members) == Success(u)
  {
    var ms := UsageToJson(u).members;
    DetailsRoundTrip(u.inputTokenDetails);
    DetailsRoundTrip(u.outputTokenDetails);
    assert !EqualsIgnoreCase(InputTokensKey, TotalTokensKey) by { KeysDistinct(InputTokensKey); }
    forall i | 0 <= i < |ms|
      ensures UsageMemberValid(ms[i].0, ms[i].1)
    {
    }
    UsageLookups(u);
    var r := ReadUsageMembers(ms);
    assert Describes(r.value, ms);
  }

  /** Parsing the payload the service writes gives back the snapshot. */
  lemma ParseRoundTrip(u: Usage)
    requires IsInt32Usage(u)
    ensures ParseFromBinaryData(ResponsePayload(UsageToJson(u))) == Success(Some(u))
  {
    var usage := UsageToJson(u);
    var response := JObject([("usage", usage)]);
    LookupLastWins([], "response", response, []);
    assert Lookup([("response", response)], "response") == Some(response);
    LookupLastWins([], "usage", usage, []);
    assert Lookup(response.members, "usage") == Some(usage);
    UsageMembersRoundTrip(u);
    assert DeserializeUsage(usage) == Success(Some(u));
  }

  /** A JSON null at `response.usage` is no snapshot, not an error. */
  lemma NullUsageIsNoSnapshot()
    ensures ParseFromBinaryData(ResponsePayload(JNull)) == Success(None)
  {
    LookupLastWins([], "response", JObject([("usage", JNull)]), []);
    LookupLastWins([], "usage", JNull, []);
  }

  /** An empty `usage` object is the all-zero snapshot: absent counters are 0,
      absent detail groups are null. */
  lemma AbsentFieldsDefault()
    ensures ParseFromBinaryData(ResponsePayload(JObject([]))) == Success(Some(EmptyUsage))
  {
    LookupLastWins([], "response", JObject([("usage", JObject([]))]), []);
    LookupLastWins([], "usage", JObject([]), []);
  }
}

=== FILE: wrappers.dfy ===
/** Failure-compatible result types used throughout the model: a .NET `null`
    becomes `None`, a thrown exception becomes `Failure` or `Fail`. */
module Wrappers {

  /** A possibly-null reference or an absent value. */
  datatype Option<+T> = None | Some(value: T) {

    /** The value, or `default` when absent (C#'s `??`). */
    function GetOr(default: T): T {
      match this
      case Some(v) => v
      case None => default
    }
  }

  /** The outcome of a call that returns a value or throws. */
  datatype Result<+T, +E> = Success(value: T) | Failure(error: E) {

    predicate IsFailure() {
      Failure?
    }

    function PropagateFailure<U>(): Result<U, E>
      requires Failure?
    {
      Failure(error)
    }

    function Extract(): T
      requires Success?
    {
      value
    }
  }

  /** The outcome of a call that returns nothing or throws. */
  datatype Outcome<+E> = Pass | Fail(error: E) {

    predicate IsFailure() {
      Fail?
    }

    function PropagateFailure<U>(): Result<U, E>
      requires Fail?
    {
      Failure(error)
    }
  }
}
